=== FILE: README.md ===
# HDFC banking assistant — a Dafny model of its decision logic

The HDFC banking assistant answers bank customers from a command-line loop
(`app/chatbot.py`) and a web chat page (`app/streamlit_chatbot_ui.py`).
Each turn goes through the same steps:

1. A language model classifies the query into an intent and one of nine use cases.
2. A context is gathered for that use case. It comes from the document store,
   the customer's ledger, a fraud ticket, live RBI and HDFC Bank pages, or a
   link resolver.
3. A model writes the answer.
4. The turn is remembered.

Around this sit an agent pipeline (plan, search, open, scrape, validate,
answer, cache), a global semantic answer cache, a bounded debug log, and two
retry wrappers for the model APIs.

This project models the deterministic logic around all of those calls and
proves properties of it. Everything the program asks of the outside world is
a parameter:

- model replies, including the planner's structured reply and the answer generator;
- fetched pages, already parsed into anchors, text nodes and table cells;
- the file system and the PDF, Word and Excel readers;
- the ledger renderer, the date, and the cache's similarity test.

Each module follows one source file:

| module | source file |
|---|---|
| `CacheManager` | `app/utils/cache_manager.py` |
| `ValidatorAgent` | `app/utils/validator_agent.py` |
| `IntentMapper` | `app/utils/intent_mapper.py` |
| `UrlResolver` | `app/utils/gemini_url_resolver.py` |
| `LabelledReply` | the line reader both of those parsers share |
| `ContextTracker` | `app/utils/context_tracker.py` |
| `Session` | the session record |
| `FrontEnd` | the routing both front ends share |
| `FraudTicket` | the fraud-ticket rule of both front ends |
| `Chatbot` | one CLI turn |
| `ChatUi` | one web "Send" |
| `AgentOrchestrator` | `app/utils/agent_orchestrator.py` |
| `PlannerAgent` | `app/utils/planner_agent.py` |
| `RagEngine` | both `rag_engine.py` files, as two variants of one loader |
| `ScraperAgent` | `app/utils/scraper_agent.py` |
| `WebRetriever` | `app/utils/web_retriever.py` |
| `Retry` | the attempt loop both model helpers share |
| `GeminiHelper` | `app/utils/gemini_helper.py` |
| `CohereHelper` | `app/utils/cohere_helper.py` |
| `DebugLogger` | `app/utils/debug_logger.py` |

`Text`, `Seqs`, `OrderedMap`, `StringOrder` and `Wrappers` hold the Python
string, list, dict and `sorted` behaviour the rest relies on. They cover
`strip`, `lower`, `title`, `split`, `splitlines`, `join`, slicing,
insertion-ordered dictionaries and code-point string order.

Text is modelled as ASCII. `strip`, `lower`, `title`, `splitlines` and
the regex class `\w` are read with their ASCII meaning; the Unicode
extensions of Python's versions are not modelled.

## Where the code and its description part ways

The code is followed in each of these cases. The one substitution the model
makes, for the CLI's link resolver, is listed under "Left out".

- **Orchestrator tools.** The orchestrator imports tool functions that no
  shown module defines (`search_with_google`, `run_scraper`,
  `validate_schema_against_usecase`, `extract_metadata_type`). They are
  abstract fields of `AgentOrchestrator.Tools`.
- **Search results.** The orchestrator reads `search_results[0]['link']`.
  The model takes the search tool to return the links themselves.
- **Cache gate.** The orchestrator never calls `is_public_query`, so nothing
  gates its cache write by use case.
- **Planner arguments.** It passes the use case to `plan_next_action` in the
  `intent` position, where it is ignored.
- **Cache file.** `_load` and `_save` touch a JSON file. The model makes the
  file a field of the cache state (`CacheManager.Disk`) so that persistence
  can be stated; the file format is not modelled.

## Model

| member | source | states |
|---|---|---|
| CacheManager.IsPublicQuery | app/utils/cache_manager.py:19-33 | a query is cacheable exactly when its use case is one of the seven public labels |
| CacheManager.PublicIsVocabularyMinusPersonal | app/utils/cache_manager.py:19-33 | the intent never matters; the public labels are the classifier's nine minus "Transaction History" and "Fraud Complaint - Scenario" |
| CacheManager.Fresh | app/utils/cache_manager.py:34-35 | a new process starts with an empty cache that meets the invariant whenever the saved file is within bounds |
| CacheManager.Load | app/utils/cache_manager.py:38-44 | only an empty in-memory cache reads the file; a missing or unreadable file leaves it empty; the file itself is untouched and the invariant kept |
| CacheManager.FindSimilar | app/utils/cache_manager.py:52-63 | the result is the earliest cached query similar to the query; None means no cached query is similar |
| CacheManager.TruthyMatch | app/utils/cache_manager.py:71-72 | a hit is the earliest similar cached query, and counts only when that query is non-empty, because `if match:` rejects "" |
| CacheManager.MoveToEnd | app/utils/cache_manager.py:73 | the hit entry becomes last; the entries before it keep their positions and those after it shift down by one; no entry is added or lost |
| CacheManager.MoveToEndKeepsLookups | app/utils/cache_manager.py:73 | reordering on a hit changes no key's answer |
| CacheManager.Get | app/utils/cache_manager.py:66-75 | a hit returns the matched entry's answer and makes it most recent, keeping the others in order; a miss returns None and changes nothing beyond the load; the file is never written |
| CacheManager.GetAnswersEarliestSimilar | app/utils/cache_manager.py:52-75 | when the earliest cached query similar to the asked one is non-empty, `get` answers with its response and makes it the most recent |
| CacheManager.Set | app/utils/cache_manager.py:78-90 | a query similar to a cached one changes nothing; any other query is stored under its own key after what eviction kept, with room every other key keeps its entry and position, and the file is saved with exactly the new contents |
| CacheManager.NonFullSetAppends | app/utils/cache_manager.py:86-90 | a cache with room that stores a new query keeps every entry in order, puts the pair last, and saves exactly that |
| CacheManager.SetKeepsOtherAnswers | app/utils/cache_manager.py:89 | a storing `set` on a cache with room leaves every other query's answer as it was |
| CacheManager.Evict | app/utils/cache_manager.py:86-87 | a full cache drops exactly its front entry; a cache below 50 entries is kept whole |
| CacheManager.SetThenGet | app/utils/cache_manager.py:78-90 | after storing an answer for a query unlike every cached one, asking that query returns the answer, given the query is similar to itself |
| CacheManager.NewQueryGoesLast | app/utils/cache_manager.py:83-89 | a query unlike every cached one, and similar to itself, is stored last, after what eviction kept |
| CacheManager.GetOfLastEntry | app/utils/cache_manager.py:66-75 | a `get` of the query held last, when no earlier key is similar to it, answers with its stored value |
| CacheManager.SetOfDuplicateKeepsOldAnswer | app/utils/cache_manager.py:82-84 | storing a near-duplicate keeps the earlier answer, which is what a later lookup returns |
| CacheManager.SizeBound | app/utils/cache_manager.py:86-89 | neither `get` nor `set` ever leaves more than 50 entries |
| CacheManager.FullCacheEvictsOldest | app/utils/cache_manager.py:86-89 | a full cache storing a new query loses exactly its oldest entry and gains the new pair at the end |
| CacheManager.HitIsNotNextEvicted | app/utils/cache_manager.py:72-73 | with two or more entries, the entry a `get` just hit is not the next to be evicted |
| CacheManager.SavedSetSurvivesRestart | app/utils/cache_manager.py:38-49 | what a storing `set` saves is exactly what a fresh process loads |
| CacheManager.OnlyStoringSetSaves | app/utils/cache_manager.py:82-90 | `get` never writes the file; `set` writes it exactly when it stores |
| ValidatorAgent.IsValidUrl | app/utils/validator_agent.py:8-12 | a valid URL, once stripped, starts with "http" and is longer than seven characters |
| ValidatorAgent.PatternExcludesQuery | app/utils/validator_agent.py:6 | an accepted URL holds no `?`, `=` or space, and its only `:` is the scheme's |
| ValidatorAgent.ValidUrlIgnoresPadding | app/utils/validator_agent.py:12 | surrounding whitespace never changes the verdict |
| ValidatorAgent.UrlPatternComposes | app/utils/validator_agent.py:6 | any http or https scheme followed by a non-empty run of `[A-Za-z0-9_./%-]` is accepted |
| ValidatorAgent.ValidateLinks | app/utils/validator_agent.py:14-24 | the result is never longer than the input, and it is empty exactly when no input link passes the filter |
| ValidatorAgent.ValidatedLinkIsClean | app/utils/validator_agent.py:20-23 | every surviving link is a stripped, well-formed URL with a stripped title, taken from some input pair |
| ValidatorAgent.ValidateLinksAppend | app/utils/validator_agent.py:18-24 | validation keeps input order: it distributes over concatenation |
| ValidatorAgent.ValidateLinksCount | app/utils/validator_agent.py:19-24 | exactly the links that pass the filter survive, so a list of good links loses none |
| ValidatorAgent.ValidateText | app/utils/validator_agent.py:26-30 | accepted text has at least 300 characters; blank text always fails; text with nothing to strip passes exactly when it has 300 characters or more |
| ValidatorAgent.ValidTextIgnoresPadding | app/utils/validator_agent.py:30 | whitespace around a text never changes the verdict, and the content between it passes exactly when it has at least 300 characters |
| ValidatorAgent.ValidateTableText | app/utils/validator_agent.py:32-36 | table text passes exactly when it holds a vertical bar or a newline somewhere |
| ValidatorAgent.ValidateScrapedData | app/utils/validator_agent.py:38-56 | a section is kept exactly when present and valid; text and tables are kept unchanged; links are kept, cleaned, only when one survives |
| ValidatorAgent.IsValidResponse | app/utils/validator_agent.py:58-64 | a response is valid exactly when validation keeps some section |
| ValidatorAgent.ValidResponseIffSomeSection | app/utils/validator_agent.py:58-64 | validity holds exactly when the text is long enough, or the tables pass, or one link passes the filter |
| ValidatorAgent.RevalidationKeepsTextAndTables | app/utils/validator_agent.py:43-49 | validating the kept text and tables again keeps them both |
| ValidatorAgent.SampleScrape | app/utils/validator_agent.py:67-74 | in the module's sample without its links (the link is SampleLink) the short text is dropped, the table is kept, and the response is valid |
| ValidatorAgent.CleanPairSurvives | app/utils/validator_agent.py:20-23 | a clean pair with a non-empty title passes unchanged |
| ValidatorAgent.SampleLink | app/utils/validator_agent.py:71 | the sample's RBI link passes unchanged |
| IntentMapper.UseCasesAreDistinct | app/utils/intent_mapper.py:5-15 | the vocabulary is nine different labels |
| IntentMapper.MenuListsEveryUseCase | app/utils/intent_mapper.py:25 | the prompt's menu offers the nine labels, one "- label" line each, in order |
| IntentMapper.PrefixesAreDistinctLabels | app/utils/intent_mapper.py:40-43 | no reply line can carry both the intent key and the use-case key |
| IntentMapper.OrUnknown | app/utils/intent_mapper.py:46-47 | a missing or empty field reads "unknown"; any other value is kept |
| IntentMapper.ParseIntentUseCase | app/utils/intent_mapper.py:35-48 | both fields are always non-empty; each is the value of the last reply line carrying its key, else "unknown" |
| IntentMapper.NoFieldsMeansUnknown | app/utils/intent_mapper.py:45-48 | a reply with neither key yields "unknown" twice |
| IntentMapper.LastUseCaseLineWins | app/utils/intent_mapper.py:39-43 | a final `Use Case:` line decides the use case whatever came before, and its value is not checked against the vocabulary |
| LabelledReply.LabelledLineHasColon | app/utils/intent_mapper.py:41 | a line that carries a key has a colon to split at |
| LabelledReply.LabelsExclusive | app/utils/intent_mapper.py:40-42 | for two distinct keys at most one branch of the `if`/`elif` applies to a line |
| LabelledReply.ParseLinesKeepsLast | app/utils/gemini_url_resolver.py:31-35 | the reading loop leaves each field at the value of the last line carrying its key, else where it started |
| LabelledReply.ParseReply | app/utils/gemini_url_resolver.py:28-36 | each field is the value of the last line of the stripped reply that carries its key, or None |
| LabelledReply.NoMatchNoValue | app/utils/gemini_url_resolver.py:30 | without a line carrying the key the field stays None |
| LabelledReply.LastLineWins | app/utils/intent_mapper.py:39-43 | a later line carrying the key overrides every earlier one |
| LabelledReply.LastReplyLineSetsSecond | app/utils/gemini_url_resolver.py:34-35 | when the reply's last line carries the second key, the second field is that line's value |
| LabelledReply.OtherLineKeeps | app/utils/intent_mapper.py:39-43 | a line without the key leaves the field as it was |
| LabelledReply.NameCarriesKey | app/utils/intent_mapper.py:40 | "Intent:" and "Use Case:" in any letter case carry the lower-case key |
| LabelledReply.LabelLineValue | app/utils/gemini_url_resolver.py:33-35 | the value of `Name: v` is `v`; only the first colon splits, so a URL keeps its "://" |
| ContextTracker.GetLastUseCase | app/utils/context_tracker.py:3-6 | None exactly when memory is empty, else the newest turn's use case |
| ContextTracker.UpdateContextWithMemory | app/utils/context_tracker.py:8-20 | the intent is never altered; the use case changes only when it is "Unclear" and the newest turn has a non-empty use case, which then replaces it |
| ContextTracker.UnknownNeverFallsBack | app/utils/context_tracker.py:17 | the parser's default "unknown" is not "Unclear", so it never uses memory |
| ContextTracker.OnlyNewestTurnCounts | app/utils/context_tracker.py:5 | a newest turn with an empty use case blocks the fallback whatever older turns hold |
| ContextTracker.ResultIsClassifiedOrRemembered | app/utils/context_tracker.py:13-20 | the result is the classifier's label or a label some remembered turn carries |
| UrlResolver.KeysAreDistinctLabels | app/utils/gemini_url_resolver.py:32-34 | no line carries both the title key and the url key |
| UrlResolver.ParseTitleUrl | app/utils/gemini_url_resolver.py:28-36 | each field is the value of the last line starting, in any case, with its key; None otherwise |
| UrlResolver.LastUrlLineIsUrl | app/utils/gemini_url_resolver.py:34-35 | a reply ending in a `URL:` line yields that line's value as the url |
| UrlResolver.NoKeysNoLink | app/utils/gemini_url_resolver.py:30 | a reply with neither key yields no title and no url |
| UrlResolver.KnownLinksAreHttps | app/utils/gemini_url_resolver.py:17-25 | every table link starts with "https://" and every keyword is non-empty |
| UrlResolver.FirstKeyword | app/utils/gemini_url_resolver.py:72-73 | the row found is the first, in table order, whose keyword occurs in the text; None means no keyword occurs |
| UrlResolver.FallbackFromKnownLinks | app/utils/gemini_url_resolver.py:71-75 | a url is returned exactly when a keyword occurs in the lower-cased query; it is the first such row's link, titled in title case; otherwise both fields are None |
| UrlResolver.GetBestUrl | app/utils/gemini_url_resolver.py:78-90 | Cohere's answer wins when its url starts with "http", then Gemini's, then the keyword table |
| UrlResolver.FormatUrlResponse | app/utils/gemini_url_resolver.py:93-96 | the link message appears exactly when title and url are non-empty and the url starts with "http"; otherwise the fixed refusal |
| UrlResolver.StaticHitFormatsAsLink | app/utils/gemini_url_resolver.py:74 | a keyword-table hit always formats as a link message |
| UrlResolver.FallbackAnswersWithTableLink | app/utils/gemini_url_resolver.py:89-90 | when both providers fail and the query names a keyword, the answer is a link, not the refusal |
| UrlResolver.AcceptedWithoutTitleFails | app/utils/gemini_url_resolver.py:81-82 | a provider url without a title still skips the table and ends in the refusal |
| UrlResolver.ResolvedNeverStartsWithHttp | app/utils/gemini_url_resolver.py:93-100 | the resolver's answer never starts with "http" |
| Session.Remember | app/chatbot.py:111-117 | the remembered context is the first 500 characters of the context, or all of it when shorter; the other fields are kept |
| Session.AppendTurn | app/streamlit_chatbot_ui.py:101-107 | the new turn goes after every earlier one; who the customer is and their ledger never change |
| Session.AppendKeepsHistory | app/streamlit_chatbot_ui.py:101-107 | memory grows by exactly one and the earlier turns are untouched |
| Session.Tail5 | app/chatbot.py:53 | the ledger context sees the newest five rows, or all rows when fewer |
| FrontEnd.RoutedUseCasesAreVocabulary | app/chatbot.py:42-61 | every routed label is in the classifier's vocabulary and the nine routes are distinct, so test order never matters |
| FrontEnd.LedgerContextSeesFiveNewest | app/streamlit_chatbot_ui.py:62-63 | rows older than the newest five never change the ledger context |
| FraudTicket.LastTxnIndex | app/chatbot.py:62-66 | the newest "Transaction History" turn, or None exactly when memory holds none |
| FraudTicket.FindLastTxnContext | app/streamlit_chatbot_ui.py:70-74 | the context of the newest "Transaction History" turn; no later turn has that use case |
| FraudTicket.NewestTxnTurnWins | app/chatbot.py:63-66 | a newer transaction turn hides every older one, even with an empty context |
| FraudTicket.CliTxnCount | app/chatbot.py:69-70 | the CLI counts at most one per piece of the stripped context split at newlines |
| FraudTicket.UiTxnCount | app/streamlit_chatbot_ui.py:76 | the web page counts at most one per line |
| FraudTicket.CliCountsNonEmptyRows | app/chatbot.py:69-70 | on rows joined by newlines with nothing to strip at the ends, the CLI counts exactly the non-empty rows |
| FraudTicket.UiCountsNonBlankRows | app/streamlit_chatbot_ui.py:76 | on non-empty one-line rows joined by newlines, the web page counts exactly the rows that are not blank |
| FraudTicket.LedgerRowsAreCounted | app/chatbot.py:69-72 | a ledger of n non-blank one-line rows gives the count n, on the web page (app/streamlit_chatbot_ui.py:76) as on the CLI |
| FraudTicket.BlankLineCountsOnlyInCli | app/chatbot.py:69-70 | a line of blanks inserted among ledger rows raises the CLI's count by one and leaves the web page's count (app/streamlit_chatbot_ui.py:76) unchanged |
| FraudTicket.TicketIdEncodesCount | app/chatbot.py:71-72 | the ticket id reads back as user, date, and the count in at least two digits |
| FraudTicket.CliFraudContext | app/chatbot.py:61-80 | a ticket message when the newest transaction turn has a non-empty context; the CLI warning when it is empty or missing |
| FraudTicket.UiFraudContext | app/streamlit_chatbot_ui.py:69-82 | the same rule with the web page's wording and line count |
| FraudTicket.TicketMessagesEndWithTicket | app/chatbot.py:74-78 | both ticket messages end with the ticket id |
| FraudTicket.EmptyNewestContextWarns | app/chatbot.py:68-80 | an empty newest transaction context warns even when older transaction turns had rows |
| Chatbot.CliTurn | app/chatbot.py:31-117 | the turn exits exactly on "exit" or "quit" in any case; otherwise it appends one turn holding the stripped query, the classified intent, the use case (the newest turn's when the label is "Unclear" and that use case is non-empty, the label otherwise), the generated answer, and the first 500 characters of the context gathered for that use case; who the customer is never changes |
| Chatbot.AnsweredTurnIsRemembered | app/chatbot.py:111-117 | an answered turn adds one turn with the stripped query and at most 500 characters of context, keeping the earlier ones |
| Chatbot.UnclearFollowsNewestTurn | app/utils/context_tracker.py:16-18 | in the CLI an "Unclear" query takes the newest turn's non-empty use case, which is remembered and decides the context |
| Chatbot.PaddingIsIgnored | app/chatbot.py:31 | blanks before or after the input never change the turn |
| Chatbot.IsExit | app/chatbot.py:32 | only a four-letter input can end the loop |
| Chatbot.ExitIgnoresCase | app/chatbot.py:32 | the exit words are recognised in any letter case |
| Chatbot.GatherContext | app/chatbot.py:42-80 | the use case decides first: the six document use cases read the store, "Transaction History" the newest five ledger rows, the mutual-fund case its fixed text, and the fraud case the ticket rule |
| Chatbot.KeywordPrecedence | app/chatbot.py:82-105 | for any other use case the keywords decide in a fixed order, "rbi circulars" before "credit card" before "interest rate", and the link resolver answers the rest |
| Chatbot.KeywordsIgnoreCase | app/chatbot.py:82-93 | keywords match in any letter case: two queries equal once lower-cased and naming a keyword get the same context |
| Chatbot.CardsContext | app/chatbot.py:86-91 | the card link is offered exactly when there is one card and it starts with "http", and then it is that card; otherwise the header is followed by the formatted list |
| Chatbot.RatesContext | app/chatbot.py:93-98 | the rates link is offered exactly when some value contains "http", and then it is the first value; otherwise the header is followed by the formatted rates |
| Chatbot.NoRatesListNothing | app/chatbot.py:97-98 | an empty rates table gives the header alone |
| Chatbot.LinkContext | app/chatbot.py:100-105 | an answer starting with "http" is offered after the pointer text; any other answer is kept in front of the request to clarify |
| Chatbot.UseCaseBeatsKeywords | app/chatbot.py:42-50 | a document use case takes its context from the store whatever keywords the query holds |
| Chatbot.LinkBranchAlwaysAsksToClarify | app/chatbot.py:100-105 | the last branch always appends the request to clarify and never offers a bare link |
| Chatbot.CardsPointerOnlyForPageText | app/chatbot.py:86-91 | the card link is offered only for a name read off the page, never for the placeholder or an error |
| Chatbot.RatesErrorMayPoseAsLink | app/chatbot.py:93-96 | a failed rates request whose error mentions "http" is offered as the rates link |
| Chatbot.PlainRatesAreListed | app/chatbot.py:97-98 | without "http" in any value the rates are listed one per line |
| ChatUi.ChooseUseCase | app/streamlit_chatbot_ui.py:46-49 | "General Query" keeps a remembered non-empty topic; any other label becomes the topic |
| ChatUi.UiContext | app/streamlit_chatbot_ui.py:52-85 | document use cases read the store, "Transaction History" the newest five ledger rows, the mutual-fund case the page's fixed text, the fraud case raises a ticket, and any unrouted label gets the fixed notice |
| ChatUi.LastThree | app/streamlit_chatbot_ui.py:90 | the summary covers the newest three turns, or all of them when fewer |
| ChatUi.PastSummaryForgetsOlderTurns | app/streamlit_chatbot_ui.py:88-91 | turns older than the newest three never reach the generator; no turns give "" |
| ChatUi.SendAsWritten | app/streamlit_chatbot_ui.py:93-98 | as written, every non-empty send raises and leaves memory and the visible history unchanged |
| ChatUi.FailedSendStillMovesTopic | app/streamlit_chatbot_ui.py:45-98 | as written, a failed send has still replaced the topic with its new label |
| ChatUi.Send | app/streamlit_chatbot_ui.py:39-110 | an empty message does nothing; otherwise memory and the chat history each grow by one entry, the shown pair is the message with the remembered answer, the topic becomes the turn's use case (differing from the classifier only for a "General Query" kept on the remembered topic), and the answer is generated from that topic's context and the past summary, of which the first 500 characters are remembered |
| ChatUi.SendKeepsHistoryInStep | app/streamlit_chatbot_ui.py:101-110 | memory and the chat history grow together by one; the newest history pair is the remembered exchange |
| ChatUi.GeneralQueryStaysOnTopic | app/streamlit_chatbot_ui.py:46-47 | a "General Query" stays on the remembered topic and records it |
| ChatUi.FirstGeneralQueryBecomesTopic | app/streamlit_chatbot_ui.py:48-49 | a "General Query" with no topic becomes the topic and then sticks |
| AgentOrchestrator.Front | app/utils/agent_orchestrator.py:20-41 | a stop happens after two to four steps, taken in pipeline order |
| AgentOrchestrator.HandleQuery | app/utils/agent_orchestrator.py:12-68 | the steps run in pipeline order; the cache is written only after validation, with the generated answer under the query; the invariant is kept |
| AgentOrchestrator.HandleQueryAsWritten | app/utils/agent_orchestrator.py:56-62 | as written, a run raises exactly when validation passes, and the cache is never written |
| AgentOrchestrator.EarlyExitsShortCircuit | app/utils/agent_orchestrator.py:24-41 | no results, no HTML or no data each end the run with their own message and an untouched cache |
| AgentOrchestrator.RejectedDataIsNotAnswered | app/utils/agent_orchestrator.py:66-68 | failed validation returns the fixed apology, with no answer generated and no cache write |
| AgentOrchestrator.FailedPlanningSearchesForNone | app/utils/agent_orchestrator.py:20-24 | failed planning makes the pipeline search for the word "none" |
| AgentOrchestrator.ValidatedAnswerIsCached | app/utils/agent_orchestrator.py:46-64 | a validated answer can be read back from the cache under the query |
| AgentOrchestrator.VersionsAgreeOffTheSuccessPath | app/utils/agent_orchestrator.py:24-41 | the two versions differ only on runs that pass validation |
| PlannerAgent.PlanToolsForQuery | app/utils/planner_agent.py:28-58 | a list reply is returned as given; anything else becomes `["none"]` |
| PlannerAgent.PlanNextAction | app/utils/planner_agent.py:61-63 | the first planned tool, or "none" for an empty plan |
| PlannerAgent.FailedPlanningMeansNone | app/utils/planner_agent.py:55-63 | failed or empty planning yields "none", and the intent and use case never matter |
| PlannerAgent.PlanIsNotChecked | app/utils/planner_agent.py:51-54 | any list the model gives is acted on: its first name is the next action even when it is no tool, and repeated names are all kept |
| PlannerAgent.ExamplesAreWellFormed | app/utils/planner_agent.py:12-25 | the twelve sample plans are non-empty, use only the six tool names, and use "none" and "link_resolver" only alone |
| RagEngine.DocumentUseCasesAreConfigured | app/utils/rag_engine.py:10-49 | every use case the front ends send to the store is configured; "Transaction History" is not |
| RagEngine.Basename | app/utils/rag_engine.py:73 | the text after the last "/": a suffix of the path without "/" |
| RagEngine.BasenameOfJoin | app/utils/rag_engine.py:85 | a listed name joined under its folder has that name as its basename |
| RagEngine.DocxTextLines | app/utils/rag_engine.py:53-55 | the text splits back into exactly the stripped non-blank paragraphs |
| RagEngine.Head5 | app/utils/rag_engine.py:69 | a sheet preview holds the first five rows, or all rows when fewer |
| RagEngine.XlsxText | app/utils/rag_engine.py:64-73 | a read error becomes the Excel warning; otherwise the sheet parts are joined by blank lines |
| RagEngine.SheetPreviewSeesFiveRows | app/utils/rag_engine.py:69-70 | rows past the fifth never reach a preview |
| RagEngine.FileParts | app/utils/rag_engine.py:86-104 | an unsupported file gives nothing and a supported one exactly one part: a PDF's text, a Word file's stripped non-blank paragraphs, or the workbook text in the app loader; a failing read gives the warning naming the file |
| RagEngine.DirParts | app/utils/rag_engine.py:84-94 | a folder contributes exactly one part per supported entry |
| RagEngine.DirPartsAreEntryParts | app/utils/rag_engine.py:84-94 | a folder's parts are the parts of its supported entries, one each, in the order given, and nothing else |
| RagEngine.DirPartsOfEntry | app/utils/rag_engine.py:85-94 | an entry is read at its path inside the folder and reported under its own name |
| RagEngine.DirPartsAppend | app/utils/rag_engine.py:84 | entries contribute in order: the parts of a listing are those of its first entries followed by those of the rest |
| RagEngine.LoadDocuments | app/utils/rag_engine.py:75-109 | an unconfigured use case gets its message and no parts give theirs; otherwise the result is the joined parts cut to 3000 characters |
| RagEngine.AllPartsAppend | app/utils/rag_engine.py:82-104 | configured paths contribute in list order |
| RagEngine.AllPartsAreConcatenated | app/utils/rag_engine.py:82-104 | the gathered parts are each configured path's parts, path after path, and nothing else |
| RagEngine.FailureIsIsolated | app/utils/rag_engine.py:103-104 | a failing file leaves its warning in its place and the other paths' parts unchanged |
| RagEngine.FailedPdfPart | utils/rag_engine.py:88-96 | a failing PDF path contributes just its warning |
| RagEngine.ListingOrderIsIrrelevant | app/utils/rag_engine.py:84 | folder entries are read in sorted order, so the file system's listing order never matters |
| RagEngine.DirPartsIgnoresListing | utils/rag_engine.py:74-86 | a folder's parts depend only on its entries and the readers |
| RagEngine.RootNeverReadsWorkbooks | utils/rag_engine.py:93-94 | the top-level loader never opens a workbook |
| RagEngine.RootDirNeverReadsWorkbooks | utils/rag_engine.py:83-84 | nor does it open one inside a folder |
| RagEngine.VariantsAgreeWithoutWorkbooks | utils/rag_engine.py:67-101 | without workbooks or folders the two loaders give the same parts |
| RagEngine.EmptyDocumentIsNotNoContent | app/utils/rag_engine.py:106-109 | one empty document gives "", not the no-content message |
| StringOrder.Sort | app/utils/rag_engine.py:84 | `sorted` gives an ordered permutation of the names |
| OrderedMap.Assign | app/utils/web_retriever.py:57 | assigning a key keeps every other key's entry and position and appends a new key at the end |
| ScraperAgent.CleanLines | app/utils/scraper_agent.py:13 | every kept line is non-empty and stripped, and there are no more of them than lines |
| ScraperAgent.ExtractedLinesAreClean | app/utils/scraper_agent.py:12-14 | the extracted text splits back into exactly its clean lines, so it has no blank or padded line |
| ScraperAgent.ExtractionIsIdempotent | app/utils/scraper_agent.py:5-14 | extracting from the extracted text changes nothing |
| ScraperAgent.HiddenTextIsDropped | app/utils/scraper_agent.py:10-11 | text inside script, style or noscript never reaches the output |
| ScraperAgent.AllLinks | app/utils/scraper_agent.py:22-26 | every kept link has non-empty text and an href starting "http" |
| ScraperAgent.LinksWithin | app/utils/scraper_agent.py:16-29 | the links are the first qualifying ones in document order: `limit` of them, or all when fewer |
| ScraperAgent.ExtractLinks | app/utils/scraper_agent.py:16-29 | the scan returns at most `limit` links in document order, each with text and an http href |
| ScraperAgent.Repeat | app/utils/scraper_agent.py:44 | the rule is fifty dashes |
| ScraperAgent.TablesEndWithRule | app/utils/scraper_agent.py:38-45 | every table, and so the whole table text, ends with the fifty-dash rule |
| ScraperAgent.RowOmittedIffBlank | app/utils/scraper_agent.py:41-43 | a row is left out exactly when it has no cells or one empty cell |
| ScraperAgent.AllTableLinesAppend | app/utils/scraper_agent.py:38-46 | tables contribute in document order |
| ScraperAgent.EveryTableLeavesARule | app/utils/scraper_agent.py:38-46 | even an empty table leaves its rule; no tables give "" |
| ScraperAgent.TableLineNotEmpty | app/utils/scraper_agent.py:42-43 | no table line is empty |
| ScraperAgent.TableLineHasNoNewline | app/utils/scraper_agent.py:41 | with no newline in any cell, no table line holds one |
| ScraperAgent.TableTextSplitsIntoLines | app/utils/scraper_agent.py:46 | with no newline in any cell, the table text splits back into its lines |
| ScraperAgent.TableCheckCountsRules | app/utils/scraper_agent.py:44-46 | any two tables pass the validator's table check, while one table with no kept row fails it |
| ScraperAgent.SmartScrape | app/utils/scraper_agent.py:48-56 | the text and tables are the extractors' output, and the links are the first five qualifying ones |
| WebRetriever.GetRbiLatestCirculars | app/utils/web_retriever.py:7-23 | exactly `limit` pairs, or every anchor when there are fewer (a negative limit drops from the end, as slicing does); each pair is its anchor's title and the RBI site followed by its `href`, "None" when missing; one warning pair carrying the error on failure |
| WebRetriever.CircularReadsBackAnchor | app/utils/web_retriever.py:15-19 | a circular determines its anchor: the title is the anchor's text, and its `href` reads back from the url after the site's base |
| WebRetriever.GetHdfcCreditCards | app/utils/web_retriever.py:25-42 | never empty and at most `limit` names; the placeholder or the error entry fills the gap |
| WebRetriever.CollectRates | app/utils/web_retriever.py:51-57 | the collected labels are distinct |
| WebRetriever.CollectRatesKeepsLast | app/utils/web_retriever.py:52-57 | each label maps to the value of the last row that carries it |
| WebRetriever.GetRbiInterestRates | app/utils/web_retriever.py:44-61 | never empty and keys distinct; the placeholder entry when no rates, the error entry on failure |
| WebRetriever.PairListLines | app/utils/web_retriever.py:69-70 | the rates format as one "- k: v" line per entry, in order; none give "" |
| WebRetriever.CardsFormatOneLineEach | app/utils/web_retriever.py:66-67 | the cards format as one "- name" line per card, in order |
| WebRetriever.CircularsFormatOneLineEach | app/utils/web_retriever.py:63-64 | fetched circulars format as one line each |
| Retry.Multipliers | app/utils/gemini_helper.py:34-35 | the k-th wait is `delay * k` |
| Retry.FirstStop | app/utils/gemini_helper.py:23-39 | the attempt the loop ends at is the first, within `retries`, whose outcome ends it; None when none does |
| GeminiHelper.Expected | app/utils/gemini_helper.py:7-42 | at most `retries` calls; the waits grow as delay·1, delay·2, …; a run that stops early waited once per attempt before the last |
| GeminiHelper.SafeGenerateContent | app/utils/gemini_helper.py:21-42 | the loop returns what the attempt that ends it determines |
| GeminiHelper.RecoversAfterTransientErrors | app/utils/gemini_helper.py:26-36 | a reply after transient errors is returned stripped, after a wait for each error |
| GeminiHelper.FatalErrorIsReported | app/utils/gemini_helper.py:37-39 | a non-retryable first error is reported at once, without waiting |
| GeminiHelper.ExhaustionSleepsAfterEveryAttempt | app/utils/gemini_helper.py:41-42 | when every attempt fails transiently, all are made, each is followed by a wait, and the fallback quotes the last error |
| GeminiHelper.NoAttemptsAllowed | app/utils/gemini_helper.py:21-42 | with no attempts allowed, the fallback quotes "None" |
| GeminiHelper.RetryRuleIgnoresCase | app/utils/gemini_helper.py:31-33 | the retry rule ignores letter case |
| Text.ContainsIffOccurs | app/utils/gemini_helper.py:33 | Python's `sub in s` holds exactly when `sub` occurs at some index of `s` |
| CohereHelper.Expected | app/utils/cohere_helper.py:10-31 | at most `retries` calls; the waits grow as delay·1, delay·2, …; a run that ends on a reply waited once per attempt before it |
| CohereHelper.SafeGenerateCohere | app/utils/cohere_helper.py:14-31 | the loop returns what the first reply, or the last error, determines |
| CohereHelper.FailureReportsLastError | app/utils/cohere_helper.py:27-31 | without a reply every attempt is made and waited after, and the last error is reported |
| CohereHelper.CohereRetriesWhatGeminiReports | app/utils/cohere_helper.py:27-29 | an error Gemini's helper would report at once is retried by Cohere's |
| CohereHelper.HelpersAgreeOnTransientErrors | app/utils/cohere_helper.py:16-31 | when every error is transient the two helpers call and wait alike, and return alike when a reply comes |
| DebugLogger.AddLog | app/utils/debug_logger.py:8-12 | the new record goes first unchanged; older records follow in order, up to 50 in all |
| DebugLogger.GetLogs | app/utils/debug_logger.py:14-15 | the records, newest first, exactly as held |
| DebugLogger.FullLogDropsOldest | app/utils/debug_logger.py:5-12 | a full log drops exactly its oldest record and keeps the other 49 in order |
| DebugLogger.LogKeepsNewest | app/utils/debug_logger.py:5-15 | after any additions the log reads as the 50 newest records, newest first |

## Left out

- Model calls are parameters. These are the Gemini and Cohere generators, the classifier, the Cohere planner call, and the answer generator in `app/utils/response_generator.py`. Each becomes a function from its input to its reply or exception text.
- Network and parsing are left out. This covers the HTTP requests, BeautifulSoup parsing, the Selenium navigator (`app/utils/navigator_agent.py`) and the search agent (`app/utils/searcher_agent.py`). The model receives the parsed anchors, text nodes and table cells.
- The file system and the PDF, Word and Excel readers are parameters. Their text extraction is not modelled; the render of ledger and sheet rows is a parameter too.
- CacheManager.FindSimilar: sentence embeddings and cosine similarity with the 0.85 threshold are floating point in a foreign library, so similarity is an abstract predicate. No symmetry or reflexivity is assumed unless a lemma says so.
- `find_best_document` (app/utils/rag_engine.py:111-140) is left out. It ranks documents by embedding similarity and nothing in the core calls it.
- `time.sleep` is recorded as the sequence of delay multipliers. The delay value and the printed progress lines are not modelled.
- `pd.Timestamp.today()` is a date-string parameter.
- The CLI's prompts, `print` and `input`, the session summary it prints on exit, and all Streamlit rendering are left out. The debug page (`app/streamlit_debug_ui.py`) is left out too.
- `app/utils/session_manager.py` is not part of this model. A session arrives already loaded.
- The loop structure of the CLI (`while True`) is modelled one turn at a time by Chatbot.CliTurn.
- The class-level cache is shared without a lock. Concurrent use is not modelled.
- The cache file's JSON encoding is not modelled.
- The classifier and resolver prompts are left out, except for the use-case menu.
- Non-ASCII text: `lower`, `title`, `strip`, `splitlines` and `\w` are ASCII only.
- ValidatorAgent.ValidateLinks: a 2-tuple whose title is truthy but not a string and whose url is valid makes `title.strip()` raise `AttributeError` (app/utils/validator_agent.py:22-23). `RawLink` has no such element, so the model does not represent that raise. The only producer, `extract_links`, builds titles as strings.
- ValidatorAgent.IsValidUrl: its contract states only necessary conditions. The exact pattern is the predicate `MatchesUrlPattern`, and its shape is stated by PatternExcludesQuery and UrlPatternComposes.
- FraudTicket.CliTxnCount: its own contract bounds the count by the number of pieces. The exact count is stated by CliCountsNonEmptyRows for a context that is rows joined by newlines, the shape the ledger renderer gives; it is not stated for arbitrary text.
- FraudTicket.UiTxnCount: likewise bounded by its contract; the exact count is stated by UiCountsNonBlankRows for non-empty one-line rows joined by newlines.
- The CLI imports `resolve_link_via_gemini` from `utils.web_retriever`, which does not define it, so the name cannot be resolved. The model substitutes the resolver of `app/utils/gemini_url_resolver.py` (`UrlResolver.ResolveLink`) in the CLI's last branch; the function the CLI names is not modelled because it does not exist.
- ScraperAgent.ExtractLinks: when `limit` is below 1, the source checks the limit only after appending, so it stops at the first `href` anchor. The model covers this, but the contract bounds the count by 1 rather than naming that anchor.

## Findings

| source | as written | input that shows it | evidently intended | confidence | as-written member | corrected member |
|---|---|---|---|---|---|---|
| app/streamlit_chatbot_ui.py:93-98 | `generate_final_answer` is called with a `past_turns` keyword. Its signature (app/utils/response_generator.py:17) takes only `query`, `context` and `user_name`, so the call raises `TypeError` | any non-empty message sent after login | the answer is generated with the last-three-turn summary, then remembered and shown | not executed | ChatUi.SendAsWritten, ChatUi.FailedSendStillMovesTopic | ChatUi.Send, ChatUi.SendKeepsHistoryInStep |
| app/utils/agent_orchestrator.py:56-62 | `GlobalCache.set` is called with `source`, `use_case` and `validated` keywords. `set(cls, query, response)` (app/utils/cache_manager.py:78) does not take them, so every validated run raises after answering and nothing is cached | any query whose scraped data passes validation | the validated answer is stored under the query and returned | not executed | AgentOrchestrator.HandleQueryAsWritten | AgentOrchestrator.HandleQuery, AgentOrchestrator.ValidatedAnswerIsCached |

=== FILE: agent_orchestrator.dfy ===
/** The agent pipeline: planner, search, navigate, scrape, validate, then
    answer and cache. Each step is a tool whose work is not modelled; the
    pipeline stops at the first step that comes back empty, with a fixed
    message. The scraped data is of an abstract type `P`. */
module AgentOrchestrator {
  import opened Wrappers
  import PlannerAgent
  import CacheManager

  /** The tools, as the pipeline sees them. */
  datatype Tools<!P> = Tools(
    planner: string -> PlannerAgent.PlannerReply,  // the planner model, per query
    search: string -> seq<string>,                 // result links, best first
    navigate: string -> string,                    // rendered HTML, "" when it fails
    scrape: string -> Option<P>,                   // None when nothing was extracted
    validate: (string, P) -> bool,                 // schema check against the use case
    generate: (string, P, string) -> string,       // answer for (query, data, user name)
    sim: CacheManager.Similar)

  /** The steps, in pipeline order. */
  datatype Step = Plan | Search | Navigate | Scrape | Validate | Generate | Tag | CacheWrite

  const Pipeline: seq<Step> := [Plan, Search, Navigate, Scrape, Validate, Generate, Tag, CacheWrite]

  /** The result of a run: the returned text, or an exception escaping; the
      cache afterwards; and the steps that ran, in order. */
  datatype Run = Returned(text: string, cache: CacheManager.GlobalCache, steps: seq<Step>)
               | Raised(cache: CacheManager.GlobalCache, steps: seq<Step>)

  const NoResultsMessage: string := "⚠️" + " No relevant search results found. Please rephrase your query."
  const NoHtmlMessage: string := "⚠️" + " Failed to open or capture content from the top result."
  const NoDataMessage: string := "⚠️" + " Unable to extract meaningful data from the page."
  const NotValidatedMessage: string :=
    "⚠️" + " Sorry, the retrieved data could not be validated for this use case. Please try rephrasing."

  /** The search query: the planner's first tool. `plan_next_action` is
      passed the use case in its intent position, where it is ignored. */
  function RefinedQuery<P>(t: Tools<P>, query: string, useCase: string): string {
    PlannerAgent.PlanNextAction(t.planner(query), Some(useCase), None)
  }

  /** How the first four steps ended: stopped early with a message, or with
      scraped data. */
  datatype Gathered<P> = Stopped(message: string, steps: seq<Step>) | Scraped(data: P)

  /** The shared front of both versions: plan, search, open the top result,
      scrape. */
  function Front<P>(t: Tools<P>, query: string, useCase: string): (r: Gathered<P>)
    ensures r.Stopped? ==> 2 <= |r.steps| <= 4 && r.steps == Pipeline[..|r.steps|]
  {
    var results := t.search(RefinedQuery(t, query, useCase));
    if results == [] then Stopped(NoResultsMessage, [Plan, Search])
    else
      var html := t.navigate(results[0]);
      if html == "" then Stopped(NoHtmlMessage, [Plan, Search, Navigate])
      else
        match t.scrape(html)
        case None => Stopped(NoDataMessage, [Plan, Search, Navigate, Scrape])
        case Some(p) => Scraped(p)
  }

  /** `handle_query_with_agents` with the cache write storing the pair
      (query, answer): a run that passes validation answers, stores the
      answer and returns it; any other run leaves the cache alone. */
  function HandleQuery<P>(t: Tools<P>, c: CacheManager.GlobalCache, query: string, useCase: string, userName: string)
    : (r: Run)
    ensures r.Returned?
    ensures 2 <= |r.steps| <= |Pipeline| && r.steps == Pipeline[..|r.steps|]
    ensures CacheWrite !in r.steps ==> r.cache == c
    ensures CacheWrite in r.steps ==>
      Front(t, query, useCase).Scraped? && t.validate(useCase, Front(t, query, useCase).data)
      && r.text == t.generate(query, Front(t, query, useCase).data, userName)
      && r.cache == CacheManager.Set(t.sim, c, query, r.text)
    ensures CacheManager.Valid(c) ==> CacheManager.Valid(r.cache)
  {
    match Front(t, query, useCase)
    case Stopped(msg, steps) => Returned(msg, c, steps)
    case Scraped(p) =>
      if t.validate(useCase, p) then
        var answer := t.generate(query, p, userName);
        Returned(answer, CacheManager.Set(t.sim, c, query, answer), Pipeline)
      else Returned(NotValidatedMessage, c, Pipeline[..5])
  }

  /** The run as written: the cache call passes `source`, `use_case` and
      `validated` keywords that `GlobalCache.set(query, response)` does not
      take, so every validated run raises after answering, and nothing is
      ever cached. */
  function HandleQueryAsWritten<P>(t: Tools<P>, c: CacheManager.GlobalCache, query: string, useCase: string, userName: string)
    : (r: Run)
    ensures r.cache == c
    ensures r.Raised? <==> Front(t, query, useCase).Scraped? && t.validate(useCase, Front(t, query, useCase).data)
    ensures CacheWrite !in r.steps
  {
    match Front(t, query, useCase)
    case Stopped(msg, steps) => Returned(msg, c, steps)
    case Scraped(p) =>
      if t.validate(useCase, p) then Raised(c, Pipeline[..7])
      else Returned(NotValidatedMessage, c, Pipeline[..5])
  }

  // ---------------------------------------------------------------- properties

  /** Each empty step ends the run with its own message and nothing after it
      runs; in particular the cache is untouched. */
  lemma EarlyExitsShortCircuit<P>(t: Tools<P>, c: CacheManager.GlobalCache, query: string, useCase: string, userName: string)
    ensures var r := HandleQuery(t, c, query, useCase, userName);
      var results := t.search(RefinedQuery(t, query, useCase));
      (results == [] ==> r == Returned(NoResultsMessage, c, [Plan, Search]))
      && (results != [] && t.navigate(results[0]) == "" ==>
            r == Returned(NoHtmlMessage, c, [Plan, Search, Navigate]))
      && (results != [] && t.navigate(results[0]) != "" && t.scrape(t.navigate(results[0])).None? ==>
            r == Returned(NoDataMessage, c, [Plan, Search, Navigate, Scrape]))
  {
  }

  /** A run that fails validation returns the fixed apology without
      answering or caching. */
  lemma RejectedDataIsNotAnswered<P>(t: Tools<P>, c: CacheManager.GlobalCache, query: string, useCase: string, userName: string)
    requires Front(t, query, useCase).Scraped? && !t.validate(useCase, Front(t, query, useCase).data)
    ensures HandleQuery(t, c, query, useCase, userName) == Returned(NotValidatedMessage, c, Pipeline[..5])
    ensures Generate !in HandleQuery(t, c, query, useCase, userName).steps
  {
  }

  /** When planning fails, the pipeline searches for the literal word
      "none", never for the customer's query. */
  lemma FailedPlanningSearchesForNone<P>(t: Tools<P>, query: string, useCase: string)
    requires !t.planner(query).ToolList?
    ensures RefinedQuery(t, query, useCase) == PlannerAgent.NoTool
  {
  }

  /** A validated answer is stored under the query and can be read back
      (given the query is similar to itself, not empty, and unlike every
      entry cached before). */
  lemma ValidatedAnswerIsCached<P>(t: Tools<P>, c: CacheManager.GlobalCache, query: string, useCase: string, userName: string)
    requires CacheManager.Valid(c) && query != "" && t.sim(query, query)
    requires forall j :: 0 <= j < |CacheManager.Load(c).entries| ==> !t.sim(query, CacheManager.Load(c).entries[j].0)
    requires Front(t, query, useCase).Scraped? && t.validate(useCase, Front(t, query, useCase).data)
    ensures var r := HandleQuery(t, c, query, useCase, userName);
      CacheManager.Get(t.sim, r.cache, query).response == Some(r.text)
  {
    var r := HandleQuery(t, c, query, useCase, userName);
    CacheManager.SetThenGet(t.sim, c, query, r.text);
  }

  /** As written and as intended, the two runs agree on every run that does
      not pass validation. */
  lemma VersionsAgreeOffTheSuccessPath<P>(t: Tools<P>, c: CacheManager.GlobalCache, query: string, useCase: string, userName: string)
    requires !(Front(t, query, useCase).Scraped? && t.validate(useCase, Front(t, query, useCase).data))
    ensures HandleQueryAsWritten(t, c, query, useCase, userName) == HandleQuery(t, c, query, useCase, userName)
  {
  }
}

=== FILE: cache_manager.dfy ===
/** The global semantic answer cache: an insertion-ordered map from query to
    answer, at most `MaxCacheSize` entries, looked up by semantic similarity,
    evicted from the front, and written to disk after every insertion.

    The sentence-embedding model and its 0.85 cosine threshold are abstracted
    as a similarity predicate `sim(query, cachedQuery)`; nothing is assumed
    about it (not even symmetry) unless a lemma says so. */
module CacheManager {
  import opened Wrappers
  import opened OrderedMap
  import IntentMapper

  const MaxCacheSize: nat := 50

  /** The use cases whose answers do not depend on the customer. */
  const PublicUseCases: set<string> := {
    "Documentation & Process Query",
    "KYC & Details Update",
    "Download Statement & Document",
    "Investment (non-sharemarket)",
    "Banking Norms",
    "Loan Prepurchase Query",
    "Mutual Funds & Tax Benefits"
  }

  /** Eligibility for the global cache; the intent is ignored. */
  function IsPublicQuery(intent: string, useCase: string): (r: bool)
    ensures r <==> useCase in PublicUseCases
  {
    useCase in PublicUseCases
  }

  /** The public use cases are exactly the classifier's vocabulary minus the
      two personal ones, and the intent never changes the verdict. */
  lemma PublicIsVocabularyMinusPersonal(intent: string, intent': string, useCase: string)
    ensures IsPublicQuery(intent, useCase) == IsPublicQuery(intent', useCase)
    ensures IsPublicQuery(intent, useCase) <==>
      useCase in IntentMapper.UseCases
      && useCase != "Transaction History" && useCase != "Fraud Complaint - Scenario"
  {
  }

  type Similar = (string, string) -> bool

  /** What the cache file holds: no file, a file that does not parse, or the
      entries of the last save. */
  datatype Disk = Absent | Unreadable | Saved(entries: seq<(string, string)>)

  datatype GlobalCache = GlobalCache(entries: seq<(string, string)>, disk: Disk)

  predicate Bounded(es: seq<(string, string)>) {
    DistinctKeys(es) && |es| <= MaxCacheSize
  }

  /** The invariant every operation keeps. */
  predicate Valid(c: GlobalCache) {
    Bounded(c.entries) && (c.disk.Saved? ==> Bounded(c.disk.entries))
  }

  /** The empty process-wide cache of a fresh start. */
  function Fresh(disk: Disk): (c: GlobalCache)
    ensures (disk.Saved? ==> Bounded(disk.entries)) ==> Valid(c)
  {
    GlobalCache([], disk)
  }

  /** `_load`: only an empty in-memory cache reads the file; a missing file
      leaves it empty and an unreadable one empties it. */
  function Load(c: GlobalCache): (r: GlobalCache)
    ensures r.disk == c.disk
    ensures c.entries != [] ==> r == c
    ensures c.entries == [] && c.disk.Saved? ==> r.entries == c.disk.entries
    ensures c.entries == [] && !c.disk.Saved? ==> r.entries == []
    ensures Valid(c) ==> Valid(r)
  {
    if c.entries == [] && c.disk.Saved? then GlobalCache(c.disk.entries, c.disk)
    else if c.entries == [] then GlobalCache([], c.disk)
    else c
  }

  /** `_is_similar`: the first cached query, in order, similar to `q`. */
  function FindSimilar(sim: Similar, q: string, es: seq<(string, string)>): (r: Option<nat>)
    ensures r.None? ==> forall j :: 0 <= j < |es| ==> !sim(q, es[j].0)
    ensures r.Some? ==> r.value < |es| && sim(q, es[r.value].0)
    ensures r.Some? ==> forall j :: 0 <= j < r.value ==> !sim(q, es[j].0)
  {
    if es == [] then None
    else if sim(q, es[0].0) then Some(0)
    else
      match FindSimilar(sim, q, es[1..])
      case None =>
        assert forall j :: 0 < j < |es| ==> es[j] == es[1..][j - 1];
        None
      case Some(i) => Some(i + 1)
  }

  /** The index of a match that Python treats as true: `if match:` rejects a
      matching key that is the empty string. */
  function TruthyMatch(sim: Similar, q: string, es: seq<(string, string)>): (r: Option<nat>)
    ensures r.Some? ==> r.value < |es| && sim(q, es[r.value].0) && es[r.value].0 != ""
    ensures r.Some? ==> forall j :: 0 <= j < r.value ==> !sim(q, es[j].0)
    ensures r.None? <==>
      forall j :: 0 <= j < |es| && sim(q, es[j].0) && (forall i :: 0 <= i < j ==> !sim(q, es[i].0)) ==> es[j].0 == ""
  {
    match FindSimilar(sim, q, es)
    case Some(i) => if es[i].0 != "" then Some(i) else None
    case None => None
  }

  /** `OrderedDict.move_to_end`. */
  function MoveToEnd(es: seq<(string, string)>, i: nat): (r: seq<(string, string)>)
    requires i < |es|
    ensures |r| == |es| && r[|r| - 1] == es[i]
    ensures forall j :: 0 <= j < i ==> r[j] == es[j]
    ensures forall j :: i <= j < |es| - 1 ==> r[j] == es[j + 1]
    ensures multiset(r) == multiset(es)
    ensures DistinctKeys(es) ==> DistinctKeys(r)
  {
    var r := es[..i] + es[i + 1..] + [es[i]];
    assert es == es[..i] + [es[i]] + es[i + 1..];
    assert forall j :: 0 <= j < i ==> r[j] == es[j];
    assert forall j :: i <= j < |es| - 1 ==> r[j] == es[j + 1];
    r
  }

  /** Moving an entry to the end changes no key's answer. */
  lemma MoveToEndKeepsLookups(es: seq<(string, string)>, i: nat, k: string)
    requires i < |es| && DistinctKeys(es)
    ensures Lookup(MoveToEnd(es, i), k) == Lookup(es, k)
  {
    var r := MoveToEnd(es, i);
    assert forall j :: 0 <= j < i ==> r[j] == es[j];
    assert forall j :: i <= j < |es| - 1 ==> r[j] == es[j + 1];
    if HasKey(es, k) {
      var x := KeyIndex(es, k).value;
      var y := if x < i then x else if x == i then |es| - 1 else x - 1;
      assert r[y] == es[x];
      assert KeyIndex(r, k).value == y;
    } else {
      assert !HasKey(r, k) by {
        forall y | 0 <= y < |r| ensures r[y].0 != k {
          if y < i { assert r[y] == es[y]; }
          else if y < |es| - 1 { assert r[y] == es[y + 1]; }
        }
      }
    }
  }

  datatype GetResult = GetResult(cache: GlobalCache, response: Option<string>)

  /** `GlobalCache.get`: on a hit, the answer of the matching entry, which
      becomes the most recently used; on a miss, nothing but the load. The
      file is never written. */
  function Get(sim: Similar, c: GlobalCache, q: string): (r: GetResult)
    ensures r.cache.disk == c.disk
    ensures Valid(c) ==> Valid(r.cache)
    ensures r.response.None? <==> TruthyMatch(sim, q, Load(c).entries).None?
    ensures r.response.None? ==> r.cache == Load(c)
    ensures r.response.Some? ==>
      var es := Load(c).entries;
      var i := TruthyMatch(sim, q, es).value;
      r.response.value == es[i].1
      && |r.cache.entries| == |es| && r.cache.entries[|es| - 1] == es[i]
      && (forall j :: 0 <= j < i ==> r.cache.entries[j] == es[j])
      && (forall j :: i <= j < |es| - 1 ==> r.cache.entries[j] == es[j + 1])
      && multiset(r.cache.entries) == multiset(es)
  {
    var l := Load(c);
    match TruthyMatch(sim, q, l.entries)
    case None => GetResult(l, None)
    case Some(i) => GetResult(GlobalCache(MoveToEnd(l.entries, i), l.disk), Some(l.entries[i].1))
  }

  /** `GlobalCache.set`: a query with a (truthy) similar entry changes nothing
      beyond the load; otherwise the front entry is evicted when the cache is
      full, the pair is stored, and the cache is saved. */
  function Set(sim: Similar, c: GlobalCache, q: string, v: string): (r: GlobalCache)
    ensures Valid(c) ==> Valid(r)
    ensures TruthyMatch(sim, q, Load(c).entries).Some? ==> r == Load(c)
    ensures TruthyMatch(sim, q, Load(c).entries).None? ==>
      r.disk == Saved(r.entries) && HasKey(r.entries, q)
    ensures TruthyMatch(sim, q, Load(c).entries).None? && Valid(c) ==> Lookup(r.entries, q) == Some(v)
    ensures TruthyMatch(sim, q, Load(c).entries).None? ==> r.entries == Assign(Evict(Load(c).entries), q, v)
    ensures TruthyMatch(sim, q, Load(c).entries).None? && |Load(c).entries| < MaxCacheSize ==>
      |Load(c).entries| <= |r.entries| <= |Load(c).entries| + 1
      && forall j :: 0 <= j < |Load(c).entries| && Load(c).entries[j].0 != q ==> r.entries[j] == Load(c).entries[j]
  {
    var l := Load(c);
    if TruthyMatch(sim, q, l.entries).Some? then l
    else
      var kept := Evict(l.entries);
      var es := Assign(kept, q, v);
      assert DistinctKeys(kept) ==> Lookup(es, q) == Some(v) by {
        if DistinctKeys(kept) { AssignThenLookup(kept, q, v); }
      }
      GlobalCache(es, Saved(es))
  }

  /** `popitem(last=False)` when full: the oldest entry leaves. */
  function Evict(es: seq<(string, string)>): (r: seq<(string, string)>)
    ensures |es| >= MaxCacheSize ==> r == es[1..]
    ensures |es| < MaxCacheSize ==> r == es
    ensures DistinctKeys(es) ==> DistinctKeys(r)
  {
    if |es| >= MaxCacheSize then
      assert forall j :: 0 <= j < |es| - 1 ==> es[1..][j] == es[j + 1];
      es[1..]
    else es
  }

  // ---------------------------------------------------------------- properties

  /** Storing an answer for a query unlike anything cached, then asking the
      same query, returns that answer (given the query is similar to itself
      and not empty). */
  lemma SetThenGet(sim: Similar, c: GlobalCache, q: string, v: string)
    requires Valid(c) && q != "" && sim(q, q)
    requires forall j :: 0 <= j < |Load(c).entries| ==> !sim(q, Load(c).entries[j].0)
    ensures Get(sim, Set(sim, c, q, v), q).response == Some(v)
  {
    var kept := Evict(Load(c).entries);
    var r := Set(sim, c, q, v);
    assert r.entries == kept + [(q, v)] by { NewQueryGoesLast(sim, c, q, v); }
    GetOfLastEntry(sim, r, kept, q, v);
  }

  /** A query unlike everything cached is stored after what eviction kept. */
  lemma NewQueryGoesLast(sim: Similar, c: GlobalCache, q: string, v: string)
    requires sim(q, q)
    requires forall j :: 0 <= j < |Load(c).entries| ==> !sim(q, Load(c).entries[j].0)
    ensures Set(sim, c, q, v).entries == Evict(Load(c).entries) + [(q, v)]
  {
    var l := Load(c).entries;
    var kept := Evict(l);
    assert TruthyMatch(sim, q, l).None? by {
      assert FindSimilar(sim, q, l).None?;
    }
    assert !HasKey(kept, q) by {
      assert forall j :: 0 <= j < |kept| ==> !sim(q, kept[j].0);
    }
  }

  /** A `get` finds an entry whose query is the first one similar to it. */
  lemma GetOfLastEntry(sim: Similar, c: GlobalCache, kept: seq<(string, string)>, q: string, v: string)
    requires q != "" && sim(q, q)
    requires c.entries == kept + [(q, v)]
    requires forall j :: 0 <= j < |kept| ==> !sim(q, kept[j].0)
    ensures Get(sim, c, q).response == Some(v)
  {
    var es := c.entries;
    assert Load(c) == c;
    assert FindSimilar(sim, q, es) == Some(|kept|) by {
      assert es[|kept|] == (q, v);
      assert forall j :: 0 <= j < |kept| ==> es[j] == kept[j];
    }
    assert TruthyMatch(sim, q, es) == Some(|kept|);
  }

  /** A query with a similar cached entry is not stored again: `set` is a
      no-op beyond the load and the next `get` answers with the older entry. */
  lemma SetOfDuplicateKeepsOldAnswer(sim: Similar, c: GlobalCache, q: string, v: string)
    requires TruthyMatch(sim, q, Load(c).entries).Some?
    ensures Set(sim, c, q, v) == Load(c)
    ensures Get(sim, Set(sim, c, q, v), q).response ==
      Some(Load(c).entries[TruthyMatch(sim, q, Load(c).entries).value].1)
  {
  }

  /** A `get` answers with the earliest cached query similar to the asked
      one, as long as that query is not the empty string. */
  lemma GetAnswersEarliestSimilar(sim: Similar, c: GlobalCache, q: string, i: nat)
    requires i < |Load(c).entries| && sim(q, Load(c).entries[i].0) && Load(c).entries[i].0 != ""
    requires forall j :: 0 <= j < i ==> !sim(q, Load(c).entries[j].0)
    ensures Get(sim, c, q).response == Some(Load(c).entries[i].1)
    ensures Get(sim, c, q).cache.entries[|Load(c).entries| - 1] == Load(c).entries[i]
  {
    var es := Load(c).entries;
    assert FindSimilar(sim, q, es) == Some(i);
  }

  /** The cache never exceeds its bound, whatever sequence of calls is made. */
  lemma SizeBound(sim: Similar, c: GlobalCache, q: string, v: string)
    requires Valid(c)
    ensures |Set(sim, c, q, v).entries| <= MaxCacheSize
    ensures |Get(sim, c, q).cache.entries| <= MaxCacheSize
  {
  }

  /** When a full cache stores a new query, exactly the oldest entry leaves:
      the rest keep their order and the new pair goes last. */
  lemma FullCacheEvictsOldest(sim: Similar, c: GlobalCache, q: string, v: string)
    requires Valid(c) && |Load(c).entries| == MaxCacheSize
    requires TruthyMatch(sim, q, Load(c).entries).None?
    requires !HasKey(Load(c).entries, q)
    ensures Set(sim, c, q, v).entries == Load(c).entries[1..] + [(q, v)]
    ensures !HasKey(Set(sim, c, q, v).entries, Load(c).entries[0].0)
  {
    var l := Load(c).entries;
    var r := l[1..] + [(q, v)];
    assert !HasKey(l[1..], q);
    assert Set(sim, c, q, v).entries == r;
    forall j | 0 <= j < |r| ensures r[j].0 != l[0].0 {
      if j < |r| - 1 { assert r[j] == l[j + 1]; }
      else { assert l[0].0 != q; }
    }
  }

  /** When a cache with room stores a new query, nothing leaves: the old
      entries keep their order and the new pair goes last, and that is what
      is saved. */
  lemma NonFullSetAppends(sim: Similar, c: GlobalCache, q: string, v: string)
    requires |Load(c).entries| < MaxCacheSize
    requires TruthyMatch(sim, q, Load(c).entries).None?
    requires !HasKey(Load(c).entries, q)
    ensures Set(sim, c, q, v).entries == Load(c).entries + [(q, v)]
    ensures Set(sim, c, q, v).disk == Saved(Load(c).entries + [(q, v)])
  {
  }

  /** A storing `set` on a cache with room leaves every other query's
      answer as it was. */
  lemma SetKeepsOtherAnswers(sim: Similar, c: GlobalCache, q: string, v: string, k: string)
    requires Valid(c) && |Load(c).entries| < MaxCacheSize
    requires TruthyMatch(sim, q, Load(c).entries).None?
    requires k != q
    ensures Lookup(Set(sim, c, q, v).entries, k) == Lookup(Load(c).entries, k)
  {
    AssignKeepsOtherKeys(Load(c).entries, q, v, k);
  }

  /** Least-recently-used: the entry a `get` just hit is not the next one
      evicted, as long as the cache holds another entry. */
  lemma HitIsNotNextEvicted(sim: Similar, c: GlobalCache, q: string)
    requires Valid(c) && Get(sim, c, q).response.Some?
    requires |Load(c).entries| >= 2
    ensures
      var es := Load(c).entries;
      var after := Get(sim, c, q).cache.entries;
      after[0].0 != es[TruthyMatch(sim, q, es).value].0
  {
    var es := Load(c).entries;
    var i := TruthyMatch(sim, q, es).value;
    var after := Get(sim, c, q).cache.entries;
    assert after[|after| - 1] == es[i];
    assert DistinctKeys(after);
  }

  /** Persistence: what a storing `set` saves is what a fresh process loads. */
  lemma SavedSetSurvivesRestart(sim: Similar, c: GlobalCache, q: string, v: string)
    requires Valid(c) && TruthyMatch(sim, q, Load(c).entries).None?
    ensures Load(Fresh(Set(sim, c, q, v).disk)).entries == Set(sim, c, q, v).entries
  {
  }

  /** A `get` never writes the file, and a `set` writes it exactly when it
      stores. */
  lemma OnlyStoringSetSaves(sim: Similar, c: GlobalCache, q: string, v: string)
    ensures Get(sim, c, q).cache.disk == c.disk
    ensures TruthyMatch(sim, q, Load(c).entries).Some? ==> Set(sim, c, q, v).disk == c.disk
    ensures TruthyMatch(sim, q, Load(c).entries).None? ==>
      Set(sim, c, q, v).disk == Saved(Set(sim, c, q, v).entries)
  {
  }
}

=== FILE: chat_ui.dfy ===
/** One "Send" on the web chat page: classify the message, keep the topic
    when the message is only a "General Query", gather a context by use
    case, have the answer generated with a summary of the last three turns,
    and record the turn in memory and in the visible chat history. */
module ChatUi {
  import opened Wrappers
  import opened Text
  import opened Seqs
  import opened Session
  import IntentMapper
  import FrontEnd
  import FraudTicket

  /** The page state kept across reruns. */
  datatype UiState = UiState(session: Session, currentUseCase: Option<string>, chatHistory: seq<(string, string)>)

  /** The outside world as one send sees it. */
  datatype World = World(
    classifierReply: string -> string,                   // the classifier model's reply for a message
    loadDocuments: string -> string,                     // the document store, per use case
    render: seq<string> -> string,                       // ledger rows as a text table
    today: string,                                       // DD-MM-YYYY
    generate: (string, string, string, string) -> string) // answer for (message, context, name, past turns)

  const GeneralQuery: string := "General Query"

  const MutualFundsContext: string :=
    "You have invested in ELSS and Tax Saver Mutual Funds, eligible under Section 80C. "
    + "HDFC Bank offers a range of SIPs that can help you save tax."

  const NoContextMessage: string := "❓" + " No relevant documents or context available."

  /** Topic continuity: a "General Query" keeps the remembered use case when
      there is a truthy one; any other label becomes the remembered one.
      Returns the use case to answer with and the new remembered one. */
  function ChooseUseCase(classified: string, current: Option<string>): (r: (string, Option<string>))
    ensures classified == GeneralQuery && current.Some? && current.value != "" ==>
      r == (current.value, current)
    ensures !(classified == GeneralQuery && current.Some? && current.value != "") ==>
      r == (classified, Some(classified))
  {
    if classified == GeneralQuery && current.Some? && current.value != "" then (current.value, current)
    else (classified, Some(classified))
  }

  /** The page's context chain; unlike the command line it has no keyword
      routes. */
  function UiContext(w: World, s: Session, useCase: string): (r: string)
    ensures useCase in FrontEnd.DocumentUseCases ==> r == w.loadDocuments(useCase)
    ensures useCase == FraudTicket.TransactionHistory ==> r == FrontEnd.LedgerContext(w.render, s)
    ensures useCase == FrontEnd.MutualFunds ==> r == MutualFundsContext
    ensures useCase == FrontEnd.FraudComplaint ==> r == FraudTicket.UiFraudContext(s, w.today)
    ensures (useCase !in FrontEnd.DocumentUseCases && useCase != FraudTicket.TransactionHistory
             && useCase != FrontEnd.MutualFunds && useCase != FrontEnd.FraudComplaint) ==> r == NoContextMessage
  {
    FrontEnd.RoutedUseCasesAreVocabulary();
    if useCase in FrontEnd.DocumentUseCases then w.loadDocuments(useCase)
    else if useCase == FraudTicket.TransactionHistory then FrontEnd.LedgerContext(w.render, s)
    else if useCase == FrontEnd.MutualFunds then MutualFundsContext
    else if useCase == FrontEnd.FraudComplaint then FraudTicket.UiFraudContext(s, w.today)
    else NoContextMessage
  }

  /** `f"User: {q}\nBot: {r}"`. */
  function TurnSummary(t: Turn): string {
    "User: " + t.query + "\nBot: " + t.response
  }

  /** `memory[-3:]`. */
  function LastThree(memory: seq<Turn>): (r: seq<Turn>)
    ensures |r| <= 3 && |r| <= |memory| && r == memory[|memory| - |r|..]
    ensures |memory| >= 3 ==> |r| == 3
    ensures |memory| < 3 ==> r == memory
  {
    if |memory| <= 3 then memory else memory[|memory| - 3..]
  }

  /** The three newest turns, one summary each, separated by blank lines. */
  function PastSummary(memory: seq<Turn>): string {
    Join("\n\n", Map(LastThree(memory), TurnSummary))
  }

  /** Only the three newest turns reach the generator, however long the
      conversation; with no turns the summary is empty. */
  lemma PastSummaryForgetsOlderTurns(older: seq<Turn>, recent: seq<Turn>)
    requires |recent| == 3
    ensures PastSummary(older + recent) == PastSummary(recent)
    ensures PastSummary([]) == ""
  {
    var m := older + recent;
    assert m[|m| - 3..] == recent;
  }

  /** The result of pressing "Send"; `raised` means the script stopped with
      an exception partway through. */
  datatype Outcome = Outcome(state: UiState, raised: bool)

  /** The send as written: the generator is called with a `past_turns`
      keyword it does not accept, which raises. The topic has already been
      updated by then; nothing is generated, remembered or shown. */
  function SendAsWritten(st: UiState, w: World, message: string): (r: Outcome)
    ensures r.raised <==> message != ""
    ensures r.state.session == st.session && r.state.chatHistory == st.chatHistory
  {
    if message == "" then Outcome(st, false)
    else
      var c := IntentMapper.ParseIntentUseCase(w.classifierReply(message));
      var choice := ChooseUseCase(c.useCase, st.currentUseCase);
      Outcome(st.(currentUseCase := choice.1), true)
  }

  /** A failed send still moves the topic: a message classified under a new
      use case replaces the remembered one although the turn left no trace
      in memory. */
  lemma FailedSendStillMovesTopic(st: UiState, w: World, message: string)
    requires message != ""
    requires IntentMapper.ParseIntentUseCase(w.classifierReply(message)).useCase != GeneralQuery
    ensures SendAsWritten(st, w, message).raised
    ensures SendAsWritten(st, w, message).state.currentUseCase
      == Some(IntentMapper.ParseIntentUseCase(w.classifierReply(message)).useCase)
    ensures SendAsWritten(st, w, message).state.session.memory == st.session.memory
  {
  }

  /** The send with the generator taking the past-turn summary as its fourth
      argument: the turn is remembered and shown. An empty message does
      nothing. */
  function Send(st: UiState, w: World, message: string): (r: Outcome)
    ensures !r.raised
    ensures message == "" ==> r.state == st
    ensures message != "" ==>
      |r.state.chatHistory| == |st.chatHistory| + 1 && r.state.chatHistory[..|st.chatHistory|] == st.chatHistory
      && |r.state.session.memory| == |st.session.memory| + 1
      && r.state.session.memory[..|st.session.memory|] == st.session.memory
      && r.state.session.userId == st.session.userId && r.state.session.name == st.session.name
      && r.state.session.transactions == st.session.transactions
    ensures message != "" ==>
      var t := r.state.session.memory[|st.session.memory|];
      var c := IntentMapper.ParseIntentUseCase(w.classifierReply(message));
      var context := UiContext(w, st.session, t.useCase);
      r.state.chatHistory[|st.chatHistory|] == (message, t.response)
      && t.query == message && t.intent == c.intent
      && r.state.currentUseCase == Some(t.useCase)
      && (t.useCase != c.useCase ==> c.useCase == GeneralQuery && st.currentUseCase == Some(t.useCase))
      && t.response == w.generate(message, context, st.session.name, PastSummary(st.session.memory))
      && StartsWith(context, t.context)
      && |t.context| == (if |context| < MaxRememberedContext then |context| else MaxRememberedContext)
  {
    if message == "" then Outcome(st, false)
    else
      var c := IntentMapper.ParseIntentUseCase(w.classifierReply(message));
      var choice := ChooseUseCase(c.useCase, st.currentUseCase);
      var context := UiContext(w, st.session, choice.0);
      var response := w.generate(message, context, st.session.name, PastSummary(st.session.memory));
      Outcome(UiState(AppendTurn(st.session, Remember(message, c.intent, choice.0, context, response)),
                      choice.1, st.chatHistory + [(message, response)]), false)
  }

  /** A sent message grows memory and the chat history by one entry each,
      in step, and the history's newest entry is the remembered turn's
      exchange. */
  lemma SendKeepsHistoryInStep(st: UiState, w: World, message: string)
    requires message != ""
    requires |st.session.memory| == |st.chatHistory|
    ensures var st' := Send(st, w, message).state;
      |st'.session.memory| == |st'.chatHistory| == |st.chatHistory| + 1
      && st'.chatHistory[..|st.chatHistory|] == st.chatHistory
      && st'.chatHistory[|st.chatHistory|]
        == (st'.session.memory[|st.chatHistory|].query, st'.session.memory[|st.chatHistory|].response)
  {
  }

  /** Once a real topic is remembered, "General Query" messages stay on it
      and do not change it. */
  lemma GeneralQueryStaysOnTopic(st: UiState, w: World, message: string)
    requires message != ""
    requires IntentMapper.ParseIntentUseCase(w.classifierReply(message)).useCase == GeneralQuery
    requires st.currentUseCase.Some? && st.currentUseCase.value != ""
    ensures Send(st, w, message).state.currentUseCase == st.currentUseCase
    ensures var m := Send(st, w, message).state.session.memory;
      m[|m| - 1].useCase == st.currentUseCase.value
  {
  }

  /** A "General Query" with no topic yet becomes the topic, so the page
      then stays on "General Query" until another label arrives. */
  lemma FirstGeneralQueryBecomesTopic(classified: string)
    requires classified == GeneralQuery
    ensures ChooseUseCase(classified, None) == (GeneralQuery, Some(GeneralQuery))
    ensures ChooseUseCase(classified, Some(GeneralQuery)) == (GeneralQuery, Some(GeneralQuery))
  {
  }
}

=== FILE: chatbot.dfy ===
/** One turn of the command-line chatbot's loop: read a query, classify it
    (with the "Unclear" fallback to the previous turn), gather a context by
    use case or, failing that, by keyword, have the answer generated, and
    remember the turn. Everything the loop asks of the outside world is a
    field of `World`. */
module Chatbot {
  import opened Wrappers
  import opened Text
  import opened Seqs
  import opened Session
  import IntentMapper
  import ContextTracker
  import FrontEnd
  import FraudTicket
  import WebRetriever
  import UrlResolver

  /** The outside world as one turn sees it. */
  datatype World = World(
    classifierReply: string -> string,              // the classifier model's reply for a query
    loadDocuments: string -> string,                // the document store, per use case
    render: seq<string> -> string,                  // ledger rows as a text table
    today: string,                                  // DD-MM-YYYY
    circulars: WebRetriever.Fetch<seq<WebRetriever.Anchor>>,
    cards: WebRetriever.Fetch<seq<string>>,
    rates: WebRetriever.Fetch<seq<seq<string>>>,
    cohereReply: string -> string,                  // link resolver replies, per query
    geminiReply: string -> string,
    generate: (string, string, string) -> string)   // answer for (query, context, name)

  /** The default page size of the two list fetchers. */
  const FetchLimit: int := 5

  const CircularsHeader: string := "Here are the latest RBI circulars:\n"
  const CardsPointer: string := "🔗" + " Please refer to the official credit card page: "
  const CardsHeader: string := "HDFC Bank offers the following credit cards:\n"
  const RatesPointer: string := "🔗" + " You can check RBI interest rates at: "
  const RatesHeader: string := "Latest RBI Interest Rates:\n"
  const LinkPointer: string := "🔗" + " Please refer to the following resource: "
  const ClarifyFooter: string := "\n\nIf this doesn't answer your question, please clarify further."

  const MutualFundsContext: string :=
    "You have invested in ELSS and Tax Saver Mutual Funds. These are eligible for deductions under Section 80C. "
    + "We can help you calculate benefits or suggest tax-saving funds."

  /** The credit-card branch: a lone entry that looks like a URL is offered
      as a link, anything else as a bullet list. */
  function CardsContext(cards: seq<string>): (r: string)
    ensures StartsWith(r, CardsPointer) <==> |cards| == 1 && StartsWith(cards[0], "http")
    ensures StartsWith(r, CardsPointer) ==> r[|CardsPointer|..] == cards[0]
    ensures !StartsWith(r, CardsPointer) ==> StartsWith(r, CardsHeader) && r[|CardsHeader|..] == WebRetriever.FormatCreditCards(cards)
  {
    assert CardsHeader == ['H'] + CardsHeader[1..];
    assert CardsPointer[0] == '🔗' && CardsHeader[0] == 'H';
    OtherFirstCharIsNotPrefix(CardsPointer, CardsHeader, WebRetriever.FormatCreditCards(cards));
    if |cards| == 1 && StartsWith(cards[0], "http") then CardsPointer + cards[0]
    else CardsHeader + WebRetriever.FormatCreditCards(cards)
  }

  /** Text opening with another character does not start with `p`. */
  lemma OtherFirstCharIsNotPrefix(p: string, h: string, x: string)
    requires p != [] && h != [] && p[0] != h[0]
    ensures !StartsWith(h + x, p)
  {
    if |p| <= |h + x| { assert (h + x)[..|p|][0] == h[0]; }
  }

  /** `any("http" in v for v in rates.values())`. */
  predicate AnyValueHasHttp(rates: seq<(string, string)>) {
    exists k :: 0 <= k < |rates| && Contains(rates[k].1, "http")
  }

  /** The interest-rate branch: when any value holds "http" the first value
      is offered as a link, otherwise the rates are listed. */
  function RatesContext(rates: seq<(string, string)>): (r: string)
    ensures StartsWith(r, RatesPointer) <==> AnyValueHasHttp(rates)
    ensures StartsWith(r, RatesPointer) ==> rates != [] && r[|RatesPointer|..] == rates[0].1
    ensures !StartsWith(r, RatesPointer) ==> StartsWith(r, RatesHeader) && r[|RatesHeader|..] == WebRetriever.FormatInterestRates(rates)
  {
    assert RatesPointer[0] == '🔗' && RatesHeader[0] == 'L';
    OtherFirstCharIsNotPrefix(RatesPointer, RatesHeader, WebRetriever.FormatInterestRates(rates));
    if AnyValueHasHttp(rates) then RatesPointer + rates[0].1
    else RatesHeader + WebRetriever.FormatInterestRates(rates)
  }

  /** The last branch: the link resolver's answer, offered as a link when it
      starts with "http", else followed by a request to clarify. */
  function LinkContext(w: World, query: string): (r: string)
    ensures var link := UrlResolver.ResolveLink(query, w.cohereReply(query), w.geminiReply(query));
      StartsWith(link, "http") ==> StartsWith(r, LinkPointer) && EndsWith(r, link)
    ensures var link := UrlResolver.ResolveLink(query, w.cohereReply(query), w.geminiReply(query));
      !StartsWith(link, "http") ==> StartsWith(r, link) && EndsWith(r, ClarifyFooter)
  {
    var link := UrlResolver.ResolveLink(query, w.cohereReply(query), w.geminiReply(query));
    if StartsWith(link, "http") then
      var r := LinkPointer + link;
      assert r[..|LinkPointer|] == LinkPointer && r[|r| - |link|..] == link;
      r
    else
      var r := link + ClarifyFooter;
      assert r[..|link|] == link && r[|r| - |ClarifyFooter|..] == ClarifyFooter;
      r
  }

  /** The context chain of one turn: the use case decides first; only when it
      names none of the routed use cases do keywords of the lower-cased query
      decide, and the link resolver answers the rest. */
  function GatherContext(w: World, s: Session, query: string, useCase: string): (r: string)
    ensures useCase in FrontEnd.DocumentUseCases ==> r == w.loadDocuments(useCase)
    ensures useCase == FraudTicket.TransactionHistory ==> r == FrontEnd.LedgerContext(w.render, s)
    ensures useCase == FrontEnd.MutualFunds ==> r == MutualFundsContext
    ensures useCase == FrontEnd.FraudComplaint ==> r == FraudTicket.CliFraudContext(s, w.today)
  {
    FrontEnd.RoutedUseCasesAreVocabulary();
    var lq := ToLower(query);
    if useCase in FrontEnd.DocumentUseCases then w.loadDocuments(useCase)
    else if useCase == FraudTicket.TransactionHistory then FrontEnd.LedgerContext(w.render, s)
    else if useCase == FrontEnd.MutualFunds then MutualFundsContext
    else if useCase == FrontEnd.FraudComplaint then FraudTicket.CliFraudContext(s, w.today)
    else if Contains(lq, "rbi circulars") then
      CircularsHeader + WebRetriever.FormatCirculars(WebRetriever.GetRbiLatestCirculars(w.circulars, FetchLimit))
    else if Contains(lq, "credit card") then CardsContext(WebRetriever.GetHdfcCreditCards(w.cards, FetchLimit))
    else if Contains(lq, "interest rate") then RatesContext(WebRetriever.GetRbiInterestRates(w.rates))
    else LinkContext(w, query)
  }

  /** `query.lower() in ['exit', 'quit']`. */
  predicate IsExit(query: string)
    ensures IsExit(query) ==> |query| == 4
  {
    ToLower(query) == "exit" || ToLower(query) == "quit"
  }

  datatype Step = Exit | Answered(session: Session, response: string)

  /** One pass of the loop on the raw input line. */
  function CliTurn(w: World, s: Session, input: string): (r: Step)
    ensures r.Exit? <==> IsExit(Strip(input))
    ensures r.Answered? ==>
      |r.session.memory| == |s.memory| + 1 && r.session.memory[..|s.memory|] == s.memory
      && r.session.userId == s.userId && r.session.name == s.name && r.session.transactions == s.transactions
    ensures r.Answered? ==>
      var t := r.session.memory[|s.memory|];
      var c := IntentMapper.ParseIntentUseCase(w.classifierReply(Strip(input)));
      var context := GatherContext(w, s, Strip(input), t.useCase);
      t.query == Strip(input) && t.intent == c.intent && t.response == r.response
      && (t.useCase != c.useCase ==> c.useCase == ContextTracker.Unclear && s.memory != []
                                     && s.memory[|s.memory| - 1].useCase != ""
                                     && t.useCase == s.memory[|s.memory| - 1].useCase)
      && (c.useCase == ContextTracker.Unclear && s.memory != [] && s.memory[|s.memory| - 1].useCase != "" ==>
            t.useCase == s.memory[|s.memory| - 1].useCase)
      && r.response == w.generate(Strip(input), context, s.name)
      && StartsWith(context, t.context)
      && |t.context| == (if |context| < MaxRememberedContext then |context| else MaxRememberedContext)
  {
    var query := Strip(input);
    if IsExit(query) then Exit
    else
      var c := ContextTracker.UpdateContextWithMemory(IntentMapper.ParseIntentUseCase(w.classifierReply(query)), s.memory);
      var context := GatherContext(w, s, query, c.1);
      var response := w.generate(query, context, s.name);
      Answered(AppendTurn(s, Remember(query, c.0, c.1, context, response)), response)
  }

  // ---------------------------------------------------------------- properties

  /** An answered turn adds exactly one remembered turn, keeps every earlier
      one, and records the stripped query and at most 500 characters of
      context; who the customer is never changes. */
  lemma AnsweredTurnIsRemembered(w: World, s: Session, input: string)
    requires CliTurn(w, s, input).Answered?
    ensures var s' := CliTurn(w, s, input).session;
      |s'.memory| == |s.memory| + 1 && s'.memory[..|s.memory|] == s.memory
      && s'.memory[|s.memory|].query == Strip(input)
      && |s'.memory[|s.memory|].context| <= MaxRememberedContext
      && s'.memory[|s.memory|].response == CliTurn(w, s, input).response
      && s'.userId == s.userId && s'.name == s.name && s'.transactions == s.transactions
  {
  }

  /** An "Unclear" classification takes the newest remembered turn's use
      case, when it has one, and the context is gathered for that use case. */
  lemma UnclearFollowsNewestTurn(w: World, s: Session, input: string)
    requires !IsExit(Strip(input))
    requires IntentMapper.ParseIntentUseCase(w.classifierReply(Strip(input))).useCase == ContextTracker.Unclear
    requires s.memory != [] && s.memory[|s.memory| - 1].useCase != ""
    ensures var r := CliTurn(w, s, input);
      r.Answered? && r.session.memory[|s.memory|].useCase == s.memory[|s.memory| - 1].useCase
      && r.response == w.generate(Strip(input), GatherContext(w, s, Strip(input), s.memory[|s.memory| - 1].useCase), s.name)
  {
    var query := Strip(input);
    var last := s.memory[|s.memory| - 1].useCase;
    var c := ContextTracker.UpdateContextWithMemory(IntentMapper.ParseIntentUseCase(w.classifierReply(query)), s.memory);
    assert c.1 == last;
    var context := GatherContext(w, s, query, last);
    var response := w.generate(query, context, s.name);
    var t := Remember(query, c.0, last, context, response);
    assert CliTurn(w, s, input) == Answered(AppendTurn(s, t), response);
    assert AppendTurn(s, t).memory[|s.memory|] == t;
  }

  /** Leading and trailing blanks never matter: the loop sees the same
      query for a padded input. */
  lemma PaddingIsIgnored(w: World, s: Session, pre: string, input: string, post: string)
    requires AllSpace(pre) && AllSpace(post)
    ensures CliTurn(w, s, pre + input + post) == CliTurn(w, s, input)
  {
    StripOfPadded(pre, input, post);
    var query := Strip(input);
    assert Strip(pre + input + post) == query;
    if !IsExit(query) {
      var c := ContextTracker.UpdateContextWithMemory(IntentMapper.ParseIntentUseCase(w.classifierReply(query)), s.memory);
      var context := GatherContext(w, s, query, c.1);
      var response := w.generate(query, context, s.name);
      var step := Answered(AppendTurn(s, Remember(query, c.0, c.1, context, response)), response);
      assert CliTurn(w, s, pre + input + post) == step;
      assert CliTurn(w, s, input) == step;
    }
  }

  /** The exit words are recognised in any letter case. */
  lemma ExitIgnoresCase(query: string)
    ensures IsExit(query) <==> IsExit(ToLower(query))
  {
    ToLowerIdempotent(query);
  }

  /** Keyword routes are tried in a fixed order: "rbi circulars" before
      "credit card" before "interest rate", so a query naming two topics
      gets the first one's context. */
  lemma KeywordPrecedence(w: World, s: Session, query: string, useCase: string)
    requires !RoutedUseCase(useCase)
    ensures var lq := ToLower(query);
      Contains(lq, "rbi circulars") ==>
        GatherContext(w, s, query, useCase)
          == CircularsHeader + WebRetriever.FormatCirculars(WebRetriever.GetRbiLatestCirculars(w.circulars, FetchLimit))
    ensures var lq := ToLower(query);
      !Contains(lq, "rbi circulars") && Contains(lq, "credit card") ==>
        GatherContext(w, s, query, useCase) == CardsContext(WebRetriever.GetHdfcCreditCards(w.cards, FetchLimit))
    ensures var lq := ToLower(query);
      !Contains(lq, "rbi circulars") && !Contains(lq, "credit card") && Contains(lq, "interest rate") ==>
        GatherContext(w, s, query, useCase) == RatesContext(WebRetriever.GetRbiInterestRates(w.rates))
    ensures var lq := ToLower(query);
      !Contains(lq, "rbi circulars") && !Contains(lq, "credit card") && !Contains(lq, "interest rate") ==>
        GatherContext(w, s, query, useCase) == LinkContext(w, query)
  {
  }

  /** Keywords are matched in any letter case: two queries that agree once
      lower-cased and name one of the keyword topics get the same context. */
  lemma KeywordsIgnoreCase(w: World, s: Session, q1: string, q2: string, useCase: string)
    requires ToLower(q1) == ToLower(q2)
    requires var lq := ToLower(q1);
      Contains(lq, "rbi circulars") || Contains(lq, "credit card") || Contains(lq, "interest rate")
    ensures GatherContext(w, s, q1, useCase) == GatherContext(w, s, q2, useCase)
  {
  }

  /** The use cases the context chain routes by label, before any keyword. */
  predicate RoutedUseCase(useCase: string) {
    useCase in FrontEnd.DocumentUseCases || useCase == FraudTicket.TransactionHistory
    || useCase == FrontEnd.MutualFunds || useCase == FrontEnd.FraudComplaint
  }

  /** A routed use case wins over any keyword in the query. */
  lemma UseCaseBeatsKeywords(w: World, s: Session, query: string, useCase: string)
    requires useCase in FrontEnd.DocumentUseCases
    ensures GatherContext(w, s, query, useCase) == w.loadDocuments(useCase)
  {
  }

  /** The resolver's answer never starts with "http", so the last branch
      always appends the request to clarify and never offers a bare link. */
  lemma LinkBranchAlwaysAsksToClarify(w: World, query: string)
    ensures LinkContext(w, query)
      == UrlResolver.ResolveLink(query, w.cohereReply(query), w.geminiReply(query)) + ClarifyFooter
  {
    UrlResolver.ResolvedNeverStartsWithHttp(query, w.cohereReply(query), w.geminiReply(query));
  }

  /** The credit-card link is offered only for a card name read off the
      page: the placeholder and the error entry never look like a URL. */
  lemma CardsPointerOnlyForPageText(page: WebRetriever.Fetch<seq<string>>)
    requires var cards := WebRetriever.GetHdfcCreditCards(page, FetchLimit);
      |cards| == 1 && StartsWith(cards[0], "http")
    ensures page.Fetched? && |page.page| >= 1
    ensures CardsContext(WebRetriever.GetHdfcCreditCards(page, FetchLimit)) == CardsPointer + page.page[0]
  {
    var cards := WebRetriever.GetHdfcCreditCards(page, FetchLimit);
    if page.Failed? {
      WarningIsNotHttp(" Failed to retrieve HDFC credit cards: " + page.error);
      assert false;
    } else if SliceTo(page.page, FetchLimit) == [] {
      WarningIsNotHttp(" Could not find card names. Structure might have changed.");
      assert false;
    }
  }

  lemma WarningIsNotHttp(rest: string)
    ensures !StartsWith("⚠️" + rest, "http")
  {
    UrlResolver.NotHttpByFirstChar("⚠️" + rest);
  }

  /** A failed rates request whose error text mentions "http" (a request
      error quoting the URL, say) is offered to the customer as the link. */
  lemma RatesErrorMayPoseAsLink(page: WebRetriever.Fetch<seq<seq<string>>>)
    requires page.Failed? && Contains(page.error, "http")
    ensures RatesContext(WebRetriever.GetRbiInterestRates(page)) == RatesPointer + page.error
  {
    assert WebRetriever.GetRbiInterestRates(page)[0].1 == page.error;
  }

  /** An empty rates table is listed, under its header, as nothing. */
  lemma NoRatesListNothing()
    ensures RatesContext([]) == RatesHeader
  {
  }

  /** Without "http" in any value the rates are listed one per line. */
  lemma PlainRatesAreListed(rates: seq<(string, string)>)
    requires rates != [] && forall k :: 0 <= k < |rates| ==> !Contains(rates[k].1, "http")
    ensures RatesContext(rates) == RatesHeader + WebRetriever.PairList(rates)
  {
  }
}

=== FILE: cohere_helper.dfy ===
/** `safe_generate_cohere`: call the Cohere model up to `retries` times,
    retrying every exception (a malformed response included: indexing its
    generations raises like a failed request), with a growing sleep after
    each failure. No exception escapes. */
module CohereHelper {
  import opened Wrappers
  import opened Text
  import opened Retry
  import GeminiHelper

  const DefaultRetries: int := 3

  const FailurePrefix: string := "⚠️" + " Cohere failed after retries. Last error: "

  /** Only a reply ends the loop. */
  predicate Stops(a: Attempt) {
    a.Replied?
  }

  /** The text of the last error after `retries` failed attempts. */
  function LastError(call: nat -> Attempt, retries: int): string {
    if retries >= 1 && call(retries).Threw? then call(retries).error else "None"
  }

  /** What the helper returns: the first reply, stripped, after one sleep
      per earlier failure; with no reply every attempt was made, each slept,
      and the message carries the last error. */
  function Expected(call: nat -> Attempt, retries: int): (r: Outcome)
    ensures r.calls <= AttemptCount(retries) && r.waits == Multipliers(|r.waits|)
    ensures r.calls == AttemptCount(retries) || |r.waits| == r.calls - 1
  {
    match FirstStop(call, Stops, retries)
    case Some(k) => Outcome(Strip(call(k).text), k, Multipliers(k - 1))
    case None =>
      Outcome(FailurePrefix + LastError(call, retries), AttemptCount(retries), Multipliers(AttemptCount(retries)))
  }

  /** The attempt loop. */
  method SafeGenerateCohere(call: nat -> Attempt, retries: int) returns (r: Outcome)
    ensures r == Expected(call, retries)
  {
    var last := "None";
    var waits: seq<nat> := [];
    var attempt: nat := 1;
    while attempt <= retries
      invariant 1 <= attempt <= AttemptCount(retries) + 1
      invariant forall k :: 1 <= k < attempt ==> call(k).Threw?
      invariant waits == Multipliers(attempt - 1)
      invariant last == LastError(call, attempt - 1)
    {
      match call(attempt)
      case Replied(text) =>
        FirstStopAt(call, Stops, retries, attempt);
        return Outcome(Strip(text), attempt, waits);
      case Threw(e) =>
        last := e;
        waits := waits + [attempt];
        attempt := attempt + 1;
    }
    r := Outcome(FailurePrefix + last, attempt - 1, waits);
  }

  // ---------------------------------------------------------------- properties

  /** Without a reply the helper makes every attempt, sleeps after each one,
      the last included, and reports only the last error. */
  lemma FailureReportsLastError(call: nat -> Attempt, retries: int)
    requires retries >= 1
    requires forall j :: 1 <= j <= retries ==> call(j).Threw?
    ensures Expected(call, retries) == Outcome(FailurePrefix + call(retries).error, retries, Multipliers(retries))
  {
  }

  /** Cohere retries an error Gemini would report at once: an error that is
      not retryable for Gemini ends Gemini's call on the spot, while Cohere
      goes on to the next attempt. */
  lemma CohereRetriesWhatGeminiReports(call: nat -> Attempt, retries: int, fallback: string)
    requires retries >= 2 && call(1).Threw? && !GeminiHelper.Retryable(call(1).error) && call(2).Replied?
    ensures GeminiHelper.Expected(call, retries, fallback).calls == 1
    ensures Expected(call, retries) == Outcome(Strip(call(2).text), 2, [1])
  {
    FirstStopAt(call, GeminiHelper.Stops, retries, 1);
    FirstStopAt(call, Stops, retries, 2);
  }

  /** On calls whose every error is transient the two helpers make the same
      attempts, sleep the same sleeps and return the same reply; they differ
      only in the words used when every attempt fails. */
  lemma HelpersAgreeOnTransientErrors(call: nat -> Attempt, retries: int, fallback: string)
    requires forall j :: 1 <= j <= retries && call(j).Threw? ==> GeminiHelper.Retryable(call(j).error)
    ensures var g := GeminiHelper.Expected(call, retries, fallback);
      var c := Expected(call, retries);
      g.calls == c.calls && g.waits == c.waits
      && (FirstStop(call, Stops, retries).Some? ==> g.result == c.result)
  {
    var f := FirstStop(call, Stops, retries);
    if f.Some? {
      FirstStopAt(call, GeminiHelper.Stops, retries, f.value);
    } else {
      assert forall k :: 1 <= k <= retries ==> !GeminiHelper.Stops(call(k));
    }
  }
}

=== FILE: context_tracker.dfy ===
/** The CLI's continuity rule: a classification the classifier could not
    decide ("Unclear") falls back to the use case of the previous turn. The
    classifier call is not modelled: its result is a parameter. */
module ContextTracker {
  import opened Wrappers
  import opened Session
  import IntentMapper

  const Unclear: string := "Unclear"

  /** `get_last_use_case`: the use case of the newest turn, if any. */
  function GetLastUseCase(memory: seq<Turn>): (r: Option<string>)
    ensures r.None? <==> memory == []
    ensures r.Some? ==> r.value == memory[|memory| - 1].useCase
  {
    if memory == [] then None else Some(memory[|memory| - 1].useCase)
  }

  /** Python truthiness of an optional string. */
  predicate Truthy(o: Option<string>) {
    o.Some? && o.value != ""
  }

  /** `update_context_with_memory`: the classifier's intent, always; its use
      case, unless that is exactly "Unclear" and the newest turn has a
      nonempty use case, which then takes its place. */
  function UpdateContextWithMemory(c: IntentMapper.Classification, memory: seq<Turn>): (r: (string, string))
    ensures r.0 == c.intent
    ensures r.1 != c.useCase ==>
      c.useCase == Unclear && memory != [] && memory[|memory| - 1].useCase != "" && r.1 == memory[|memory| - 1].useCase
    ensures c.useCase == Unclear && memory != [] && memory[|memory| - 1].useCase != "" ==>
      r.1 == memory[|memory| - 1].useCase
  {
    var last := GetLastUseCase(memory);
    if c.useCase == Unclear && Truthy(last) then (c.intent, last.value) else (c.intent, c.useCase)
  }

  /** The parser's default "unknown" is not "Unclear", so a reply without a
      use-case line never triggers the fallback. */
  lemma UnknownNeverFallsBack(intent: string, memory: seq<Turn>)
    ensures UpdateContextWithMemory(IntentMapper.Classification(intent, IntentMapper.Unknown), memory).1
      == IntentMapper.Unknown
  {
    assert IntentMapper.Unknown[0] != Unclear[0];
  }

  /** Only the newest turn is consulted: if it has an empty use case there is
      no fallback, whatever older turns recorded. */
  lemma OnlyNewestTurnCounts(c: IntentMapper.Classification, older: seq<Turn>, newest: Turn)
    requires newest.useCase == ""
    ensures UpdateContextWithMemory(c, older + [newest]).1 == c.useCase
  {
  }

  /** Whatever the memory, the result is the classifier's label or a label
      some turn recorded. */
  lemma ResultIsClassifiedOrRemembered(c: IntentMapper.Classification, memory: seq<Turn>)
    ensures var u := UpdateContextWithMemory(c, memory).1;
      u == c.useCase || exists i :: 0 <= i < |memory| && memory[i].useCase == u
  {
  }
}

=== FILE: debug_logger.dfy ===
/** The debug log: a `deque(maxlen=50)` of {query, steps} records, the
    newest at the front. Adding to a full log pushes the oldest record out
    of the back. */
module DebugLogger {
  import opened Seqs

  const MaxLogs: nat := 50

  /** One record: the query and the steps the agents reported for it. */
  datatype Entry = Entry(query: string, steps: seq<string>)

  /** The records, newest first. */
  datatype Log = Log(entries: seq<Entry>)

  const Empty: Log := Log([])

  /** `add_log`: the new record goes to the front unchanged; the older
      records follow in order, as many as the capacity leaves room for. */
  function AddLog(log: Log, query: string, steps: seq<string>): (r: Log)
    ensures |r.entries| == if |log.entries| < MaxLogs then |log.entries| + 1 else MaxLogs
    ensures r.entries[0] == Entry(query, steps)
    ensures r.entries[1..] == log.entries[..|r.entries| - 1]
  {
    var all := [Entry(query, steps)] + log.entries;
    Log(if |all| <= MaxLogs then all else all[..MaxLogs])
  }

  /** `get_logs`: the records as a list, newest first. */
  function GetLogs(log: Log): (r: seq<Entry>)
    ensures |r| == |log.entries| && forall i :: 0 <= i < |r| ==> r[i] == log.entries[i]
  {
    log.entries
  }

  /** Records added one after another, oldest first. */
  function AddAll(log: Log, es: seq<Entry>): Log
    decreases |es|
  {
    if es == [] then log else AddAll(AddLog(log, es[0].query, es[0].steps), es[1..])
  }

  /** A full log drops exactly its oldest record and keeps the other 49 in
      order. */
  lemma FullLogDropsOldest(log: Log, query: string, steps: seq<string>)
    requires |log.entries| == MaxLogs
    ensures GetLogs(AddLog(log, query, steps)) == [Entry(query, steps)] + log.entries[..MaxLogs - 1]
  {
    var r := AddLog(log, query, steps).entries;
    assert r == [r[0]] + r[1..];
  }

  /** However many records are added, the log reads back as the newest
      ones, newest first, in front of what it held, cut at the capacity. */
  lemma {:induction false} LogKeepsNewest(log: Log, es: seq<Entry>)
    requires |log.entries| <= MaxLogs
    ensures var all := Reverse(es) + log.entries;
      GetLogs(AddAll(log, es)) == all[..if |all| < MaxLogs then |all| else MaxLogs]
    decreases |es|
  {
    if es == [] {
      assert Reverse(es) + log.entries == log.entries;
    } else {
      var e := es[0];
      var next := AddLog(log, e.query, e.steps);
      LogKeepsNewest(next, es[1..]);
      var all := Reverse(es) + log.entries;
      AddLogIsPrefix(log, e);
      ShiftIn(Reverse(es[1..]), e, log.entries, next.entries);
      assert all == Reverse(es[1..]) + [e] + log.entries;
      PrefixOfPrefix(Reverse(es[1..]) + next.entries, all, if |all| < MaxLogs then |all| else MaxLogs);
    }
  }

  /** After `add_log` the log is a prefix of the new record followed by the
      old log. */
  lemma AddLogIsPrefix(log: Log, e: Entry)
    ensures var n := AddLog(log, e.query, e.steps).entries;
      |n| <= 1 + |log.entries| && n == ([e] + log.entries)[..|n|]
  {
  }

  lemma ShiftIn<T>(front: seq<T>, e: T, back: seq<T>, n: seq<T>)
    requires |n| <= 1 + |back| && n == ([e] + back)[..|n|]
    ensures front + n == (front + [e] + back)[..|front| + |n|]
  {
  }

  lemma PrefixOfPrefix<T>(a: seq<T>, b: seq<T>, m: nat)
    requires |a| <= |b| && a == b[..|a|] && m <= |a|
    ensures a[..m] == b[..m]
  {
  }
}

=== FILE: fraud_ticket.dfy ===
/** The fraud-complaint rule shared, with small differences, by both front
    ends: find the newest "Transaction History" turn in memory, count the
    ledger lines it showed, and raise a ticket `{user}-{date}-{nn}`. The date
    is a parameter (`DD-MM-YYYY`), not read from a clock. */
module FraudTicket {
  import opened Wrappers
  import opened Text
  import opened Seqs
  import opened Session

  const TransactionHistory: string := "Transaction History"

  /** The reverse scan with `break`: the position of the newest turn whose
      use case is "Transaction History". */
  function LastTxnIndex(memory: seq<Turn>): (r: Option<nat>)
    ensures r.None? <==> forall i :: 0 <= i < |memory| ==> memory[i].useCase != TransactionHistory
    ensures r.Some? ==> r.value < |memory| && memory[r.value].useCase == TransactionHistory
    ensures r.Some? ==> forall j :: r.value < j < |memory| ==> memory[j].useCase != TransactionHistory
    decreases |memory|
  {
    if memory == [] then None
    else if memory[|memory| - 1].useCase == TransactionHistory then Some(|memory| - 1)
    else
      var init := memory[..|memory| - 1];
      assert forall i :: 0 <= i < |init| ==> init[i] == memory[i];
      LastTxnIndex(init)
  }

  /** The context that turn showed, or None when memory holds no such turn. */
  function FindLastTxnContext(memory: seq<Turn>): (r: Option<string>)
    ensures r.None? <==> forall i :: 0 <= i < |memory| ==> memory[i].useCase != TransactionHistory
    ensures r.Some? ==>
      exists i :: 0 <= i < |memory| && memory[i].useCase == TransactionHistory
        && memory[i].context == r.value
        && forall j :: i < j < |memory| ==> memory[j].useCase != TransactionHistory
  {
    match LastTxnIndex(memory)
    case Some(i) => Some(memory[i].context)
    case None => None
  }

  /** A newer transaction turn hides every older one, even when its own
      context is empty. */
  lemma NewestTxnTurnWins(older: seq<Turn>, t: Turn, newer: seq<Turn>)
    requires t.useCase == TransactionHistory
    requires forall j :: 0 <= j < |newer| ==> newer[j].useCase != TransactionHistory
    ensures FindLastTxnContext(older + [t] + newer) == Some(t.context)
  {
    var m := older + [t] + newer;
    assert m[|older|] == t;
    assert LastTxnIndex(m).Some?;
    var i := LastTxnIndex(m).value;
    assert forall j :: |older| < j < |m| ==> m[j] == newer[j - |older| - 1];
    assert i == |older|;
  }

  predicate NonEmpty(line: string) {
    line != ""
  }

  /** The CLI's count: nonempty pieces of the stripped context split at
      "\n"; a line of blanks counts. */
  function CliTxnCount(context: string): (n: nat)
    ensures n <= |Split(Strip(context), '\n')|
  {
    var pieces := Split(Strip(context), '\n');
    FilterMapCount(pieces, NonEmpty, (p: string) => p);
    Count(pieces, NonEmpty)
  }

  /** The web front end's count: lines (any line boundary) that are not
      blank once stripped. */
  function UiTxnCount(context: string): (n: nat)
    ensures n <= |SplitLines(context)|
  {
    var lines := SplitLines(context);
    FilterMapCount(lines, NonBlank, (p: string) => p);
    Count(lines, NonBlank)
  }

  /** On a ledger of rows joined by newlines, with nothing to strip at its
      ends, the CLI counts exactly the nonempty rows. */
  lemma CliCountsNonEmptyRows(rows: seq<string>)
    requires forall k :: 0 <= k < |rows| ==> '\n' !in rows[k]
    requires IsStripped(Join("\n", rows))
    ensures CliTxnCount(Join("\n", rows)) == Count(rows, NonEmpty)
  {
    var s := Join("\n", rows);
    assert Strip(s) == s by { StripOfStripped(s); }
    assert Split(s, '\n') == if rows == [] then [""] else rows by {
      if rows == [] {
        assert IndexOf("", '\n').None?;
      } else {
        SplitJoin(rows, '\n');
      }
    }
    assert CliTxnCount(s) == Count(Split(s, '\n'), NonEmpty);
  }

  /** On nonempty rows joined by newlines, the web front end counts exactly
      the rows that are not blank. */
  lemma UiCountsNonBlankRows(rows: seq<string>)
    requires forall k :: 0 <= k < |rows| ==> rows[k] != "" && NoLineBreak(rows[k])
    ensures UiTxnCount(Join("\n", rows)) == Count(rows, NonBlank)
  {
    SplitLinesOfJoin(rows);
  }

  /** A row of the ledger as both front ends read it: one line, not blank. */
  predicate IsRow(row: string) {
    NonBlank(row) && NoLineBreak(row)
  }

  /** A row is a nonempty piece between newlines. */
  lemma RowIsPiece(row: string)
    requires IsRow(row)
    ensures row != "" && '\n' !in row
  {
    assert IsLineBreak('\n');
  }

  /** A ledger of `n` rows gives a ticket number `n` on both front ends. */
  lemma LedgerRowsAreCounted(rows: seq<string>)
    requires forall k :: 0 <= k < |rows| ==> IsRow(rows[k])
    requires IsStripped(Join("\n", rows))
    ensures CliTxnCount(Join("\n", rows)) == |rows|
    ensures UiTxnCount(Join("\n", rows)) == |rows|
  {
    forall k | 0 <= k < |rows| ensures rows[k] != "" && '\n' !in rows[k] && NoLineBreak(rows[k]) {
      RowIsPiece(rows[k]);
    }
    CliCountsNonEmptyRows(rows);
    UiCountsNonBlankRows(rows);
    CountAllKept(rows, NonEmpty);
    CountAllKept(rows, NonBlank);
  }

  /** A line of blanks inside the ledger raises the CLI's count by one and
      leaves the web front end's count as it was. */
  lemma BlankLineCountsOnlyInCli(a: seq<string>, line: string, b: seq<string>)
    requires line != "" && AllSpace(line) && NoLineBreak(line)
    requires forall k :: 0 <= k < |a| ==> IsRow(a[k])
    requires forall k :: 0 <= k < |b| ==> IsRow(b[k])
    requires IsStripped(Join("\n", a + [line] + b)) && IsStripped(Join("\n", a + b))
    ensures CliTxnCount(Join("\n", a + [line] + b)) == CliTxnCount(Join("\n", a + b)) + 1
    ensures UiTxnCount(Join("\n", a + [line] + b)) == UiTxnCount(Join("\n", a + b))
  {
    var with, without := a + [line] + b, a + b;
    StripOfAllSpace(line);
    assert IsLineBreak('\n');
    forall k | 0 <= k < |with| ensures with[k] != "" && '\n' !in with[k] && NoLineBreak(with[k]) {
      if k < |a| { RowIsPiece(a[k]); } else if k > |a| { RowIsPiece(b[k - |a| - 1]); }
    }
    forall k | 0 <= k < |without| ensures without[k] != "" && '\n' !in without[k] && NoLineBreak(without[k]) {
      if k < |a| { RowIsPiece(a[k]); } else { RowIsPiece(b[k - |a|]); }
    }
    CliCountsNonEmptyRows(with);
    CliCountsNonEmptyRows(without);
    UiCountsNonBlankRows(with);
    UiCountsNonBlankRows(without);
    CountsAroundLine(a, line, b, NonEmpty);
    CountsAroundLine(a, line, b, NonBlank);
  }

  /** Inserting one line adds its own verdict to a count. */
  lemma CountsAroundLine(a: seq<string>, line: string, b: seq<string>, keep: string -> bool)
    ensures Count(a + [line] + b, keep) == Count(a + b, keep) + (if keep(line) then 1 else 0)
  {
    CountAppend(a + [line], b, keep);
    CountAppend(a, [line], keep);
    CountAppend(a, b, keep);
  }

  /** `f"{user_id}-{date}-{n:02}"`. */
  function TicketId(userId: string, date: string, n: nat): string {
    userId + "-" + date + "-" + ZeroPad2(n)
  }

  /** The ticket reads back: after the user id, the date and two dashes come
      the digits of the count, at least two of them. */
  lemma TicketIdEncodesCount(userId: string, date: string, n: nat)
    ensures var t := TicketId(userId, date, n);
      var k := |userId| + |date| + 2;
      k <= |t| && t[..k] == userId + "-" + date + "-"
      && AllDigits(t[k..]) && |t[k..]| >= 2 && DigitsValue(t[k..]) == n
  {
    var t := TicketId(userId, date, n);
    var k := |userId| + |date| + 2;
    assert t[k..] == ZeroPad2(n);
    assert t[..k] == userId + "-" + date + "-";
    ZeroPad2RoundTrip(n);
  }

  // ---------------------------------------------------------------- CLI wording

  const CliNoTxnWarning: string :=
    "⚠️" + " No recent transactions found to raise a fraud complaint. Please check your transaction history first."

  function CliTicketMessage(context: string, ticket: string): string {
    "Based on your recent transaction history:\n\n" + context + "\n\n"
    + "✅" + " A fraud complaint has been raised.\n" + "🆚" + " Ticket ID: " + ticket
  }

  /** The CLI's fraud branch: a ticket message when the newest transaction
      turn has a nonempty context, else the warning. */
  function CliFraudContext(s: Session, date: string): (r: string)
    ensures FindLastTxnContext(s.memory).None? ==> r == CliNoTxnWarning
    ensures FindLastTxnContext(s.memory) == Some("") ==> r == CliNoTxnWarning
    ensures FindLastTxnContext(s.memory).Some? && FindLastTxnContext(s.memory).value != "" ==>
      var c := FindLastTxnContext(s.memory).value;
      r == CliTicketMessage(c, TicketId(s.userId, date, CliTxnCount(c)))
  {
    match FindLastTxnContext(s.memory)
    case Some(c) =>
      if c != "" then CliTicketMessage(c, TicketId(s.userId, date, CliTxnCount(c))) else CliNoTxnWarning
    case None => CliNoTxnWarning
  }

  // ---------------------------------------------------------------- web wording

  const UiNoTxnWarning: string := "⚠️" + " No recent transactions found to raise a fraud complaint."

  function UiTicketMessage(context: string, ticket: string): string {
    "Based on your transaction history:\n\n" + context + "\n\n"
    + "✅" + " A fraud complaint has been raised.\n" + "🆔" + " Ticket ID: " + ticket
  }

  /** The web front end's fraud branch. */
  function UiFraudContext(s: Session, date: string): (r: string)
    ensures FindLastTxnContext(s.memory).None? ==> r == UiNoTxnWarning
    ensures FindLastTxnContext(s.memory) == Some("") ==> r == UiNoTxnWarning
    ensures FindLastTxnContext(s.memory).Some? && FindLastTxnContext(s.memory).value != "" ==>
      var c := FindLastTxnContext(s.memory).value;
      r == UiTicketMessage(c, TicketId(s.userId, date, UiTxnCount(c)))
  {
    match FindLastTxnContext(s.memory)
    case Some(c) =>
      if c != "" then UiTicketMessage(c, TicketId(s.userId, date, UiTxnCount(c))) else UiNoTxnWarning
    case None => UiNoTxnWarning
  }

  /** A ticket message ends with its ticket id, so the id can be read off it. */
  lemma TicketMessagesEndWithTicket(context: string, ticket: string)
    ensures var m := CliTicketMessage(context, ticket); |ticket| <= |m| && m[|m| - |ticket|..] == ticket
    ensures var m := UiTicketMessage(context, ticket); |ticket| <= |m| && m[|m| - |ticket|..] == ticket
  {
  }

  /** An empty newest transaction context yields the warning even when an
      older transaction turn had rows. */
  lemma EmptyNewestContextWarns(s: Session, date: string, older: seq<Turn>, t: Turn)
    requires s.memory == older + [t] && t.useCase == TransactionHistory && t.context == ""
    ensures CliFraudContext(s, date) == CliNoTxnWarning
    ensures UiFraudContext(s, date) == UiNoTxnWarning
  {
    NewestTxnTurnWins(older, t, []);
    assert older + [t] + [] == older + [t];
  }
}

=== FILE: front_end.dfy ===
/** What the command-line chatbot and the web chat page share: the use
    cases answered from the document store, the three use cases with a
    context of their own, and the rendering of the newest ledger rows. */
module FrontEnd {
  import opened Session
  import IntentMapper
  import FraudTicket

  /** The use cases whose context is the document store's text. */
  const DocumentUseCases: seq<string> := [
    "Investment (non-sharemarket)",
    "Documentation & Process Query",
    "Loan Prepurchase Query",
    "Banking Norms",
    "KYC & Details Update",
    "Download Statement & Document"
  ]

  const MutualFunds: string := "Mutual Funds & Tax Benefits"
  const FraudComplaint: string := "Fraud Complaint - Scenario"

  /** Every routed label is one the classifier offers; the document use
      cases and the three special ones are nine different labels, so the
      routing never depends on the order of its tests. */
  lemma RoutedUseCasesAreVocabulary()
    ensures forall u :: u in DocumentUseCases ==> u in IntentMapper.UseCases
    ensures FraudTicket.TransactionHistory in IntentMapper.UseCases
    ensures MutualFunds in IntentMapper.UseCases && FraudComplaint in IntentMapper.UseCases
    ensures FraudTicket.TransactionHistory !in DocumentUseCases
    ensures MutualFunds !in DocumentUseCases && FraudComplaint !in DocumentUseCases
    ensures |{FraudTicket.TransactionHistory, MutualFunds, FraudComplaint}| == 3
  {
    assert IntentMapper.UseCases[2] == FraudTicket.TransactionHistory;
    assert IntentMapper.UseCases[5] == FraudComplaint;
    assert IntentMapper.UseCases[6] == MutualFunds;
  }

  /** `transactions.tail(5).to_string(index=False)`; the table layout is the
      `render` parameter's business. */
  function LedgerContext(render: seq<string> -> string, s: Session): string {
    render(Tail5(s.transactions))
  }

  /** Only the five newest ledger rows reach the context: older rows never
      change it. */
  lemma LedgerContextSeesFiveNewest(render: seq<string> -> string, s: Session, older: seq<string>)
    requires |s.transactions| >= 5
    ensures LedgerContext(render, s.(transactions := older + s.transactions)) == LedgerContext(render, s)
  {
    var rows := older + s.transactions;
    assert rows[|rows| - 5..] == s.transactions[|s.transactions| - 5..];
  }
}

=== FILE: gemini_helper.dfy ===
/** `safe_generate_content`: call the Gemini model up to `retries` times.
    Rate-limit, unavailability and timeout errors are retried after a
    growing sleep; any other error, or a reply, ends the call at once. No
    exception escapes. */
module GeminiHelper {
  import opened Wrappers
  import opened Text
  import opened Retry

  const DefaultRetries: int := 3
  const DefaultFallback: string := "⚠️" + " Gemini is currently unavailable."

  /** The lower-cased error text mentions 429, 503 or a timeout. */
  predicate Retryable(error: string) {
    var e := ToLower(error);
    Contains(e, "429") || Contains(e, "503") || Contains(e, "timeout")
  }

  /** The attempt ends the loop: a reply, or an error not worth retrying. */
  predicate Stops(a: Attempt) {
    a.Replied? || !Retryable(a.error)
  }

  function ApiError(error: string): string {
    "⚠️" + " Gemini API error: " + error
  }

  /** What an attempt that ends the loop returns: the reply stripped, or the
      error as the API-error message. */
  function StopText(a: Attempt): string {
    if a.Replied? then Strip(a.text) else ApiError(a.error)
  }

  /** The answer once every attempt failed; `last` is "None" when no attempt
      was made. */
  function Exhausted(fallback: string, last: string): string {
    fallback + "\n\n(Last error: " + last + ")"
  }

  /** The text of the last error after `retries` failed attempts. */
  function LastError(call: nat -> Attempt, retries: int): string {
    if retries >= 1 && call(retries).Threw? then call(retries).error else "None"
  }

  /** What the helper returns, stated by the attempt that ends the loop:
      the attempts before it each failed with a retryable error and were
      each followed by a sleep; a reply is returned stripped, any other
      error as the API-error message. With no such attempt every attempt
      was made, every one slept, and the fallback carries the last error. */
  function Expected(call: nat -> Attempt, retries: int, fallback: string): (r: Outcome)
    ensures r.calls <= AttemptCount(retries) && r.waits == Multipliers(|r.waits|)
    ensures r.calls == AttemptCount(retries) || |r.waits| == r.calls - 1
  {
    match FirstStop(call, Stops, retries)
    case Some(k) => Outcome(StopText(call(k)), k, Multipliers(k - 1))
    case None =>
      Outcome(Exhausted(fallback, LastError(call, retries)), AttemptCount(retries), Multipliers(AttemptCount(retries)))
  }

  /** The attempt loop. */
  method SafeGenerateContent(call: nat -> Attempt, retries: int, fallback: string) returns (r: Outcome)
    ensures r == Expected(call, retries, fallback)
  {
    var last := "None";
    var waits: seq<nat> := [];
    var attempt: nat := 1;
    while attempt <= retries
      invariant 1 <= attempt <= AttemptCount(retries) + 1
      invariant forall k :: 1 <= k < attempt ==> !Stops(call(k))
      invariant waits == Multipliers(attempt - 1)
      invariant last == LastError(call, attempt - 1)
    {
      if Stops(call(attempt)) {
        ExpectedAtStop(call, retries, fallback, attempt);
        return Outcome(StopText(call(attempt)), attempt, waits);
      }
      last := call(attempt).error;
      waits := waits + [attempt];
      attempt := attempt + 1;
    }
    ExpectedWithoutStop(call, retries, fallback);
    r := Outcome(Exhausted(fallback, last), attempt - 1, waits);
  }

  /** The loop's answer when attempt `k` is the first that ends it. */
  lemma ExpectedAtStop(call: nat -> Attempt, retries: int, fallback: string, k: nat)
    requires 1 <= k <= retries && Stops(call(k))
    requires forall j :: 1 <= j < k ==> !Stops(call(j))
    ensures Expected(call, retries, fallback)
      == Outcome(StopText(call(k)), k, Multipliers(k - 1))
  {
    assert FirstStop(call, Stops, retries) == Some(k) by {
      FirstStopAt(call, Stops, retries, k);
    }
  }

  /** The loop's answer when no attempt ends it. */
  lemma ExpectedWithoutStop(call: nat -> Attempt, retries: int, fallback: string)
    requires forall j :: 1 <= j <= retries ==> !Stops(call(j))
    ensures Expected(call, retries, fallback)
      == Outcome(Exhausted(fallback, LastError(call, retries)), AttemptCount(retries), Multipliers(AttemptCount(retries)))
  {
  }

  // ---------------------------------------------------------------- properties

  /** A reply after some transient errors is returned stripped; there was
      one sleep per failed attempt, `delay * 1` up to `delay * (k - 1)`. */
  lemma RecoversAfterTransientErrors(call: nat -> Attempt, retries: int, fallback: string, k: nat)
    requires 1 <= k <= retries && call(k).Replied?
    requires forall j :: 1 <= j < k ==> call(j).Threw? && Retryable(call(j).error)
    ensures Expected(call, retries, fallback) == Outcome(Strip(call(k).text), k, Multipliers(k - 1))
  {
    FirstStopAt(call, Stops, retries, k);
  }

  /** An error that is not retryable ends the call on the attempt it
      happens, without a sleep after it. */
  lemma FatalErrorIsReported(call: nat -> Attempt, retries: int, fallback: string)
    requires retries >= 1 && call(1).Threw? && !Retryable(call(1).error)
    ensures Expected(call, retries, fallback) == Outcome(ApiError(call(1).error), 1, [])
  {
    FirstStopAt(call, Stops, retries, 1);
  }

  /** When every attempt fails transiently, all `retries` attempts are made,
      each is followed by a sleep, the last included, and the fallback
      names the last error. */
  lemma ExhaustionSleepsAfterEveryAttempt(call: nat -> Attempt, retries: int, fallback: string)
    requires retries >= 1
    requires forall j :: 1 <= j <= retries ==> call(j).Threw? && Retryable(call(j).error)
    ensures Expected(call, retries, fallback)
      == Outcome(Exhausted(fallback, call(retries).error), retries, Multipliers(retries))
    ensures |Expected(call, retries, fallback).waits| == Expected(call, retries, fallback).calls
  {
  }

  /** With no attempts allowed the model is never called and the fallback
      reports the missing error as "None". */
  lemma NoAttemptsAllowed(call: nat -> Attempt, retries: int, fallback: string)
    requires retries <= 0
    ensures Expected(call, retries, fallback) == Outcome(fallback + "\n\n(Last error: None)", 0, [])
  {
  }

  /** The retry rule ignores letter case. */
  lemma RetryRuleIgnoresCase(a: string, b: string)
    requires ToLower(a) == ToLower(b)
    ensures Retryable(a) <==> Retryable(b)
  {
  }
}

=== FILE: intent_mapper.dfy ===
/** The use-case vocabulary of the classifier and the parser that reads its
    `Intent:` / `Use Case:` reply. The model call itself is not modelled: the
    parser receives the reply text. */
module IntentMapper {
  import opened Wrappers
  import opened Text
  import opened LabelledReply

  const UseCases: seq<string> := [
    "Investment (non-sharemarket)",
    "Documentation & Process Query",
    "Transaction History",
    "Download Statement & Document",
    "Loan Prepurchase Query",
    "Fraud Complaint - Scenario",
    "Mutual Funds & Tax Benefits",
    "Banking Norms",
    "KYC & Details Update"
  ]

  /** The default the parser reports for a field it did not find. */
  const Unknown: string := "unknown"

  lemma UseCasesAreDistinct()
    ensures |UseCases| == 9
    ensures forall i, j :: 0 <= i < j < |UseCases| ==> UseCases[i] != UseCases[j]
  {
  }

  /** The use-case menu of the classification prompt: one "- label" line per
      use case, in `UseCases` order (`BulletListLines` splits it back). */
  function UseCaseMenu(): string {
    BulletList(UseCases)
  }

  /** The menu offers the nine labels, one "- label" line each, in order. */
  lemma MenuListsEveryUseCase()
    ensures var lines := Split(UseCaseMenu(), '\n');
      |lines| == |UseCases| && forall i :: 0 <= i < |UseCases| ==> lines[i] == "- " + UseCases[i]
  {
    UseCasesHaveNoNewline();
    BulletListLines(UseCases);
  }

  lemma UseCasesHaveNoNewline()
    ensures forall k :: 0 <= k < |UseCases| ==> '\n' !in UseCases[k]
  {
    forall k | 0 <= k < |UseCases| ensures '\n' !in UseCases[k] {
      if k < 3 { FirstThreeHaveNoNewline(k); }
      else if k < 6 { MiddleThreeHaveNoNewline(k); }
      else { LastThreeHaveNoNewline(k); }
    }
  }

  lemma FirstThreeHaveNoNewline(k: nat)
    requires k < 3
    ensures '\n' !in UseCases[k]
  {
    if k == 0 { PrintableHasNoNewline("Investment (non-sharemarket)"); }
    else if k == 1 { PrintableHasNoNewline("Documentation & Process Query"); }
    else { PrintableHasNoNewline("Transaction History"); }
  }

  lemma MiddleThreeHaveNoNewline(k: nat)
    requires 3 <= k < 6
    ensures '\n' !in UseCases[k]
  {
    if k == 3 { PrintableHasNoNewline("Download Statement & Document"); }
    else if k == 4 { PrintableHasNoNewline("Loan Prepurchase Query"); }
    else { PrintableHasNoNewline("Fraud Complaint - Scenario"); }
  }

  lemma LastThreeHaveNoNewline(k: nat)
    requires 6 <= k < 9
    ensures '\n' !in UseCases[k]
  {
    if k == 6 { PrintableHasNoNewline("Mutual Funds & Tax Benefits"); }
    else if k == 7 { PrintableHasNoNewline("Banking Norms"); }
    else { PrintableHasNoNewline("KYC & Details Update"); }
  }

  lemma PrintableHasNoNewline(s: string)
    requires forall i :: 0 <= i < |s| ==> ' ' <= s[i]
    ensures '\n' !in s
  {
  }

  // ---------------------------------------------------------------- reply parser

  const IntentPrefix: string := "intent:"
  const UseCasePrefix: string := "use case:"

  lemma PrefixesAreDistinctLabels()
    ensures DistinctLabels(IntentPrefix, UseCasePrefix)
  {
  }

  datatype Classification = Classification(intent: string, useCase: string)

  /** Python's `value or "unknown"`. */
  function OrUnknown(o: Option<string>): (r: string)
    ensures r != ""
    ensures o.Some? && o.value != "" ==> r == o.value
  {
    if o.Some? && o.value != "" then o.value else Unknown
  }

  /** `parse_intent_usecase_response`: both fields are always present; each
      is the value of the last reply line carrying its label, or "unknown"
      when there is none or it is empty. The use case is not checked against
      `UseCases`. */
  function ParseIntentUseCase(reply: string): (r: Classification)
    ensures r.intent != "" && r.useCase != ""
    ensures r.intent == OrUnknown(LastValue(SplitLines(Strip(reply)), IntentPrefix))
    ensures r.useCase == OrUnknown(LastValue(SplitLines(Strip(reply)), UseCasePrefix))
  {
    PrefixesAreDistinctLabels();
    var f := ParseReply(IntentPrefix, UseCasePrefix, reply);
    Classification(OrUnknown(f.first), OrUnknown(f.second))
  }

  /** A reply whose lines carry neither label yields "unknown" for both. */
  lemma NoFieldsMeansUnknown(reply: string)
    requires forall k :: 0 <= k < |SplitLines(Strip(reply))| ==>
               !LineHas(SplitLines(Strip(reply))[k], IntentPrefix) && !LineHas(SplitLines(Strip(reply))[k], UseCasePrefix)
    ensures ParseIntentUseCase(reply) == Classification(Unknown, Unknown)
  {
    var lines := SplitLines(Strip(reply));
    NoMatchNoValue(lines, IntentPrefix);
    NoMatchNoValue(lines, UseCasePrefix);
  }

  /** A reply whose last line carries the use-case key yields that line's
      value, whatever it is and whatever earlier lines said: the value is not
      checked against the vocabulary (`LabelLineValue` gives the value of a
      `Use Case: v` line as `v`). */
  lemma LastUseCaseLineWins(reply: string, line: string)
    requires LineHas(line, UseCasePrefix) && FieldValue(line, UseCasePrefix) != ""
    requires var lines := SplitLines(Strip(reply));
      lines != [] && lines[|lines| - 1] == line
    ensures ParseIntentUseCase(reply).useCase == FieldValue(line, UseCasePrefix)
  {
    PrefixesAreDistinctLabels();
    LastReplyLineSetsSecond(IntentPrefix, UseCasePrefix, reply, line);
  }
}

=== FILE: labelled_reply.dfy ===
/** The line-oriented reader shared by the classifier and the link resolver:
    a model reply in the format

        Label1: value
        Label2: value

    is stripped and split into lines; a line counts for a field when it
    starts, in any letter case, with the field's key (the first key wins
    when both match); the field's value is the stripped text after the
    line's first colon; a later line overrides an earlier one. */
module LabelledReply {
  import opened Wrappers
  import opened Text

  /** A field key: lower-case text ending in a colon, such as "intent:". */
  predicate IsLabel(p: string) {
    |p| >= 1 && p[|p| - 1] == ':'
  }

  /** Two labels no line can carry both of. */
  predicate DistinctLabels(p1: string, p2: string) {
    IsLabel(p1) && IsLabel(p2) && p1[0] != p2[0]
  }

  /** `line.lower().startswith(key)`. */
  predicate LineHas(line: string, key: string) {
    StartsWith(ToLower(line), key)
  }

  lemma LabelledLineHasColon(line: string, key: string)
    requires IsLabel(key) && LineHas(line, key)
    ensures ':' in line
  {
    var k := |key| - 1;
    assert ToLower(line)[k] == ':';
    assert LowerChar(line[k]) == ':';
  }

  /** `line.split(":", 1)[1].strip()`. */
  function FieldValue(line: string, key: string): string
    requires IsLabel(key) && LineHas(line, key)
  {
    LabelledLineHasColon(line, key);
    Strip(AfterFirst(line, ':'))
  }

  lemma LabelsExclusive(p1: string, p2: string, line: string)
    requires DistinctLabels(p1, p2)
    ensures !(LineHas(line, p1) && LineHas(line, p2))
  {
    assert LineHas(line, p1) ==> ToLower(line)[0] == p1[0];
    assert LineHas(line, p2) ==> ToLower(line)[0] == p2[0];
  }

  /** The two fields read so far; None until a line sets them. */
  datatype Fields = Fields(first: Option<string>, second: Option<string>)

  /** One iteration of the reading loop: `if` / `elif`. */
  function ParseLine(p1: string, p2: string, f: Fields, line: string): Fields
    requires IsLabel(p1) && IsLabel(p2)
  {
    if LineHas(line, p1) then f.(first := Some(FieldValue(line, p1)))
    else if LineHas(line, p2) then f.(second := Some(FieldValue(line, p2)))
    else f
  }

  function ParseLines(p1: string, p2: string, lines: seq<string>, f: Fields): Fields
    requires IsLabel(p1) && IsLabel(p2)
    decreases |lines|
  {
    if lines == [] then f else ParseLines(p1, p2, lines[1..], ParseLine(p1, p2, f, lines[0]))
  }

  /** Reference reading: the value of the LAST line carrying `key`. */
  function LastValue(lines: seq<string>, key: string): Option<string>
    requires IsLabel(key)
    decreases |lines|
  {
    if lines == [] then None
    else if LineHas(lines[|lines| - 1], key) then Some(FieldValue(lines[|lines| - 1], key))
    else LastValue(lines[..|lines| - 1], key)
  }

  function OrElse(o: Option<string>, d: Option<string>): Option<string> {
    if o.Some? then o else d
  }

  lemma {:induction false} ParseLinesAppend(p1: string, p2: string, lines: seq<string>, line: string, f: Fields)
    requires IsLabel(p1) && IsLabel(p2)
    ensures ParseLines(p1, p2, lines + [line], f) == ParseLine(p1, p2, ParseLines(p1, p2, lines, f), line)
    decreases |lines|
  {
    if lines != [] {
      assert (lines + [line])[1..] == lines[1..] + [line];
      ParseLinesAppend(p1, p2, lines[1..], line, ParseLine(p1, p2, f, lines[0]));
    }
  }

  /** The loop keeps, per field, the value of the last line carrying it. */
  lemma {:induction false} ParseLinesKeepsLast(p1: string, p2: string, lines: seq<string>, f: Fields)
    requires DistinctLabels(p1, p2)
    ensures ParseLines(p1, p2, lines, f) ==
      Fields(OrElse(LastValue(lines, p1), f.first), OrElse(LastValue(lines, p2), f.second))
    decreases |lines|
  {
    if lines != [] {
      var init, last := lines[..|lines| - 1], lines[|lines| - 1];
      assert lines == init + [last];
      ParseLinesAppend(p1, p2, init, last, f);
      ParseLinesKeepsLast(p1, p2, init, f);
      LabelsExclusive(p1, p2, last);
    }
  }

  /** The whole reader: strip, split into lines, loop. */
  function ParseReply(p1: string, p2: string, reply: string): (f: Fields)
    requires DistinctLabels(p1, p2)
    ensures f.first == LastValue(SplitLines(Strip(reply)), p1)
    ensures f.second == LastValue(SplitLines(Strip(reply)), p2)
  {
    var lines := SplitLines(Strip(reply));
    ParseLinesKeepsLast(p1, p2, lines, Fields(None, None));
    ParseLines(p1, p2, lines, Fields(None, None))
  }

  /** Lines without the key leave the field unset. */
  lemma {:induction false} NoMatchNoValue(lines: seq<string>, key: string)
    requires IsLabel(key)
    requires forall k :: 0 <= k < |lines| ==> !LineHas(lines[k], key)
    ensures LastValue(lines, key) == None
    decreases |lines|
  {
    if lines != [] { NoMatchNoValue(lines[..|lines| - 1], key); }
  }

  /** A line that carries the key sets the field, whatever came before. */
  lemma LastLineWins(lines: seq<string>, line: string, key: string)
    requires IsLabel(key) && LineHas(line, key)
    ensures LastValue(lines + [line], key) == Some(FieldValue(line, key))
  {
    assert (lines + [line])[|lines|] == line;
  }

  /** A reply whose last line carries the second key reports that line's
      value for the second field. */
  lemma LastReplyLineSetsSecond(p1: string, p2: string, reply: string, line: string)
    requires DistinctLabels(p1, p2) && LineHas(line, p2)
    requires var lines := SplitLines(Strip(reply));
      lines != [] && lines[|lines| - 1] == line
    ensures ParseReply(p1, p2, reply).second == Some(FieldValue(line, p2))
  {
    LastLineOfTextSetsField(Strip(reply), line, p2);
  }

  lemma LastLineOfTextSetsField(text: string, line: string, key: string)
    requires IsLabel(key) && LineHas(line, key)
    requires var lines := SplitLines(text);
      lines != [] && lines[|lines| - 1] == line
    ensures LastValue(SplitLines(text), key) == Some(FieldValue(line, key))
  {
    LastLineSetsField(SplitLines(text), line, key);
  }

  lemma LastLineSetsField(lines: seq<string>, line: string, key: string)
    requires IsLabel(key) && LineHas(line, key)
    requires lines != [] && lines[|lines| - 1] == line
    ensures LastValue(lines, key) == Some(FieldValue(line, key))
  {
  }

  /** A line that does not carry the key changes nothing. */
  lemma OtherLineKeeps(lines: seq<string>, line: string, key: string)
    requires IsLabel(key) && !LineHas(line, key)
    ensures LastValue(lines + [line], key) == LastValue(lines, key)
  {
    assert (lines + [line])[|lines|] == line;
    assert (lines + [line])[..|lines|] == lines;
  }

  /** `Name:...` carries the key `name:` in any letter case of `Name`. */
  lemma NameCarriesKey(name: string, rest: string)
    ensures IsLabel(ToLower(name) + ":")
    ensures LineHas(name + ":" + rest, ToLower(name) + ":")
  {
    ToLowerAppend(name + ":", rest);
    ToLowerAppend(name, ":");
    assert ToLower(name + ":" + rest)[..|name| + 1] == ToLower(name) + ":";
  }

  /** The value of `Name: value` is `value`: text after the first colon,
      including any further colons such as a URL's "://", is kept whole. */
  lemma LabelLineValue(name: string, v: string)
    requires ':' !in name && IsStripped(v)
    ensures IsLabel(ToLower(name) + ":") && LineHas(name + ":" + " " + v, ToLower(name) + ":")
    ensures FieldValue(name + ":" + " " + v, ToLower(name) + ":") == v
  {
    var key, rest := name + ":", " " + v;
    NameCarriesKey(name, rest);
    assert key + " " + v == key + rest;
    assert ":" == [':'];
    ValueAfterLabel(name, v);
  }
}

=== FILE: ordered_map.dfy ===
/** A Python `dict` / `OrderedDict`: (key, value) pairs in insertion order,
    no key twice. */
module OrderedMap {
  import opened Wrappers

  predicate DistinctKeys<K(==), V>(es: seq<(K, V)>) {
    forall i, j :: 0 <= i < j < |es| ==> es[i].0 != es[j].0
  }

  predicate HasKey<K(==), V>(es: seq<(K, V)>, k: K) {
    exists i :: 0 <= i < |es| && es[i].0 == k
  }

  /** Position of key `k`. */
  function KeyIndex<K(==), V>(es: seq<(K, V)>, k: K): (r: Option<nat>)
    ensures r.None? <==> !HasKey(es, k)
    ensures r.Some? ==> r.value < |es| && es[r.value].0 == k
    ensures r.Some? ==> forall j :: 0 <= j < r.value ==> es[j].0 != k
  {
    if es == [] then None
    else if es[0].0 == k then Some(0)
    else
      match KeyIndex(es[1..], k)
      case None =>
        assert forall i :: 0 < i < |es| ==> es[i] == es[1..][i - 1];
        None
      case Some(i) => Some(i + 1)
  }

  /** `d[k]` as an Option. */
  function Lookup<K(==), V>(es: seq<(K, V)>, k: K): Option<V> {
    match KeyIndex(es, k)
    case None => None
    case Some(i) => Some(es[i].1)
  }

  /** `d[k] = v`: an existing key keeps its position and takes the new value;
      a new key goes to the end. */
  function Assign<K(==), V>(es: seq<(K, V)>, k: K, v: V): (r: seq<(K, V)>)
    ensures HasKey(es, k) ==> |r| == |es|
    ensures !HasKey(es, k) ==> r == es + [(k, v)]
    ensures HasKey(es, k) ==> forall j :: 0 <= j < |es| && es[j].0 != k ==> r[j] == es[j]
    ensures HasKey(r, k)
    ensures forall j :: 0 <= j < |es| ==> HasKey(r, es[j].0)
    ensures DistinctKeys(es) ==> DistinctKeys(r)
  {
    match KeyIndex(es, k)
    case None =>
      var r := es + [(k, v)];
      assert r[|es|].0 == k;
      assert forall j :: 0 <= j < |es| ==> r[j] == es[j];
      r
    case Some(i) =>
      var r := es[..i] + [(k, v)] + es[i + 1..];
      assert r[i].0 == k;
      assert forall j :: 0 <= j < |es| && j != i ==> r[j] == es[j];
      r
  }

  lemma AssignThenLookup<K, V>(es: seq<(K, V)>, k: K, v: V)
    requires DistinctKeys(es)
    ensures Lookup(Assign(es, k, v), k) == Some(v)
  {
    var r := Assign(es, k, v);
    var i := KeyIndex(r, k).value;
    if HasKey(es, k) {
      var j := KeyIndex(es, k).value;
      assert r[j] == (k, v);
      assert i == j;
    } else {
      assert r[|es|] == (k, v);
      assert i == |es|;
    }
  }

  lemma AssignKeepsOtherKeys<K, V>(es: seq<(K, V)>, k: K, v: V, k': K)
    requires DistinctKeys(es) && k' != k
    ensures Lookup(Assign(es, k, v), k') == Lookup(es, k')
  {
    var r := Assign(es, k, v);
    if HasKey(es, k') {
      var j := KeyIndex(es, k').value;
      assert r[j] == es[j];
      var i := KeyIndex(r, k').value;
      assert i == j;
    } else {
      assert !HasKey(r, k') by {
        forall i | 0 <= i < |r| ensures r[i].0 != k' {
          if HasKey(es, k) {
            if es[i].0 != k { assert r[i] == es[i]; }
            else {
              var x := KeyIndex(es, k).value;
              assert r == es[..x] + [(k, v)] + es[x + 1..];
            }
          } else {
            assert r == es + [(k, v)];
          }
        }
      }
    }
  }
}

=== FILE: planner_agent.dfy ===
/** The tool planner: a model call proposes a tool chain for a query; any
    failure degrades to the single tool "none". The model call is not
    modelled: what it produced is a `PlannerReply`. */
module PlannerAgent {
  import opened Wrappers

  /** What the structured model call produced: an exception (network, a
      missing key in the response…), a `tools` value that is a list, or one
      that is not. */
  datatype PlannerReply = Threw(error: string) | ToolList(tools: seq<string>) | NotAList

  const NoTool: string := "none"

  /** `plan_tools_for_query`: a list is returned as the model gave it, not
      filtered against the tool names and not de-duplicated; anything else
      becomes `["none"]`. */
  function PlanToolsForQuery(reply: PlannerReply): (r: seq<string>)
    ensures reply.ToolList? ==> r == reply.tools
    ensures !reply.ToolList? ==> r == [NoTool]
  {
    if reply.ToolList? then reply.tools else [NoTool]
  }

  /** `plan_next_action`: the first planned tool, or "none" for an empty
      plan. The intent and use case it is given play no part. */
  function PlanNextAction(reply: PlannerReply, intent: Option<string>, useCase: Option<string>): (r: string)
    ensures PlanToolsForQuery(reply) != [] ==> r == PlanToolsForQuery(reply)[0]
    ensures PlanToolsForQuery(reply) == [] ==> r == NoTool
  {
    var tools := PlanToolsForQuery(reply);
    if tools != [] then tools[0] else NoTool
  }

  /** Failed planning, and an empty plan, both come out as "none"; the extra
      arguments never change the answer. */
  lemma FailedPlanningMeansNone(reply: PlannerReply, intent: Option<string>, useCase: Option<string>)
    requires !reply.ToolList? || reply.tools == []
    ensures PlanNextAction(reply, intent, useCase) == NoTool
    ensures PlanNextAction(reply, intent, useCase) == PlanNextAction(reply, None, None)
  {
  }

  /** Whatever list the model gives is acted on: the next action is its
      first name even when that is no tool at all, and repeated names are
      all kept. */
  lemma PlanIsNotChecked(tools: seq<string>, intent: Option<string>, useCase: Option<string>)
    requires tools != []
    ensures PlanNextAction(ToolList(tools), intent, useCase) == tools[0]
    ensures tools[0] !in ToolNames ==> PlanNextAction(ToolList(tools), intent, useCase) !in ToolNames
    ensures forall t :: multiset(PlanToolsForQuery(ToolList(tools)))[t] == multiset(tools)[t]
  {
  }

  // ---------------------------------------------------------------- few-shot plans

  /** The tools the few-shot plans use. */
  const ToolNames: set<string> := {"search", "navigate", "scrape", "validate", "link_resolver", "none"}

  /** `EXAMPLES`: query and tool chain, in order. */
  const Examples: seq<(string, seq<string>)> := [
    ("What is the latest RBI repo rate?", ["search", "scrape", "validate"]),
    ("How to block my HDFC credit card?", ["link_resolver"]),
    ("Download Form 16B", ["search", "scrape", "validate"]),
    ("List some HDFC credit cards", ["search", "scrape", "validate"]),
    ("Update address in HDFC account", ["search", "scrape", "validate"]),
    ("Show me FD rates", ["search", "scrape"]),
    ("Open an NPS account", ["search", "scrape"]),
    ("Apply for personal loan EMI calculator", ["search", "scrape"]),
    ("Mutual fund tax benefits for salaried", ["none"]),
    ("KYC norms for NRIs", ["search", "scrape", "validate"]),
    ("Where is HDFC headquarters", ["search", "scrape"]),
    ("What are the features of HDFC website?", ["search", "navigate", "scrape"])
  ]

  /** Every few-shot plan is non-empty and uses only the six tool names;
      "none" and "link_resolver" only ever appear as a plan on their own. */
  lemma ExamplesAreWellFormed()
    ensures |Examples| == 12
    ensures forall k :: 0 <= k < |Examples| ==> Examples[k].1 != []
    ensures forall k, t :: 0 <= k < |Examples| && t in Examples[k].1 ==> t in ToolNames
    ensures forall k :: 0 <= k < |Examples| && ("none" in Examples[k].1 || "link_resolver" in Examples[k].1) ==>
      |Examples[k].1| == 1
  {
  }
}

=== FILE: rag_engine.dfy ===
/** The document store behind the document-backed use cases: each use case
    names files and folders; their text is gathered in order, with one
    warning in place of each file that fails, joined by "\n---\n" and cut to
    3000 characters. Two versions of the loader exist and differ only in how
    they treat Excel workbooks. The file system and the PDF, Word and Excel
    readers are parameters. */
module RagEngine {
  import opened Wrappers
  import opened Text
  import opened Seqs
  import opened OrderedMap
  import StringOrder
  import FrontEnd
  import FraudTicket

  /** The loader in the `app` package reads workbooks; the top-level one
      only names them. */
  datatype Variant = AppEngine | RootEngine

  /** A reader's outcome: the value, or the text of the exception. */
  datatype Read<T> = Opened(value: T) | Raised(error: string)

  /** The file system and the readers. */
  datatype Files = Files(
    listDir: string -> Option<seq<string>>,          // a folder's entries, in listing order; None if not a folder
    pdf: string -> Read<string>,                     // the text of every page, concatenated
    docx: string -> Read<seq<string>>,               // the paragraph texts
    xlsx: string -> Read<seq<(string, seq<string>)>>, // each sheet's name and rows, in order
    renderRows: seq<string> -> string)               // `to_string(index=False)` of some rows

  /** `USECASE_DOC_PATHS`, the same in both versions. */
  const DocPaths: seq<(string, seq<string>)> := [
    ("Investment (non-sharemarket)", [
      "data/usecases/Invest(non sharemarket)/HDFC FD.docx"]),
    ("Documentation & Process Query", [
      "data/usecases/Document and Process Query/HomeLoanDocandProcess.docx",
      "data/usecases/Document and Process Query/Credit Card.pdf",
      "data/usecases/Document and Process Query/Credit_Card_Info.pdf"]),
    ("Loan Prepurchase Query", [
      "data/usecases/Loan Purchase query/HomeLoanDocandProcess.docx"]),
    ("Banking Norms", [
      "data/usecases/BankingNorms/Hdfc",
      "data/usecases/BankingNorms/Rbi"]),
    ("Fraud Complaint - Scenario", [
      "data/usecases/FraudSafety/FraudComplaint.docx",
      "data/usecases/FraudSafety/FraudSafety.docx",
      "data/usecases/FraudSafety/Master Directions on Cyber Resilience and Digital Payment Security Controls for non-bank Payment System Operators.pdf",
      "data/usecases/FraudSafety/Master Directions on Fraud Risk Management in Urban Cooperative Banks (UCBs)  State Cooperative Banks (StCBs) Central Cooperative Banks (CCBs).pdf",
      "data/usecases/FraudSafety/Master Directions on Fraud Risk Management in Urban Cooperative Banks (UCBs) State Cooperative Banks (StCBs) Central Cooperative Banks (CCBs).pdf"]),
    ("KYC & Details Update", [
      "data/usecases/KYCand Details update/KNOW YOUR CUSTOMER (KYC) NORMS.pdf",
      "data/usecases/KYCand Details update/KYCupdatelinks.docx"]),
    ("Download Statement & Document", [
      "data/usecases/Download doc&statements/Download Statement and Documents.docx"]),
    ("Mutual Funds & Tax Benefits", [
      "data/usecases/MutualFund&TaxBenifit/Debt Funds May.xlsx",
      "data/usecases/MutualFund&TaxBenifit/Equity Funds May.xlsx",
      "data/usecases/MutualFund&TaxBenifit/Hybrid funds May.xlsx",
      "data/usecases/MutualFund&TaxBenifit/Other Schemes-ETF Funds May.xlsx",
      "data/usecases/MutualFund&TaxBenifit/Other Schemes-Fund of Funds May.xlsx",
      "data/usecases/MutualFund&TaxBenifit/Other Schemes-Index Funds May.xlsx",
      "data/usecases/MutualFund&TaxBenifit/Solution Oriented Funds May.xlsx"])
  ]

  /** Every use case a front end sends to the store is configured, while
      "Transaction History" is not. */
  lemma DocumentUseCasesAreConfigured()
    ensures forall u :: u in FrontEnd.DocumentUseCases ==> HasKey(DocPaths, u)
    ensures !HasKey(DocPaths, FraudTicket.TransactionHistory)
  {
    assert DocPaths[0].0 == FrontEnd.DocumentUseCases[0];
    assert DocPaths[1].0 == FrontEnd.DocumentUseCases[1];
    assert DocPaths[2].0 == FrontEnd.DocumentUseCases[2];
    assert DocPaths[3].0 == FrontEnd.DocumentUseCases[3];
    assert DocPaths[5].0 == FrontEnd.DocumentUseCases[4];
    assert DocPaths[6].0 == FrontEnd.DocumentUseCases[5];
  }

  const Separator: string := "\n---\n"
  const MaxContext: nat := 3000
  const NoDocumentsMessage: string := "⚠️" + " No documents configured for this use case."
  const NoContentMessage: string := "⚠️" + " No retrievable content found."

  function LoadWarning(name: string, e: string): string {
    "⚠️" + " Failed to load " + name + ": " + e
  }

  function ExcelWarning(base: string, e: string): string {
    "⚠️" + " Failed to read Excel file " + base + ": " + e
  }

  function ExcelPlaceholder(base: string): string {
    "📊" + " Loaded Excel: " + base + " — available for summary or comparison on request."
  }

  /** `os.path.basename`: the text after the last "/". */
  function Basename(path: string): (r: string)
    ensures |r| <= |path| && r == path[|path| - |r|..] && '/' !in r
    ensures |r| < |path| ==> path[|path| - |r| - 1] == '/'
    decreases |path|
  {
    if path == [] || path[|path| - 1] == '/' then []
    else
      var r := Basename(path[..|path| - 1]);
      assert path[..|path| - 1][|path| - 1 - |r|..] + [path[|path| - 1]] == path[|path| - 1 - |r|..];
      r + [path[|path| - 1]]
  }

  /** The basename of a file inside a folder is its listed name. */
  lemma BasenameOfJoin(dir: string, name: string)
    requires '/' !in name
    ensures Basename(dir + "/" + name) == name
  {
    var p := dir + "/" + name;
    var r := Basename(p);
    assert p[|p| - |name|..] == name && p[|p| - |name| - 1] == '/';
  }

  // ---------------------------------------------------------------- readers

  /** `extract_text_from_docx`: the stripped non-blank paragraphs, one per line. */
  function DocxText(paragraphs: seq<string>): string {
    Join("\n", FilterMap(paragraphs, NonBlank, Strip))
  }

  /** With paragraphs free of line breaks, the text splits back into exactly
      the stripped non-blank paragraphs: no blank line, no padding. */
  lemma DocxTextLines(paragraphs: seq<string>)
    requires forall k :: 0 <= k < |paragraphs| ==> '\n' !in paragraphs[k]
    requires exists k :: 0 <= k < |paragraphs| && NonBlank(paragraphs[k])
    ensures var lines := Split(DocxText(paragraphs), '\n');
      lines == FilterMap(paragraphs, NonBlank, Strip)
      && forall i :: 0 <= i < |lines| ==> lines[i] != "" && IsStripped(lines[i])
  {
    var kept := FilterMap(paragraphs, NonBlank, Strip);
    forall i | 0 <= i < |kept| ensures '\n' !in kept[i] && kept[i] != "" && IsStripped(kept[i]) {
      FilterMapFrom(paragraphs, NonBlank, Strip, i);
      var j :| 0 <= j < |paragraphs| && NonBlank(paragraphs[j]) && kept[i] == Strip(paragraphs[j]);
      StripKeepsAbsent(paragraphs[j], '\n');
    }
    SplitJoin(kept, '\n');
  }

  /** `df.head(5)`. */
  function Head5(rows: seq<string>): (r: seq<string>)
    ensures |r| <= 5 && |r| <= |rows| && r == rows[..|r|]
    ensures |rows| >= 5 ==> |r| == 5
    ensures |rows| < 5 ==> r == rows
  {
    if |rows| <= 5 then rows else rows[..5]
  }

  function SheetPart(render: seq<string> -> string, sheet: (string, seq<string>)): string {
    "📄" + " Sheet: " + sheet.0 + "\n" + render(Head5(sheet.1))
  }

  /** `extract_text_from_xlsx`: one part per sheet, each showing at most the
      first five rows, separated by blank lines; a read error becomes a
      warning instead of an exception. */
  function XlsxText(render: seq<string> -> string, read: Read<seq<(string, seq<string>)>>, base: string): (r: string)
    ensures read.Raised? ==> r == ExcelWarning(base, read.error)
    ensures read.Opened? ==> r == Join("\n\n", Map(read.value, s => SheetPart(render, s)))
  {
    match read
    case Opened(sheets) => Join("\n\n", Map(sheets, s => SheetPart(render, s)))
    case Raised(e) => ExcelWarning(base, e)
  }

  /** Rows past the fifth never reach a sheet's preview. */
  lemma SheetPreviewSeesFiveRows(render: seq<string> -> string, name: string, rows: seq<string>, more: seq<string>)
    requires |rows| >= 5
    ensures SheetPart(render, (name, rows + more)) == SheetPart(render, (name, rows))
  {
    assert (rows + more)[..5] == rows[..5];
  }

  // ---------------------------------------------------------------- loading

  predicate Supported(name: string) {
    EndsWith(name, ".pdf") || EndsWith(name, ".docx") || EndsWith(name, ".xlsx")
  }

  /** One file's contribution: its text, or the warning for its failure
      (naming it as `name`), or nothing for an unsupported suffix. */
  function FileParts(v: Variant, fs: Files, full: string, name: string, base: string): (r: seq<string>)
    ensures |r| <= 1
    ensures r == [] <==> !Supported(name)
    ensures EndsWith(name, ".pdf") && fs.pdf(full).Opened? ==> r == [fs.pdf(full).value]
    ensures EndsWith(name, ".pdf") && fs.pdf(full).Raised? ==> r == [LoadWarning(name, fs.pdf(full).error)]
    ensures !EndsWith(name, ".pdf") && EndsWith(name, ".docx") && fs.docx(full).Opened? ==>
      r == [DocxText(fs.docx(full).value)]
    ensures !EndsWith(name, ".pdf") && EndsWith(name, ".docx") && fs.docx(full).Raised? ==>
      r == [LoadWarning(name, fs.docx(full).error)]
    ensures !EndsWith(name, ".pdf") && !EndsWith(name, ".docx") && EndsWith(name, ".xlsx") ==>
      r == [if v == AppEngine then XlsxText(fs.renderRows, fs.xlsx(full), base) else ExcelPlaceholder(base)]
  {
    if EndsWith(name, ".pdf") then
      match fs.pdf(full)
      case Opened(text) => [text]
      case Raised(e) => [LoadWarning(name, e)]
    else if EndsWith(name, ".docx") then
      match fs.docx(full)
      case Opened(paragraphs) => [DocxText(paragraphs)]
      case Raised(e) => [LoadWarning(name, e)]
    else if EndsWith(name, ".xlsx") then
      if v == AppEngine then [XlsxText(fs.renderRows, fs.xlsx(full), base)] else [ExcelPlaceholder(base)]
    else []
  }

  /** The entries of a folder, in the order given. */
  function DirParts(v: Variant, fs: Files, dir: string, names: seq<string>): (r: seq<string>)
    ensures |r| <= |names|
    ensures |r| == Count(names, Supported)
    decreases |names|
  {
    if names == [] then []
    else FileParts(v, fs, dir + "/" + names[0], names[0], names[0]) + DirParts(v, fs, dir, names[1..])
  }

  /** A folder entry contributes the parts of the file it names inside the
      folder, reported under its own name. */
  lemma DirPartsOfEntry(v: Variant, fs: Files, dir: string, name: string)
    ensures DirParts(v, fs, dir, [name]) == FileParts(v, fs, dir + "/" + name, name, name)
  {
    assert [name][1..] == [];
  }

  /** The part a supported folder entry contributes. */
  function EntryPart(v: Variant, fs: Files, dir: string, name: string): string {
    var p := FileParts(v, fs, dir + "/" + name, name, name);
    if p == [] then "" else p[0]
  }

  /** A folder's parts are `[part(name) for name in names if supported(name)]`:
      one part per supported entry, in the order given, and nothing else. */
  lemma {:induction false} DirPartsAreEntryParts(v: Variant, fs: Files, dir: string, names: seq<string>)
    ensures DirParts(v, fs, dir, names) == FilterMap(names, Supported, n => EntryPart(v, fs, dir, n))
    decreases |names|
  {
    if names != [] {
      DirPartsAreEntryParts(v, fs, dir, names[1..]);
    }
  }

  /** Entries contribute in the order given: the parts of a listing are the
      parts of its first entries followed by those of the rest. */
  lemma DirPartsAppend(v: Variant, fs: Files, dir: string, a: seq<string>, b: seq<string>)
    ensures DirParts(v, fs, dir, a + b) == DirParts(v, fs, dir, a) + DirParts(v, fs, dir, b)
  {
    DirPartsAreEntryParts(v, fs, dir, a + b);
    DirPartsAreEntryParts(v, fs, dir, a);
    DirPartsAreEntryParts(v, fs, dir, b);
    FilterMapAppend(a, b, Supported, n => EntryPart(v, fs, dir, n));
  }



  /** One configured path: a folder's entries in sorted name order, or the
      path itself as a file. */
  function PathParts(v: Variant, fs: Files, path: string): seq<string> {
    match fs.listDir(path)
    case Some(names) => DirParts(v, fs, path, StringOrder.Sort(names))
    case None => FileParts(v, fs, path, path, Basename(path))
  }

  /** The configured paths in list order. */
  function AllParts(v: Variant, fs: Files, paths: seq<string>): seq<string>
    decreases |paths|
  {
    if paths == [] then [] else PathParts(v, fs, paths[0]) + AllParts(v, fs, paths[1..])
  }

  /** `load_documents_for_use_case` over a path configuration (the loaders
      use `DocPaths`). */
  function LoadDocuments(v: Variant, fs: Files, config: seq<(string, seq<string>)>, useCase: string): (r: string)
    ensures Lookup(config, useCase).None? ==> r == NoDocumentsMessage
    ensures Lookup(config, useCase).Some? && AllParts(v, fs, Lookup(config, useCase).value) == [] ==>
      r == NoContentMessage
    ensures Lookup(config, useCase).Some? && AllParts(v, fs, Lookup(config, useCase).value) != [] ==>
      var joined := Join(Separator, AllParts(v, fs, Lookup(config, useCase).value));
      |r| <= MaxContext && |r| <= |joined| && r == joined[..|r|]
      && (|joined| > MaxContext ==> |r| == MaxContext)
      && (|joined| <= MaxContext ==> r == joined)
  {
    match Lookup(config, useCase)
    case None => NoDocumentsMessage
    case Some(paths) =>
      var parts := AllParts(v, fs, paths);
      if parts == [] then NoContentMessage else SliceTo(Join(Separator, parts), MaxContext)
  }

  /** The store as the front ends use it. */
  function LoadForUseCase(v: Variant, fs: Files, useCase: string): string {
    LoadDocuments(v, fs, DocPaths, useCase)
  }

  // ---------------------------------------------------------------- properties

  /** The configured paths' parts are `[part for path in paths for part in
      path_parts(path)]`. */
  lemma {:induction false} AllPartsAreConcatenated(v: Variant, fs: Files, paths: seq<string>)
    ensures AllParts(v, fs, paths) == ConcatMap(paths, p => PathParts(v, fs, p))
    decreases |paths|
  {
    if paths != [] {
      AllPartsAreConcatenated(v, fs, paths[1..]);
    }
  }

  /** Gathering distributes over the path list: a path's parts sit between
      those of the paths before and after it, whatever they are. */
  lemma AllPartsAppend(v: Variant, fs: Files, a: seq<string>, b: seq<string>)
    ensures AllParts(v, fs, a + b) == AllParts(v, fs, a) + AllParts(v, fs, b)
  {
    AllPartsAreConcatenated(v, fs, a + b);
    AllPartsAreConcatenated(v, fs, a);
    AllPartsAreConcatenated(v, fs, b);
    ConcatMapAppend(a, b, p => PathParts(v, fs, p));
  }


  /** A file that fails to open contributes its warning in its place and
      loading goes on with the paths after it. */
  lemma FailureIsIsolated(v: Variant, fs: Files, before: seq<string>, path: string, after: seq<string>)
    requires fs.listDir(path).None? && EndsWith(path, ".pdf") && fs.pdf(path).Raised?
    ensures AllParts(v, fs, before + [path] + after)
      == AllParts(v, fs, before) + [LoadWarning(path, fs.pdf(path).error)] + AllParts(v, fs, after)
  {
    var w := [LoadWarning(path, fs.pdf(path).error)];
    assert AllParts(v, fs, [path]) == w by {
      FailedPdfPart(v, fs, path);
      assert [path][1..] == [];
      assert AllParts(v, fs, [path]) == PathParts(v, fs, path) + AllParts(v, fs, []);
    }
    AllPartsAppend(v, fs, before + [path], after);
    AllPartsAppend(v, fs, before, [path]);
  }

  lemma FailedPdfPart(v: Variant, fs: Files, path: string)
    requires fs.listDir(path).None? && EndsWith(path, ".pdf") && fs.pdf(path).Raised?
    ensures PathParts(v, fs, path) == [LoadWarning(path, fs.pdf(path).error)]
  {
  }

  /** The order in which the file system lists a folder does not matter:
      entries are taken in sorted order. */
  lemma ListingOrderIsIrrelevant(v: Variant, fs: Files, path: string, listing: seq<string>)
    requires fs.listDir(path).Some? && multiset(listing) == multiset(fs.listDir(path).value)
    ensures PathParts(v, fs.(listDir := p => if p == path then Some(listing) else fs.listDir(p)), path)
      == PathParts(v, fs, path)
  {
    var a, b := StringOrder.Sort(listing), StringOrder.Sort(fs.listDir(path).value);
    StringOrder.SortedPermutationUnique(a, b);
    DirPartsIgnoresListing(v, fs, fs.(listDir := p => if p == path then Some(listing) else fs.listDir(p)), path, a);
  }

  lemma {:induction false} DirPartsIgnoresListing(v: Variant, fs: Files, fs': Files, dir: string, names: seq<string>)
    requires fs'.pdf == fs.pdf && fs'.docx == fs.docx && fs'.xlsx == fs.xlsx && fs'.renderRows == fs.renderRows
    ensures DirParts(v, fs', dir, names) == DirParts(v, fs, dir, names)
    decreases |names|
  {
    if names != [] {
      var full := dir + "/" + names[0];
      assert FileParts(v, fs', full, names[0], names[0]) == FileParts(v, fs, full, names[0], names[0]) by {
        FilePartsIgnoresListing(v, fs, fs', full, names[0], names[0]);
      }
      DirPartsIgnoresListing(v, fs, fs', dir, names[1..]);
    }
  }

  /** A file's contribution depends only on the readers, not on listings. */
  lemma FilePartsIgnoresListing(v: Variant, fs: Files, fs': Files, full: string, name: string, base: string)
    requires fs'.pdf == fs.pdf && fs'.docx == fs.docx && fs'.xlsx == fs.xlsx && fs'.renderRows == fs.renderRows
    ensures FileParts(v, fs', full, name, base) == FileParts(v, fs, full, name, base)
  {
  }

  /** The top-level loader never opens a workbook: changing what the Excel
      reader would return changes nothing. */
  lemma {:induction false} RootNeverReadsWorkbooks(fs: Files, xlsx: string -> Read<seq<(string, seq<string>)>>, paths: seq<string>)
    ensures AllParts(RootEngine, fs.(xlsx := xlsx), paths) == AllParts(RootEngine, fs, paths)
    decreases |paths|
  {
    if paths != [] {
      RootNeverReadsWorkbooks(fs, xlsx, paths[1..]);
      match fs.listDir(paths[0])
      case Some(names) => RootDirNeverReadsWorkbooks(fs, xlsx, paths[0], StringOrder.Sort(names));
      case None =>
    }
  }

  lemma {:induction false} RootDirNeverReadsWorkbooks(fs: Files, xlsx: string -> Read<seq<(string, seq<string>)>>, dir: string, names: seq<string>)
    ensures DirParts(RootEngine, fs.(xlsx := xlsx), dir, names) == DirParts(RootEngine, fs, dir, names)
    decreases |names|
  {
    if names != [] {
      var full := dir + "/" + names[0];
      assert FileParts(RootEngine, fs.(xlsx := xlsx), full, names[0], names[0]) == FileParts(RootEngine, fs, full, names[0], names[0]) by {
        RootFileNeverReadsWorkbooks(fs, xlsx, full, names[0], names[0]);
      }
      RootDirNeverReadsWorkbooks(fs, xlsx, dir, names[1..]);
    }
  }

  /** The top-level loader's contribution for one file ignores the Excel
      reader. */
  lemma RootFileNeverReadsWorkbooks(fs: Files, xlsx: string -> Read<seq<(string, seq<string>)>>, full: string, name: string, base: string)
    ensures FileParts(RootEngine, fs.(xlsx := xlsx), full, name, base) == FileParts(RootEngine, fs, full, name, base)
  {
  }

  /** Only the Excel handling tells the two loaders apart: on a configuration
      without workbooks they gather the same parts. */
  lemma {:induction false} VariantsAgreeWithoutWorkbooks(fs: Files, paths: seq<string>)
    requires forall k :: 0 <= k < |paths| ==> fs.listDir(paths[k]).None? && !EndsWith(paths[k], ".xlsx")
    ensures AllParts(AppEngine, fs, paths) == AllParts(RootEngine, fs, paths)
    decreases |paths|
  {
    if paths != [] {
      VariantsAgreeWithoutWorkbooks(fs, paths[1..]);
    }
  }

  /** Parts are not checked for content: one empty document yields an empty
      context, not the "no retrievable content" message. */
  lemma EmptyDocumentIsNotNoContent(v: Variant, fs: Files, config: seq<(string, seq<string>)>, useCase: string)
    requires Lookup(config, useCase).Some? && AllParts(v, fs, Lookup(config, useCase).value) == [""]
    ensures LoadDocuments(v, fs, config, useCase) == ""
  {
  }
}

=== FILE: retry.dfy ===
/** What the two model helpers share: one attempt's outcome, the record of
    a whole call (its answer, how many attempts it made, and the backoff
    sleeps as multiples of the base delay), and the search for the attempt
    that ends the loop. The model call itself is the function `call`, from
    attempt number to outcome; the sleeps are recorded, not taken. */
module Retry {
  import opened Wrappers

  /** One model call: the reply text, or the text of the exception. */
  datatype Attempt = Replied(text: string) | Threw(error: string)

  /** A helper call: the string returned, the attempts made, and each
      sleep as its multiple `k` of the base delay (`delay * k`). */
  datatype Outcome = Outcome(result: string, calls: nat, waits: seq<nat>)

  /** The sleeps after failed attempts 1 to n: `delay * 1`, ..., `delay * n`. */
  function Multipliers(n: nat): (r: seq<nat>)
    ensures |r| == n && forall i :: 0 <= i < n ==> r[i] == i + 1
  {
    if n == 0 then [] else Multipliers(n - 1) + [n]
  }

  /** `range(1, retries + 1)` has this many attempts. */
  function AttemptCount(retries: int): nat {
    if retries > 0 then retries else 0
  }

  /** The first attempt from `from` to `retries` whose outcome ends the loop. */
  function FirstStopFrom(call: nat -> Attempt, stops: Attempt -> bool, from: nat, retries: int): (r: Option<nat>)
    requires 1 <= from
    ensures r.None? <==> forall k :: from <= k <= retries ==> !stops(call(k))
    ensures r.Some? ==>
      from <= r.value <= retries && stops(call(r.value)) && forall k :: from <= k < r.value ==> !stops(call(k))
    decreases retries - from
  {
    if from > retries then None
    else if stops(call(from)) then Some(from)
    else FirstStopFrom(call, stops, from + 1, retries)
  }

  /** The first attempt whose outcome ends the loop, if any. */
  function FirstStop(call: nat -> Attempt, stops: Attempt -> bool, retries: int): (r: Option<nat>)
    ensures r.None? <==> forall k :: 1 <= k <= retries ==> !stops(call(k))
    ensures r.Some? ==>
      1 <= r.value <= retries && stops(call(r.value)) && forall k :: 1 <= k < r.value ==> !stops(call(k))
  {
    FirstStopFrom(call, stops, 1, retries)
  }

  /** The first attempt at which the loop stops is the one after every
      attempt so far went on. */
  lemma FirstStopAt(call: nat -> Attempt, stops: Attempt -> bool, retries: int, k: nat)
    requires 1 <= k <= retries && stops(call(k))
    requires forall j :: 1 <= j < k ==> !stops(call(j))
    ensures FirstStop(call, stops, retries) == Some(k)
  {
  }
}

=== FILE: scraper_agent.dfy ===
/** Post-processing of a fetched page: visible text, table text and
    outbound links. HTML parsing is not modelled: a page is given as its
    text nodes (each with the tags that enclose it), its `<a>` elements that
    carry an `href`, and its tables, each cell already reduced to its
    stripped text. */
module ScraperAgent {
  import opened Wrappers
  import opened Text
  import opened Seqs
  import WebRetriever
  import ValidatorAgent

  /** A text node and the names of its enclosing elements. */
  datatype Piece = Piece(content: string, ancestors: seq<string>)

  /** A table: per row, the stripped text of its `td`/`th` cells. */
  datatype Table = Table(rows: seq<seq<string>>)

  /** A parsed page: text nodes in document order, the `<a href=…>`
      elements in document order, and the tables in document order. */
  datatype Page = Page(pieces: seq<Piece>, anchors: seq<WebRetriever.Anchor>, tables: seq<Table>)

  /** The elements removed before the text is read. */
  predicate IsHiddenTag(tag: string) {
    tag == "script" || tag == "style" || tag == "noscript"
  }

  /** A node inside a removed element. */
  predicate Hidden(p: Piece) {
    exists k :: 0 <= k < |p.ancestors| && IsHiddenTag(p.ancestors[k])
  }

  predicate Visible(p: Piece) {
    !Hidden(p)
  }

  function Content(p: Piece): string {
    p.content
  }

  /** `soup.get_text(separator="\n")` after the removal. */
  function PageText(pieces: seq<Piece>): string {
    Join("\n", FilterMap(pieces, Visible, Content))
  }

  // ---------------------------------------------------------------- text

  /** The stripped non-blank lines of a text, in order. */
  function CleanLines(text: string): (lines: seq<string>)
    ensures |lines| <= |SplitLines(text)|
    ensures forall k :: 0 <= k < |lines| ==> lines[k] != "" && IsStripped(lines[k]) && NoLineBreak(lines[k])
  {
    var all := SplitLines(text);
    var lines := FilterMap(all, NonBlank, Strip);
    forall k | 0 <= k < |lines|
      ensures lines[k] != "" && IsStripped(lines[k]) && NoLineBreak(lines[k])
    {
      FilterMapFrom(all, NonBlank, Strip, k);
      var j :| 0 <= j < |all| && NonBlank(all[j]) && lines[k] == Strip(all[j]);
      StripKeepsNoLineBreak(all[j]);
    }
    lines
  }

  /** `extract_text_from_html`. */
  function ExtractText(pieces: seq<Piece>): string {
    Join("\n", CleanLines(PageText(pieces)))
  }

  /** The extracted text is exactly its clean lines, one per line: no line
      is blank and none has whitespace at either end. */
  lemma ExtractedLinesAreClean(pieces: seq<Piece>)
    ensures var r := ExtractText(pieces);
      var lines := CleanLines(PageText(pieces));
      (r == "" <==> lines == [])
      && SplitLines(r) == lines
      && forall k :: 0 <= k < |SplitLines(r)| ==> SplitLines(r)[k] != "" && IsStripped(SplitLines(r)[k])
  {
    var lines := CleanLines(PageText(pieces));
    SplitLinesOfJoin(lines);
    if lines != [] {
      JoinStartsWithFirst("\n", lines);
    }
  }

  /** Cleaning keeps what is already clean: the extracted text, read back
      as a page of its own, extracts to itself. */
  lemma ExtractionIsIdempotent(pieces: seq<Piece>)
    ensures ExtractText([Piece(ExtractText(pieces), [])]) == ExtractText(pieces)
  {
    var lines := CleanLines(PageText(pieces));
    var r := ExtractText(pieces);
    assert FilterMap([Piece(r, [])], Visible, Content) == [r];
    assert PageText([Piece(r, [])]) == r;
    SplitLinesOfJoin(lines);
    forall k | 0 <= k < |lines| ensures NonBlank(lines[k]) && Strip(lines[k]) == lines[k] {
      StripOfStripped(lines[k]);
    }
    FilterMapIdentity(lines, NonBlank, Strip);
  }

  /** Text inside `script`, `style` and `noscript` never reaches the
      result, wherever it sits. */
  lemma HiddenTextIsDropped(before: seq<Piece>, hidden: Piece, after: seq<Piece>)
    requires Hidden(hidden)
    ensures ExtractText(before + [hidden] + after) == ExtractText(before + after)
  {
    FilterMapAppend(before + [hidden], after, Visible, Content);
    FilterMapAppend(before, [hidden], Visible, Content);
    FilterMapAppend(before, after, Visible, Content);
    assert FilterMap([hidden], Visible, Content) == [];
    assert FilterMap(before + [hidden] + after, Visible, Content) == FilterMap(before + after, Visible, Content);
    assert PageText(before + [hidden] + after) == PageText(before + after);
  }

  // ---------------------------------------------------------------- links

  /** A link worth keeping: non-empty text and an `href` starting "http". */
  predicate Qualifies(a: WebRetriever.Anchor) {
    a.href.Some? && a.text != "" && StartsWith(a.href.value, "http")
  }

  function LinkOf(a: WebRetriever.Anchor): (string, string) {
    (a.text, if a.href.Some? then a.href.value else "")
  }

  /** Every qualifying link of the page, in document order. */
  function AllLinks(anchors: seq<WebRetriever.Anchor>): (r: seq<(string, string)>)
    ensures forall k :: 0 <= k < |r| ==> r[k].0 != "" && StartsWith(r[k].1, "http")
  {
    var r := FilterMap(anchors, Qualifies, LinkOf);
    forall k | 0 <= k < |r| ensures r[k].0 != "" && StartsWith(r[k].1, "http") {
      FilterMapFrom(anchors, Qualifies, LinkOf, k);
    }
    r
  }

  /** No anchor of the list has an `href` (the scan saw none). */
  predicate NoHref(anchors: seq<WebRetriever.Anchor>) {
    forall k :: 0 <= k < |anchors| ==> anchors[k].href.None?
  }

  /** The first anchor carrying an `href`, if any. */
  function FirstWithHref(anchors: seq<WebRetriever.Anchor>): (r: Option<nat>)
    ensures r.None? <==> NoHref(anchors)
    ensures r.Some? ==> r.value < |anchors| && anchors[r.value].href.Some? && NoHref(anchors[..r.value])
  {
    if anchors == [] then None
    else if anchors[0].href.Some? then Some(0)
    else
      match FirstWithHref(anchors[1..])
      case None => None
      case Some(i) =>
        assert anchors[..i + 1] == [anchors[0]] + anchors[1..][..i];
        Some(i + 1)
  }

  /** What `extract_links` keeps, stated without the loop: the first
      `limit` qualifying links; with a `limit` below one the scan stops at
      the first anchor carrying an `href`, which is kept only if it
      qualifies. */
  function LinksWithin(anchors: seq<WebRetriever.Anchor>, limit: int): (r: seq<(string, string)>)
    ensures |r| <= |AllLinks(anchors)| && r == AllLinks(anchors)[..|r|]
    ensures limit >= 1 ==> |r| == if limit < |AllLinks(anchors)| then limit else |AllLinks(anchors)|
    ensures limit < 1 ==> |r| <= 1
  {
    var all := AllLinks(anchors);
    if limit >= 1 then SliceTo(all, limit)
    else
      match FirstWithHref(anchors)
      case None => []
      case Some(i) =>
        if Qualifies(anchors[i]) then
          FilterMapAppend(anchors[..i], anchors[i..], Qualifies, LinkOf);
          assert anchors[..i] + anchors[i..] == anchors;
          assert FilterMap(anchors[..i], Qualifies, LinkOf) == [];
          all[..1]
        else []
  }

  /** `extract_links(html, limit)`: scan the `href` anchors in order,
      keeping the qualifying ones, and stop as soon as `limit` are kept. */
  method ExtractLinks(anchors: seq<WebRetriever.Anchor>, limit: int) returns (links: seq<(string, string)>)
    ensures links == LinksWithin(anchors, limit)
    ensures limit >= 1 ==> |links| <= limit
    ensures forall k :: 0 <= k < |links| ==> links[k].0 != "" && StartsWith(links[k].1, "http")
  {
    links := [];
    var i := 0;
    while i < |anchors|
      invariant 0 <= i <= |anchors|
      invariant links == FilterMap(anchors[..i], Qualifies, LinkOf)
      invariant limit >= 1 ==> |links| < limit
      invariant limit < 1 ==> NoHref(anchors[..i])
    {
      var a := anchors[i];
      ScanStep(anchors, i);
      if a.href.Some? {
        if Qualifies(a) {
          links := links + [LinkOf(a)];
        }
        if |links| >= limit {
          assert links == LinksWithin(anchors, limit) by {
            StoppedEarly(anchors, limit, i, links);
          }
          LinksWithinQualify(anchors, limit);
          return;
        }
      }
      assert anchors[..i + 1] == anchors[..i] + [a];
      i := i + 1;
    }
    assert links == LinksWithin(anchors, limit) by {
      assert anchors[..i] == anchors;
      if limit < 1 {
        assert NoHref(anchors);
      }
    }
    LinksWithinQualify(anchors, limit);
  }

  /** Every link kept is a titled `http` link. */
  lemma LinksWithinQualify(anchors: seq<WebRetriever.Anchor>, limit: int)
    ensures var r := LinksWithin(anchors, limit);
      forall k :: 0 <= k < |r| ==> r[k].0 != "" && StartsWith(r[k].1, "http")
  {
    var r, all := LinksWithin(anchors, limit), AllLinks(anchors);
    forall k | 0 <= k < |r| ensures r[k].0 != "" && StartsWith(r[k].1, "http") {
      assert r[k] == all[k];
    }
  }

  /** One more anchor scanned: the kept links grow by its link when it
      qualifies. */
  lemma ScanStep(anchors: seq<WebRetriever.Anchor>, i: nat)
    requires i < |anchors|
    ensures FilterMap(anchors[..i + 1], Qualifies, LinkOf)
      == FilterMap(anchors[..i], Qualifies, LinkOf) + (if Qualifies(anchors[i]) then [LinkOf(anchors[i])] else [])
  {
    FilterMapAppend(anchors[..i], [anchors[i]], Qualifies, LinkOf);
    assert anchors[..i + 1] == anchors[..i] + [anchors[i]];
  }

  /** The state at the loop's `break` is the reference answer. */
  lemma StoppedEarly(anchors: seq<WebRetriever.Anchor>, limit: int, i: nat, links: seq<(string, string)>)
    requires i < |anchors| && anchors[i].href.Some?
    requires links == FilterMap(anchors[..i + 1], Qualifies, LinkOf)
    requires limit >= 1 ==> |links| == limit
    requires limit < 1 ==> NoHref(anchors[..i])
    ensures links == LinksWithin(anchors, limit)
  {
    var all := AllLinks(anchors);
    var rest := FilterMap(anchors[i + 1..], Qualifies, LinkOf);
    FilterMapAppend(anchors[..i + 1], anchors[i + 1..], Qualifies, LinkOf);
    assert anchors[..i + 1] + anchors[i + 1..] == anchors;
    assert all == links + rest;
    if limit < 1 {
      StoppedAtFirstHref(anchors, i, links);
    }
  }

  /** With no `href` before position `i`, the anchor at `i` is the first
      carrying one, and the scan so far kept at most that anchor. */
  lemma StoppedAtFirstHref(anchors: seq<WebRetriever.Anchor>, i: nat, links: seq<(string, string)>)
    requires i < |anchors| && anchors[i].href.Some? && NoHref(anchors[..i])
    requires links == FilterMap(anchors[..i + 1], Qualifies, LinkOf)
    ensures FirstWithHref(anchors) == Some(i)
    ensures links == if Qualifies(anchors[i]) then [LinkOf(anchors[i])] else []
  {
    FirstHrefAt(anchors, i);
    ScanBeforeHrefKeepsNothing(anchors, i);
  }

  /** Anchors without an `href` contribute no link, so the scan up to and
      including the next anchor keeps at most that one. */
  lemma ScanBeforeHrefKeepsNothing(anchors: seq<WebRetriever.Anchor>, i: nat)
    requires i < |anchors| && NoHref(anchors[..i])
    ensures FilterMap(anchors[..i + 1], Qualifies, LinkOf)
         == if Qualifies(anchors[i]) then [LinkOf(anchors[i])] else []
  {
    var pre, a := anchors[..i], anchors[i];
    assert anchors[..i + 1] == pre + [a];
    FilterMapAppend(pre, [a], Qualifies, LinkOf);
    assert forall k :: 0 <= k < |pre| ==> !Qualifies(pre[k]);
    assert [a][1..] == [];
  }

  lemma FirstHrefAt(anchors: seq<WebRetriever.Anchor>, i: nat)
    requires i < |anchors| && anchors[i].href.Some? && NoHref(anchors[..i])
    ensures FirstWithHref(anchors) == Some(i)
  {
  }

  // ---------------------------------------------------------------- tables

  /** A row's line: its cells joined by " | ". */
  function RowLine(cells: seq<string>): string {
    Join(" | ", cells)
  }

  predicate KeptRow(cells: seq<string>) {
    RowLine(cells) != ""
  }

  /** `c * n`. */
  function Repeat(c: char, n: nat): (r: string)
    ensures |r| == n && forall i :: 0 <= i < n ==> r[i] == c
  {
    if n == 0 then "" else [c] + Repeat(c, n - 1)
  }

  /** The rule under each table: `"-" * 50`. */
  const Dashes: string := Repeat('-', 50)

  /** One table's lines: its kept rows in order, then the rule. */
  function TableLines(t: Table): (lines: seq<string>)
    ensures |lines| >= 1
  {
    FilterMap(t.rows, KeptRow, RowLine) + [Dashes]
  }

  /** The lines of every table, table after table. */
  function AllTableLines(tables: seq<Table>): (lines: seq<string>)
    ensures |lines| >= |tables|
  {
    if tables == [] then [] else TableLines(tables[0]) + AllTableLines(tables[1..])
  }

  /** The last line of one table, and so of any non-empty run of tables, is
      the rule. */
  lemma {:induction false} TablesEndWithRule(tables: seq<Table>)
    requires tables != []
    ensures TableLines(tables[|tables| - 1])[|TableLines(tables[|tables| - 1])| - 1] == Dashes
    ensures AllTableLines(tables)[|AllTableLines(tables)| - 1] == Dashes
    decreases |tables|
  {
    if |tables| > 1 {
      TablesEndWithRule(tables[1..]);
      assert tables[1..][|tables[1..]| - 1] == tables[|tables| - 1];
    }
  }

  /** `extract_table_text`. */
  function ExtractTableText(tables: seq<Table>): string {
    Join("\n", AllTableLines(tables))
  }

  /** A row is left out exactly when it has no cells or a single empty
      cell: two or more cells always leave the separator. */
  lemma RowOmittedIffBlank(cells: seq<string>)
    ensures !KeptRow(cells) <==> cells == [] || cells == [""]
  {
    if |cells| >= 2 {
      assert |RowLine(cells)| >= 3;
    }
  }

  lemma {:induction false} AllTableLinesAppend(a: seq<Table>, b: seq<Table>)
    ensures AllTableLines(a + b) == AllTableLines(a) + AllTableLines(b)
    decreases |a|
  {
    if a == [] {
      assert a + b == b;
    } else {
      assert (a + b)[1..] == a[1..] + b;
      AllTableLinesAppend(a[1..], b);
    }
  }

  /** Every table leaves its rule, even one with no kept row; a page
      without tables gives the empty string, and one with tables never
      does. */
  lemma EveryTableLeavesARule(tables: seq<Table>, t: Table)
    requires forall k :: 0 <= k < |t.rows| ==> !KeptRow(t.rows[k])
    ensures AllTableLines(tables + [t]) == AllTableLines(tables) + [Dashes]
    ensures ExtractTableText([]) == ""
    ensures ExtractTableText(tables + [t]) != ""
  {
    AllTableLinesAppend(tables, [t]);
    var lines := AllTableLines(tables + [t]);
    JoinStartsWithFirst("\n", lines);
    assert |lines[0]| >= 1 by {
      if tables == [] {
        assert lines == [Dashes];
      } else {
        assert lines[0] == AllTableLines(tables)[0] == TableLines(tables[0])[0];
        TableLineNotEmpty(tables[0], 0);
      }
    }
  }

  /** No line of a table is empty. */
  lemma TableLineNotEmpty(t: Table, k: nat)
    requires k < |TableLines(t)|
    ensures TableLines(t)[k] != ""
  {
    var kept := FilterMap(t.rows, KeptRow, RowLine);
    if k < |kept| {
      FilterMapFrom(t.rows, KeptRow, RowLine, k);
    }
  }

  /** No line of a table holds a newline when no cell does. */
  lemma TableLineHasNoNewline(t: Table, k: nat)
    requires forall r, c :: 0 <= r < |t.rows| && 0 <= c < |t.rows[r]| ==> '\n' !in t.rows[r][c]
    requires k < |TableLines(t)|
    ensures '\n' !in TableLines(t)[k]
  {
    var kept := FilterMap(t.rows, KeptRow, RowLine);
    if k < |kept| {
      FilterMapFrom(t.rows, KeptRow, RowLine, k);
      var j :| 0 <= j < |t.rows| && KeptRow(t.rows[j]) && kept[k] == RowLine(t.rows[j]);
      assert forall c :: 0 <= c < |t.rows[j]| ==> '\n' !in t.rows[j][c];
      JoinKeepsAbsent(" | ", t.rows[j], '\n');
    } else {
      assert TableLines(t)[k] == Dashes;
    }
  }

  predicate NoNewlineInCells(tables: seq<Table>) {
    forall i, r, c :: 0 <= i < |tables| && 0 <= r < |tables[i].rows| && 0 <= c < |tables[i].rows[r]| ==>
      '\n' !in tables[i].rows[r][c]
  }

  /** Cells without newlines: the text splits back, at its newlines, into
      the tables' lines, table after table. */
  lemma {:induction false} TableTextSplitsIntoLines(tables: seq<Table>)
    requires tables != []
    requires NoNewlineInCells(tables)
    ensures Split(ExtractTableText(tables), '\n') == AllTableLines(tables)
  {
    LinesHaveNoNewline(tables);
    SplitJoin(AllTableLines(tables), '\n');
  }

  lemma {:induction false} LinesHaveNoNewline(tables: seq<Table>)
    requires NoNewlineInCells(tables)
    ensures forall k :: 0 <= k < |AllTableLines(tables)| ==> '\n' !in AllTableLines(tables)[k]
    decreases |tables|
  {
    if tables != [] {
      var first := TableLines(tables[0]);
      var rest := AllTableLines(tables[1..]);
      assert forall i :: 0 <= i < |tables[1..]| ==> tables[1..][i] == tables[i + 1];
      LinesHaveNoNewline(tables[1..]);
      forall k | 0 <= k < |first| ensures '\n' !in first[k] {
        TableLineHasNoNewline(tables[0], k);
      }
      assert AllTableLines(tables) == first + rest;
    }
  }

  /** The table check of the validator accepts any page with two tables,
      even empty ones, but rejects a page whose only table has no kept
      row. */
  lemma TableCheckCountsRules(tables: seq<Table>, t: Table)
    requires |tables| >= 2
    requires forall k :: 0 <= k < |t.rows| ==> !KeptRow(t.rows[k])
    ensures ValidatorAgent.ValidateTableText(ExtractTableText(tables))
    ensures !ValidatorAgent.ValidateTableText(ExtractTableText([t]))
  {
    var lines := AllTableLines(tables);
    var s := Join("\n", lines);
    assert s == lines[0] + "\n" + Join("\n", lines[1..]);
    assert s[|lines[0]|] == '\n';
    EveryTableLeavesARule([], t);
    assert [] + [t] == [t];
    assert ExtractTableText([t]) == Dashes;
  }

  // ---------------------------------------------------------------- the dictionary

  /** `smart_scrape`'s dictionary: exactly the keys text, tables, links. */
  datatype Scrape = Scrape(text: string, tables: string, links: seq<(string, string)>)

  /** The link limit `smart_scrape` uses. */
  const DefaultLimit: int := 5

  /** `smart_scrape`: the three extractors on the same page. */
  method SmartScrape(page: Page) returns (r: Scrape)
    ensures r.text == ExtractText(page.pieces) && r.tables == ExtractTableText(page.tables)
    ensures |r.links| <= |AllLinks(page.anchors)| && r.links == AllLinks(page.anchors)[..|r.links|]
    ensures |r.links| == if DefaultLimit < |AllLinks(page.anchors)| then DefaultLimit else |AllLinks(page.anchors)|
  {
    var links := ExtractLinks(page.anchors, DefaultLimit);
    r := Scrape(ExtractText(page.pieces), ExtractTableText(page.tables), links);
  }
}

=== FILE: seqs.dfy ===
/** Generic list comprehensions: `[f(x) for x in xs if keep(x)]`. */
module Seqs {

  function FilterMap<T, U>(xs: seq<T>, keep: T -> bool, f: T -> U): (r: seq<U>)
    ensures |r| <= |xs|
    ensures r == [] <==> forall k :: 0 <= k < |xs| ==> !keep(xs[k])
  {
    if xs == [] then []
    else
      var rest := FilterMap(xs[1..], keep, f);
      assert forall k :: 0 < k < |xs| ==> xs[k] == xs[1..][k - 1];
      if keep(xs[0]) then [f(xs[0])] + rest else rest
  }

  /** Every output is the image of a kept input. */
  lemma {:induction false} FilterMapFrom<T, U>(xs: seq<T>, keep: T -> bool, f: T -> U, k: nat)
    requires k < |FilterMap(xs, keep, f)|
    ensures exists j :: 0 <= j < |xs| && keep(xs[j]) && FilterMap(xs, keep, f)[k] == f(xs[j])
  {
    var rest := FilterMap(xs[1..], keep, f);
    if keep(xs[0]) && k == 0 {
      assert FilterMap(xs, keep, f)[0] == f(xs[0]);
    } else {
      var k' := if keep(xs[0]) then k - 1 else k;
      assert FilterMap(xs, keep, f)[k] == rest[k'];
      FilterMapFrom(xs[1..], keep, f, k');
      var j :| 0 <= j < |xs[1..]| && keep(xs[1..][j]) && rest[k'] == f(xs[1..][j]);
      assert xs[1..][j] == xs[j + 1];
    }
  }

  /** The comprehension distributes over concatenation. */
  lemma {:induction false} FilterMapAppend<T, U>(a: seq<T>, b: seq<T>, keep: T -> bool, f: T -> U)
    ensures FilterMap(a + b, keep, f) == FilterMap(a, keep, f) + FilterMap(b, keep, f)
    decreases |a|
  {
    if a != [] {
      assert (a + b)[0] == a[0];
      assert (a + b)[1..] == a[1..] + b;
      FilterMapAppend(a[1..], b, keep, f);
    } else {
      assert a + b == b;
    }
  }

  /** A comprehension that keeps every element and maps each to itself
      gives the list back. */
  lemma {:induction false} FilterMapIdentity<T>(xs: seq<T>, keep: T -> bool, f: T -> T)
    requires forall k :: 0 <= k < |xs| ==> keep(xs[k]) && f(xs[k]) == xs[k]
    ensures FilterMap(xs, keep, f) == xs
  {
    if xs != [] {
      assert forall k :: 0 <= k < |xs[1..]| ==> xs[1..][k] == xs[k + 1];
      FilterMapIdentity(xs[1..], keep, f);
    }
  }

  /** `[y for x in xs for y in f(x)]`. */
  function ConcatMap<T, U>(xs: seq<T>, f: T -> seq<U>): seq<U> {
    if xs == [] then [] else f(xs[0]) + ConcatMap(xs[1..], f)
  }

  /** The flattening distributes over concatenation. */
  lemma {:induction false} ConcatMapAppend<T, U>(a: seq<T>, b: seq<T>, f: T -> seq<U>)
    ensures ConcatMap(a + b, f) == ConcatMap(a, f) + ConcatMap(b, f)
    decreases |a|
  {
    if a != [] {
      assert (a + b)[0] == a[0];
      assert (a + b)[1..] == a[1..] + b;
      ConcatMapAppend(a[1..], b, f);
    } else {
      assert a + b == b;
    }
  }

  function Count<T>(xs: seq<T>, keep: T -> bool): nat {
    if xs == [] then 0 else (if keep(xs[0]) then 1 else 0) + Count(xs[1..], keep)
  }

  /** Counting distributes over concatenation. */
  lemma {:induction false} CountAppend<T>(a: seq<T>, b: seq<T>, keep: T -> bool)
    ensures Count(a + b, keep) == Count(a, keep) + Count(b, keep)
    decreases |a|
  {
    if a != [] {
      assert (a + b)[0] == a[0];
      assert (a + b)[1..] == a[1..] + b;
      CountAppend(a[1..], b, keep);
    } else {
      assert a + b == b;
    }
  }

  /** A list whose every element is kept counts in full. */
  lemma {:induction false} CountAllKept<T>(xs: seq<T>, keep: T -> bool)
    requires forall k :: 0 <= k < |xs| ==> keep(xs[k])
    ensures Count(xs, keep) == |xs|
  {
    if xs != [] {
      assert forall k :: 0 <= k < |xs[1..]| ==> xs[1..][k] == xs[k + 1];
      CountAllKept(xs[1..], keep);
    }
  }

  /** One output per kept input; nothing is lost when everything is kept. */
  lemma {:induction false} FilterMapCount<T, U>(xs: seq<T>, keep: T -> bool, f: T -> U)
    ensures |FilterMap(xs, keep, f)| == Count(xs, keep)
    ensures (forall k :: 0 <= k < |xs| ==> keep(xs[k])) ==> |FilterMap(xs, keep, f)| == |xs|
  {
    if xs != [] {
      FilterMapCount(xs[1..], keep, f);
      assert forall k :: 0 < k < |xs| ==> xs[k] == xs[1..][k - 1];
    }
  }

  /** `[f(x) for x in xs]`. */
  function Map<T, U>(xs: seq<T>, f: T -> U): (r: seq<U>)
    ensures |r| == |xs|
    ensures forall i :: 0 <= i < |xs| ==> r[i] == f(xs[i])
  {
    if xs == [] then [] else [f(xs[0])] + Map(xs[1..], f)
  }

  /** `xs[::-1]`. */
  function Reverse<T>(xs: seq<T>): (r: seq<T>)
    ensures |r| == |xs| && forall i :: 0 <= i < |xs| ==> r[i] == xs[|xs| - 1 - i]
  {
    if xs == [] then [] else Reverse(xs[1..]) + [xs[0]]
  }

  /** Python's `xs[:limit]`: a negative limit counts from the end. */
  function SliceTo<T>(xs: seq<T>, limit: int): (r: seq<T>)
    ensures |r| <= |xs| && r == xs[..|r|]
    ensures limit >= 0 ==> |r| == if limit < |xs| then limit else |xs|
    ensures limit < 0 ==> |r| == if |xs| + limit > 0 then |xs| + limit else 0
  {
    if limit >= 0 then (if limit < |xs| then xs[..limit] else xs)
    else if |xs| + limit > 0 then xs[..|xs| + limit]
    else []
  }
}

=== FILE: session.dfy ===
/** The per-user session both front ends work on: who the customer is, the
    ledger rows of their transaction file, and the memory of past turns.
    Loading it from the user and transaction files is not modelled. */
module Session {
  import opened Seqs

  /** One remembered exchange. Both front ends always record a use case. */
  datatype Turn = Turn(query: string, intent: string, useCase: string, context: string, response: string)

  /** `transactions` holds the ledger rows, oldest first, as opaque rows. */
  datatype Session = Session(userId: string, name: string, transactions: seq<string>, memory: seq<Turn>)

  /** How much of a turn's context is remembered. */
  const MaxRememberedContext: nat := 500

  /** The memory record of a turn: the context cut to its first 500
      characters. */
  function Remember(query: string, intent: string, useCase: string, context: string, response: string): (t: Turn)
    ensures |t.context| <= MaxRememberedContext && |t.context| <= |context| && t.context == context[..|t.context|]
    ensures |context| > MaxRememberedContext ==> |t.context| == MaxRememberedContext
    ensures |context| <= MaxRememberedContext ==> t.context == context
    ensures t.query == query && t.intent == intent && t.useCase == useCase && t.response == response
  {
    Turn(query, intent, useCase, SliceTo(context, MaxRememberedContext), response)
  }

  /** `session["memory"].append(turn)`. */
  function AppendTurn(s: Session, t: Turn): (r: Session)
    ensures r.memory == s.memory + [t]
    ensures r.userId == s.userId && r.name == s.name && r.transactions == s.transactions
  {
    s.(memory := s.memory + [t])
  }

  /** Appending never disturbs the turns already remembered. */
  lemma AppendKeepsHistory(s: Session, t: Turn)
    ensures |AppendTurn(s, t).memory| == |s.memory| + 1
    ensures AppendTurn(s, t).memory[..|s.memory|] == s.memory
    ensures AppendTurn(s, t).memory[|s.memory|] == t
  {
  }

  /** `transactions.tail(5)`: the last five rows, or all of them. */
  function Tail5(rows: seq<string>): (r: seq<string>)
    ensures |r| <= 5 && |r| <= |rows|
    ensures r == rows[|rows| - |r|..]
    ensures |rows| >= 5 ==> |r| == 5
    ensures |rows| < 5 ==> r == rows
  {
    if |rows| <= 5 then rows else rows[|rows| - 5..]
  }
}

=== FILE: string_order.dfy ===
/** Python's ordering of `str` values (code point by code point) and
    `sorted()` on a list of names. */
module StringOrder {

  /** `a <= b` on Python strings. */
  predicate LexLe(a: string, b: string)
    decreases |a|
  {
    if a == [] then true
    else if b == [] then false
    else if a[0] != b[0] then a[0] < b[0]
    else LexLe(a[1..], b[1..])
  }

  lemma {:induction false} LexLeTotal(a: string, b: string)
    ensures LexLe(a, b) || LexLe(b, a)
    decreases |a|
  {
    if a != [] && b != [] && a[0] == b[0] {
      LexLeTotal(a[1..], b[1..]);
    }
  }

  lemma {:induction false} LexLeTransitive(a: string, b: string, c: string)
    requires LexLe(a, b) && LexLe(b, c)
    ensures LexLe(a, c)
    decreases |a|
  {
    if a != [] && b != [] && c != [] && a[0] == b[0] && b[0] == c[0] {
      LexLeTransitive(a[1..], b[1..], c[1..]);
    }
  }

  lemma {:induction false} LexLeAntisymmetric(a: string, b: string)
    requires LexLe(a, b) && LexLe(b, a)
    ensures a == b
    decreases |a|
  {
    if a != [] && b != [] {
      LexLeAntisymmetric(a[1..], b[1..]);
      assert a == [a[0]] + a[1..] && b == [b[0]] + b[1..];
    }
  }

  predicate Sorted(s: seq<string>) {
    forall i, j :: 0 <= i < j < |s| ==> LexLe(s[i], s[j])
  }

  function Insert(x: string, s: seq<string>): (r: seq<string>)
    requires Sorted(s)
    ensures Sorted(r)
    ensures multiset(r) == multiset(s) + multiset{x}
  {
    if s == [] then [x]
    else if LexLe(x, s[0]) then
      assert forall j :: 0 <= j < |s| ==> LexLe(x, s[j]) by {
        forall j | 0 <= j < |s| ensures LexLe(x, s[j]) {
          if j > 0 { LexLeTransitive(x, s[0], s[j]); }
        }
      }
      [x] + s
    else
      LexLeTotal(x, s[0]);
      var rest := s[1..];
      assert Sorted(rest) by {
        forall i, j | 0 <= i < j < |rest| ensures LexLe(rest[i], rest[j]) {
          assert rest[i] == s[i + 1] && rest[j] == s[j + 1];
        }
      }
      var t := Insert(x, rest);
      assert forall j :: 0 <= j < |t| ==> LexLe(s[0], t[j]) by {
        assert forall k :: 0 <= k < |rest| ==> LexLe(s[0], rest[k]) by {
          forall k | 0 <= k < |rest| ensures LexLe(s[0], rest[k]) { assert rest[k] == s[k + 1]; }
        }
        PermutationStaysAbove(s[0], x, rest, t);
      }
      assert s == [s[0]] + rest;
      [s[0]] + t
  }

  /** A rearrangement of `x` and `rest` stays above any lower bound of them. */
  lemma PermutationStaysAbove(low: string, x: string, rest: seq<string>, t: seq<string>)
    requires LexLe(low, x) && forall k :: 0 <= k < |rest| ==> LexLe(low, rest[k])
    requires multiset(t) == multiset(rest) + multiset{x}
    ensures forall j :: 0 <= j < |t| ==> LexLe(low, t[j])
  {
    forall j | 0 <= j < |t| ensures LexLe(low, t[j]) {
      assert t[j] in multiset(t);
      if t[j] != x {
        assert t[j] in multiset(rest);
        var k :| 0 <= k < |rest| && rest[k] == t[j];
      }
    }
  }

  /** `sorted(names)`: an ascending permutation of `names`. */
  function Sort(names: seq<string>): (r: seq<string>)
    ensures Sorted(r)
    ensures multiset(r) == multiset(names)
  {
    if names == [] then []
    else
      assert names == [names[0]] + names[1..];
      Insert(names[0], Sort(names[1..]))
  }

  lemma SortedHeadIsLeast(a: seq<string>, x: string)
    requires Sorted(a) && x in multiset(a)
    ensures LexLe(a[0], x)
  {
    var i :| 0 <= i < |a| && a[i] == x;
    if i == 0 { LexLeTotal(x, x); }
  }

  lemma MultisetOfTail(a: seq<string>)
    requires a != []
    ensures a == [a[0]] + a[1..]
    ensures multiset(a[1..]) == multiset(a) - multiset{a[0]}
  {
    assert a == [a[0]] + a[1..];
  }

  /** There is only one ascending arrangement of a multiset of names, so
      `Sort` is the only function with its contract. */
  lemma {:induction false} SortedPermutationUnique(a: seq<string>, b: seq<string>)
    requires Sorted(a) && Sorted(b) && multiset(a) == multiset(b)
    ensures a == b
    decreases |a|
  {
    assert |a| == |multiset(a)| == |b|;
    if a != [] {
      assert a[0] in multiset(b) && b[0] in multiset(a);
      SortedHeadIsLeast(b, a[0]);
      SortedHeadIsLeast(a, b[0]);
      LexLeAntisymmetric(a[0], b[0]);
      MultisetOfTail(a);
      MultisetOfTail(b);
      SortedPermutationUnique(a[1..], b[1..]);
    }
  }
}

=== FILE: text.dfy ===
/** ASCII models of the Python string operations the assistant relies on:
    `str.strip`, `str.lower`, `str.title`, `str.startswith`, `in`,
    `str.split`, `str.splitlines`, `str.join` and integer formatting. */
module Text {
  import opened Wrappers

  /** `str.isspace` on the ASCII range: space, \t \n \v \f \r and \x1c..\x1f. */
  predicate IsSpace(c: char) {
    c == ' ' || c == '\t' || c == '\n' || c == '\r' || c == '\U{000B}' || c == '\U{000C}'
    || ('\U{001C}' <= c <= '\U{001F}')
  }

  /** The ASCII line boundaries of `str.splitlines`: \n \r \v \f \x1c \x1d \x1e
      (\r\n counts as one boundary). */
  predicate IsLineBreak(c: char) {
    c == '\n' || c == '\r' || c == '\U{000B}' || c == '\U{000C}' || ('\U{001C}' <= c <= '\U{001E}')
  }

  predicate AllSpace(s: string) {
    forall i :: 0 <= i < |s| ==> IsSpace(s[i])
  }

  predicate NoLineBreak(s: string) {
    forall i :: 0 <= i < |s| ==> !IsLineBreak(s[i])
  }

  /** Neither end of `s` is whitespace. */
  predicate IsStripped(s: string) {
    s == [] || (!IsSpace(s[0]) && !IsSpace(s[|s| - 1]))
  }

  predicate StartsWith(s: string, prefix: string) {
    |prefix| <= |s| && s[..|prefix|] == prefix
  }

  predicate EndsWith(s: string, suffix: string) {
    |suffix| <= |s| && s[|s| - |suffix|..] == suffix
  }

  predicate OccursAt(s: string, sub: string, i: int) {
    0 <= i && i + |sub| <= |s| && s[i..i + |sub|] == sub
  }

  // ---------------------------------------------------------------- strip

  function TrimStart(s: string): (r: string)
    ensures |r| <= |s| && r == s[|s| - |r|..]
    ensures AllSpace(s[..|s| - |r|])
    ensures r == [] || !IsSpace(r[0])
  {
    if |s| > 0 && IsSpace(s[0]) then
      var r := TrimStart(s[1..]);
      assert s[..|s| - |r|] == [s[0]] + s[1..][..|s| - 1 - |r|];
      r
    else s
  }

  function TrimEnd(s: string): (r: string)
    ensures |r| <= |s| && r == s[..|r|]
    ensures AllSpace(s[|r|..])
    ensures r == [] || !IsSpace(r[|r| - 1])
  {
    if |s| > 0 && IsSpace(s[|s| - 1]) then
      var r := TrimEnd(s[..|s| - 1]);
      assert s[|r|..] == s[..|s| - 1][|r|..] + [s[|s| - 1]];
      r
    else s
  }

  /** `str.strip()`: drops whitespace at both ends. */
  function Strip(s: string): (r: string)
    ensures |r| <= |s|
    ensures IsStripped(r)
  {
    TrimEnd(TrimStart(s))
  }

  lemma StripOfStripped(s: string)
    requires IsStripped(s)
    ensures Strip(s) == s
  {
  }

  lemma StripIdempotent(s: string)
    ensures Strip(Strip(s)) == Strip(s)
  {
    StripOfStripped(Strip(s));
  }

  /** A line with something besides whitespace: `line.strip()` is truthy. */
  predicate NonBlank(line: string) {
    Strip(line) != ""
  }

  lemma StripOfAllSpace(s: string)
    requires AllSpace(s)
    ensures Strip(s) == ""
  {
  }

  /** `strip` only removes characters. */
  lemma StripKeepsAbsent(s: string, c: char)
    requires c !in s
    ensures c !in Strip(s)
  {
    var t := TrimStart(s);
    var r := TrimEnd(t);
    forall k | 0 <= k < |r| ensures r[k] != c {
      assert r[k] == t[k] == s[|s| - |t| + k];
    }
  }

  /** `strip` keeps a line a line. */
  lemma StripKeepsNoLineBreak(s: string)
    requires NoLineBreak(s)
    ensures NoLineBreak(Strip(s))
  {
    TrimStartKeepsNoLineBreak(s);
    TrimEndKeepsNoLineBreak(TrimStart(s));
  }

  lemma {:induction false} TrimStartKeepsNoLineBreak(s: string)
    requires NoLineBreak(s)
    ensures NoLineBreak(TrimStart(s))
    decreases |s|
  {
    if |s| > 0 && IsSpace(s[0]) {
      var tail := s[1..];
      assert NoLineBreak(tail) by {
        forall k | 0 <= k < |tail| ensures !IsLineBreak(tail[k]) { assert tail[k] == s[k + 1]; }
      }
      TrimStartKeepsNoLineBreak(tail);
    }
  }

  lemma {:induction false} TrimEndKeepsNoLineBreak(s: string)
    requires NoLineBreak(s)
    ensures NoLineBreak(TrimEnd(s))
    decreases |s|
  {
    if |s| > 0 && IsSpace(s[|s| - 1]) {
      var init := s[..|s| - 1];
      assert NoLineBreak(init) by {
        forall k | 0 <= k < |init| ensures !IsLineBreak(init[k]) { assert init[k] == s[k]; }
      }
      TrimEndKeepsNoLineBreak(init);
    }
  }

  /** Leading whitespace does not change what `strip` keeps. */
  lemma StripDropsLeadingSpace(c: char, s: string)
    requires IsSpace(c)
    ensures Strip([c] + s) == Strip(s)
  {
    assert ([c] + s)[1..] == s;
  }

  /** Trailing whitespace does not change what `strip` keeps. */
  lemma StripDropsTrailingSpace(s: string, c: char)
    requires IsSpace(c)
    ensures Strip(s + [c]) == Strip(s)
  {
    TrimStartBeforeSpace(s, c);
    var t := TrimStart(s);
    assert (t + [c])[..|t|] == t;
  }

  /** Appending whitespace to a string either survives `TrimStart` as is or
      the whole string was whitespace. */
  lemma {:induction false} TrimStartBeforeSpace(s: string, c: char)
    requires IsSpace(c)
    ensures TrimStart(s + [c]) == TrimStart(s) + [c] || (TrimStart(s + [c]) == [] && TrimStart(s) == [])
    decreases |s|
  {
    var sc := s + [c];
    if |s| == 0 {
      assert sc == [c];
      assert TrimStart([c]) == [] by { assert [c][1..] == []; }
    } else if IsSpace(s[0]) {
      assert sc[0] == s[0] && sc[1..] == s[1..] + [c];
      assert TrimStart(sc) == TrimStart(s[1..] + [c]);
      assert TrimStart(s) == TrimStart(s[1..]);
      TrimStartBeforeSpace(s[1..], c);
    } else {
      assert sc[0] == s[0];
      assert TrimStart(sc) == sc;
    }
  }

  /** Leading whitespace of any length does not change what `strip` keeps. */
  lemma {:induction false} StripOfLeftPadded(pre: string, s: string)
    requires AllSpace(pre)
    ensures Strip(pre + s) == Strip(s)
    decreases |pre|
  {
    if |pre| > 0 {
      assert pre + s == [pre[0]] + (pre[1..] + s);
      StripDropsLeadingSpace(pre[0], pre[1..] + s);
      StripOfLeftPadded(pre[1..], s);
    } else {
      assert pre + s == s;
    }
  }

  /** Trailing whitespace of any length does not change what `strip` keeps. */
  lemma {:induction false} StripOfRightPadded(s: string, post: string)
    requires AllSpace(post)
    ensures Strip(s + post) == Strip(s)
    decreases |post|
  {
    if |post| > 0 {
      var p := post[..|post| - 1];
      assert s + post == (s + p) + [post[|post| - 1]];
      StripDropsTrailingSpace(s + p, post[|post| - 1]);
      StripOfRightPadded(s, p);
    } else {
      assert s + post == s;
    }
  }

  /** `strip` ignores any whitespace padding on either side. */
  lemma StripOfPadded(pre: string, s: string, post: string)
    requires AllSpace(pre) && AllSpace(post)
    ensures Strip(pre + s + post) == Strip(s)
  {
    StripOfRightPadded(pre + s, post);
    StripOfLeftPadded(pre, s);
  }

  // ---------------------------------------------------------------- case

  function LowerChar(c: char): char {
    if 'A' <= c <= 'Z' then (c as int + 32) as char else c
  }

  function UpperChar(c: char): char {
    if 'a' <= c <= 'z' then (c as int - 32) as char else c
  }

  predicate IsAsciiLetter(c: char) {
    ('a' <= c <= 'z') || ('A' <= c <= 'Z')
  }

  /** `str.lower()` on ASCII letters; every other character is kept. */
  function ToLower(s: string): (r: string)
    ensures |r| == |s|
    ensures forall i :: 0 <= i < |s| ==> r[i] == LowerChar(s[i])
  {
    if s == [] then [] else [LowerChar(s[0])] + ToLower(s[1..])
  }

  lemma ToLowerAppend(a: string, b: string)
    ensures ToLower(a + b) == ToLower(a) + ToLower(b)
  {
    var l, r := ToLower(a + b), ToLower(a) + ToLower(b);
    assert |l| == |r|;
    forall i | 0 <= i < |l| ensures l[i] == r[i] {
      if i < |a| { assert (a + b)[i] == a[i]; } else { assert (a + b)[i] == b[i - |a|]; }
    }
  }

  /** Lower-casing leaves every letter-free string unchanged. */
  lemma ToLowerIdempotent(s: string)
    ensures ToLower(ToLower(s)) == ToLower(s)
  {
  }

  function TitleCaseFrom(s: string, afterLetter: bool): (r: string)
    ensures |r| == |s|
    ensures forall i :: 0 <= i < |s| ==> LowerChar(r[i]) == LowerChar(s[i])
  {
    if s == [] then []
    else
      var c := s[0];
      var c' := if !IsAsciiLetter(c) then c else if afterLetter then LowerChar(c) else UpperChar(c);
      [c'] + TitleCaseFrom(s[1..], IsAsciiLetter(c))
  }

  /** `str.title()` on ASCII: a letter is upper-cased when it does not follow a
      letter and lower-cased when it does; other characters are kept. */
  function TitleCase(s: string): (r: string)
    ensures |r| == |s|
    ensures ToLower(r) == ToLower(s)
  {
    TitleCaseFrom(s, false)
  }

  // ---------------------------------------------------------------- search

  /** Python's `sub in s`. */
  function Contains(s: string, sub: string): bool
    decreases |s|
  {
    if StartsWith(s, sub) then true
    else if |s| == 0 then false
    else Contains(s[1..], sub)
  }

  /** `sub in s` holds exactly when `sub` occurs at some index of `s`. */
  lemma {:induction false} ContainsIffOccurs(s: string, sub: string)
    ensures Contains(s, sub) <==> exists i :: OccursAt(s, sub, i)
    decreases |s|
  {
    if StartsWith(s, sub) {
      assert OccursAt(s, sub, 0);
    } else if |s| > 0 {
      var t := s[1..];
      ContainsIffOccurs(t, sub);
      if Contains(t, sub) {
        var i :| OccursAt(t, sub, i);
        assert s[i + 1..i + 1 + |sub|] == t[i..i + |sub|];
        assert OccursAt(s, sub, i + 1);
      } else {
        forall i | OccursAt(s, sub, i) ensures OccursAt(t, sub, i - 1) {
          assert i != 0;
          assert t[i - 1..i - 1 + |sub|] == s[i..i + |sub|];
        }
      }
    }
  }

  /** The index of the first `c` in `s`. */
  function IndexOf(s: string, c: char): (r: Option<nat>)
    ensures r.None? <==> c !in s
    ensures r.Some? ==> r.value < |s| && s[r.value] == c && c !in s[..r.value]
  {
    if s == [] then None
    else if s[0] == c then Some(0)
    else
      match IndexOf(s[1..], c)
      case None => None
      case Some(i) =>
        assert s[..i + 1] == [s[0]] + s[1..][..i];
        Some(i + 1)
  }

  /** `IndexOf` finds the separator right after a separator-free prefix. */
  lemma IndexOfAfterPrefix(a: string, c: char, b: string)
    requires c !in a
    ensures IndexOf(a + [c] + b, c) == Some(|a|)
  {
    var s := a + [c] + b;
    assert s[|a|] == c;
    var i := IndexOf(s, c).value;
    assert forall j :: 0 <= j < i ==> s[j] != c by {
      forall j | 0 <= j < i ensures s[j] != c { assert s[..i][j] == s[j]; }
    }
    assert forall j :: 0 <= j < |a| ==> s[j] == a[j];
  }

  /** The part of `s` after the first `c`: `s.split(c, 1)[1]`. */
  function AfterFirst(s: string, c: char): (r: string)
    requires c in s
    ensures |r| < |s| && r == s[|s| - |r|..]
    ensures c !in s[..|s| - |r| - 1] && s[|s| - |r| - 1] == c
  {
    var i := IndexOf(s, c).value;
    s[i + 1..]
  }

  lemma AfterFirstOfPrefix(a: string, c: char, b: string)
    requires c !in a
    ensures AfterFirst(a + [c] + b, c) == b
  {
    IndexOfAfterPrefix(a, c, b);
    assert (a + [c] + b)[|a| + 1..] == b;
  }

  /** The value of a `Label: value` line is the value. */
  lemma ValueAfterLabel(name: string, v: string)
    requires ':' !in name && IsStripped(v)
    ensures Strip(AfterFirst(name + [':'] + (" " + v), ':')) == v
  {
    AfterFirstOfPrefix(name, ':', " " + v);
    StripDropsLeadingSpace(' ', v);
    StripOfStripped(v);
  }

  // ---------------------------------------------------------------- split and join

  /** `sep.join(parts)`. */
  function Join(sep: string, parts: seq<string>): string
    decreases |parts|
  {
    if |parts| == 0 then ""
    else if |parts| == 1 then parts[0]
    else parts[0] + sep + Join(sep, parts[1..])
  }

  lemma {:induction false} JoinAppend(sep: string, parts: seq<string>, p: string)
    requires |parts| >= 1
    ensures Join(sep, parts + [p]) == Join(sep, parts) + sep + p
    decreases |parts|
  {
    if |parts| == 1 {
      assert parts + [p] == [parts[0], p];
    } else {
      assert (parts + [p])[1..] == parts[1..] + [p];
      JoinAppend(sep, parts[1..], p);
    }
  }

  /** A join holds no character that neither its parts nor its separator
      hold. */
  lemma {:induction false} JoinKeepsAbsent(sep: string, parts: seq<string>, c: char)
    requires c !in sep && forall k :: 0 <= k < |parts| ==> c !in parts[k]
    ensures c !in Join(sep, parts)
    decreases |parts|
  {
    if |parts| > 1 {
      assert forall k :: 0 <= k < |parts[1..]| ==> parts[1..][k] == parts[k + 1];
      JoinKeepsAbsent(sep, parts[1..], c);
    }
  }

  /** The first part of a join is a prefix of it. */
  lemma JoinStartsWithFirst(sep: string, parts: seq<string>)
    requires |parts| >= 1
    ensures StartsWith(Join(sep, parts), parts[0])
  {
  }

  /** `s.split(sep)` for a one-character separator. */
  function Split(s: string, sep: char): (parts: seq<string>)
    ensures |parts| >= 1
    ensures forall k :: 0 <= k < |parts| ==> sep !in parts[k]
    decreases |s|
  {
    match IndexOf(s, sep)
    case None => [s]
    case Some(i) => [s[..i]] + Split(s[i + 1..], sep)
  }

  /** Joining the pieces of a split restores the string. */
  lemma {:induction false} JoinSplit(s: string, sep: char)
    ensures Join([sep], Split(s, sep)) == s
    decreases |s|
  {
    match IndexOf(s, sep)
    case None =>
    case Some(i) =>
      var rest := Split(s[i + 1..], sep);
      JoinSplit(s[i + 1..], sep);
      assert Split(s, sep) == [s[..i]] + rest;
      assert s == s[..i] + [sep] + s[i + 1..];
  }

  /** Splitting a join of separator-free parts restores the parts. */
  lemma {:induction false} SplitJoin(parts: seq<string>, sep: char)
    requires |parts| >= 1
    requires forall k :: 0 <= k < |parts| ==> sep !in parts[k]
    ensures Split(Join([sep], parts), sep) == parts
    decreases |parts|
  {
    if |parts| > 1 {
      var a, tail := parts[0], Join([sep], parts[1..]);
      var s := a + [sep] + tail;
      assert Join([sep], parts) == s;
      IndexOfAfterPrefix(a, sep, tail);
      assert s[..|a|] == a && s[|a| + 1..] == tail;
      assert Split(s, sep) == [a] + Split(tail, sep);
      SplitJoin(parts[1..], sep);
      assert parts == [a] + parts[1..];
    }
  }

  /** The lines `"- " + item` of a bulleted list. */
  function Bullets(items: seq<string>): (lines: seq<string>)
    ensures |lines| == |items|
    ensures forall i :: 0 <= i < |items| ==> lines[i] == "- " + items[i]
  {
    if items == [] then [] else ["- " + items[0]] + Bullets(items[1..])
  }

  /** `"\n".join("- " + item for item in items)`. */
  function BulletList(items: seq<string>): string {
    Join("\n", Bullets(items))
  }

  /** Splitting a bulleted list at newlines gives back one bullet per item,
      in order, when no item holds a newline. */
  lemma BulletListLines(items: seq<string>)
    requires |items| >= 1
    requires forall k :: 0 <= k < |items| ==> '\n' !in items[k]
    ensures Split(BulletList(items), '\n') == Bullets(items)
  {
    var lines := Bullets(items);
    assert forall k :: 0 <= k < |lines| ==> '\n' !in lines[k] by {
      forall k | 0 <= k < |lines| ensures '\n' !in lines[k] {
        assert lines[k] == "- " + items[k];
      }
    }
    SplitJoin(lines, '\n');
  }

  /** The first line boundary of `s`. */
  function FirstLineBreak(s: string): (r: Option<nat>)
    ensures r.None? ==> NoLineBreak(s)
    ensures r.Some? ==> r.value < |s| && IsLineBreak(s[r.value]) && NoLineBreak(s[..r.value])
  {
    if s == [] then None
    else if IsLineBreak(s[0]) then Some(0)
    else
      match FirstLineBreak(s[1..])
      case None => None
      case Some(i) =>
        assert s[..i + 1] == [s[0]] + s[1..][..i];
        Some(i + 1)
  }

  /** `s.splitlines()`: lines without their boundaries; a final boundary
      does not open an empty last line, and "" has no lines. */
  function SplitLines(s: string): (lines: seq<string>)
    ensures forall k :: 0 <= k < |lines| ==> NoLineBreak(lines[k])
    ensures lines == [] <==> s == []
    decreases |s|
  {
    match FirstLineBreak(s)
    case None => if s == [] then [] else [s]
    case Some(i) =>
      var next := if s[i] == '\r' && i + 1 < |s| && s[i + 1] == '\n' then i + 2 else i + 1;
      [s[..i]] + SplitLines(s[next..])
  }

  lemma SplitLinesOfOneLine(s: string)
    requires s != [] && NoLineBreak(s)
    ensures SplitLines(s) == [s]
  {
  }

  /** A newline right after a line is the first boundary. */
  lemma {:induction false} FirstLineBreakAfterLine(a: string, b: string)
    requires NoLineBreak(a)
    ensures FirstLineBreak(a + "\n" + b) == Some(|a|)
    decreases |a|
  {
    var s := a + "\n" + b;
    if a != [] {
      assert s[1..] == a[1..] + "\n" + b;
      FirstLineBreakAfterLine(a[1..], b);
    }
  }

  /** `splitlines` undoes a newline join of non-empty lines. */
  lemma {:induction false} SplitLinesOfJoin(lines: seq<string>)
    requires forall k :: 0 <= k < |lines| ==> lines[k] != "" && NoLineBreak(lines[k])
    ensures SplitLines(Join("\n", lines)) == lines
    decreases |lines|
  {
    if |lines| == 1 {
      SplitLinesOfOneLine(lines[0]);
    } else if |lines| > 1 {
      var a, tail := lines[0], Join("\n", lines[1..]);
      assert Join("\n", lines) == a + "\n" + tail;
      SplitLinesAfterLine(a, tail);
      SplitLinesOfJoin(lines[1..]);
      assert lines == [a] + lines[1..];
    }
  }

  /** A line followed by a newline is split off as the first line. */
  lemma SplitLinesAfterLine(a: string, tail: string)
    requires NoLineBreak(a)
    ensures SplitLines(a + "\n" + tail) == [a] + SplitLines(tail)
  {
    var s := a + "\n" + tail;
    FirstLineBreakAfterLine(a, tail);
    assert s[|a|] == '\n';
    assert s[..|a|] == a && s[|a| + 1..] == tail;
  }

  // ---------------------------------------------------------------- numbers

  predicate IsDigit(c: char) {
    '0' <= c <= '9'
  }

  predicate AllDigits(s: string) {
    forall i :: 0 <= i < |s| ==> IsDigit(s[i])
  }

  function DigitChar(d: nat): (c: char)
    requires d < 10
    ensures IsDigit(c)
  {
    ('0' as int + d) as char
  }

  /** The value of a string of decimal digits (0 for ""). */
  function DigitsValue(s: string): nat
    requires AllDigits(s)
  {
    if s == [] then 0 else DigitsValue(s[..|s| - 1]) * 10 + (s[|s| - 1] as int - '0' as int)
  }

  /** Decimal rendering of a natural number, as `str(n)`. */
  function NatToString(n: nat): (r: string)
    ensures |r| >= 1 && AllDigits(r)
    ensures r[0] == '0' ==> n == 0
  {
    if n < 10 then [DigitChar(n)] else NatToString(n / 10) + [DigitChar(n % 10)]
  }

  /** `f"{n:02}"`: decimal, left-padded with zeros to at least two digits. */
  function ZeroPad2(n: nat): (r: string)
    ensures AllDigits(r)
    ensures |r| == if n < 10 then 2 else |NatToString(n)|
  {
    if n < 10 then "0" + NatToString(n) else NatToString(n)
  }

  lemma {:induction false} NatToStringRoundTrip(n: nat)
    ensures DigitsValue(NatToString(n)) == n
  {
    if n >= 10 {
      NatToStringRoundTrip(n / 10);
      var s := NatToString(n);
      assert s[..|s| - 1] == NatToString(n / 10);
    }
  }

  lemma {:induction false} LeadingZeroValue(s: string)
    requires AllDigits(s)
    ensures AllDigits("0" + s) && DigitsValue("0" + s) == DigitsValue(s)
    decreases |s|
  {
    if s != [] {
      var t := "0" + s;
      assert t[..|t| - 1] == "0" + s[..|s| - 1];
      LeadingZeroValue(s[..|s| - 1]);
    }
  }

  /** The zero-padded rendering reads back as the number it renders. */
  lemma ZeroPad2RoundTrip(n: nat)
    ensures DigitsValue(ZeroPad2(n)) == n
  {
    NatToStringRoundTrip(n);
    if n < 10 { LeadingZeroValue(NatToString(n)); }
  }
}

=== FILE: url_resolver.dfy ===
/** The official-link resolver: ask Cohere, then Gemini, for a `Title:` /
    `URL:` reply, fall back to a fixed keyword table, and format the answer.
    The two model calls are not modelled: their reply texts are parameters
    (each helper already turns its own failures into reply text). */
module UrlResolver {
  import opened Wrappers
  import opened Text
  import opened LabelledReply

  const TitleKey: string := "title:"
  const UrlKey: string := "url:"

  lemma KeysAreDistinctLabels()
    ensures DistinctLabels(TitleKey, UrlKey)
  {
  }

  /** The `{"title": …, "url": …}` dictionary; None stands for Python's None. */
  datatype Link = Link(title: Option<string>, url: Option<string>)

  /** `parse_title_url`: each field is the value of the last reply line that
      starts, in any letter case, with its key; None when no line does. */
  function ParseTitleUrl(reply: string): (r: Link)
    ensures r.title == LastValue(SplitLines(Strip(reply)), TitleKey)
    ensures r.url == LastValue(SplitLines(Strip(reply)), UrlKey)
  {
    KeysAreDistinctLabels();
    var f := ParseReply(TitleKey, UrlKey, reply);
    Link(f.first, f.second)
  }

  /** A reply ending in a `URL:` line yields that line's value as the url,
      so with `LabelLineValue` a `URL: https://…` line keeps its "://". */
  lemma LastUrlLineIsUrl(reply: string, line: string)
    requires LineHas(line, UrlKey)
    requires var lines := SplitLines(Strip(reply));
      lines != [] && lines[|lines| - 1] == line
    ensures ParseTitleUrl(reply).url == Some(FieldValue(line, UrlKey))
  {
    KeysAreDistinctLabels();
    LastReplyLineSetsSecond(TitleKey, UrlKey, reply, line);
  }

  /** A reply with no `title:` / `url:` line leaves both fields None. */
  lemma NoKeysNoLink(reply: string)
    requires forall k :: 0 <= k < |SplitLines(Strip(reply))| ==>
               !LineHas(SplitLines(Strip(reply))[k], TitleKey) && !LineHas(SplitLines(Strip(reply))[k], UrlKey)
    ensures ParseTitleUrl(reply) == Link(None, None)
  {
    var lines := SplitLines(Strip(reply));
    NoMatchNoValue(lines, TitleKey);
    NoMatchNoValue(lines, UrlKey);
  }

  // ---------------------------------------------------------------- static table

  const Https: string := "https://"

  /** `KNOWN_LINKS`, in table order. */
  const KnownLinks: seq<(string, string)> := [
    ("kyc update", Https + "instaservices.hdfcbank.com/?journey=116"),
    ("mobile update", Https + "instaservices.hdfcbank.com/?journey=105"),
    ("email update", Https + "instaservices.hdfcbank.com/?journey=106"),
    ("interest certificate", Https + "xpressforms.hdfcbank.com/login?redirect=%2Fforms%2Fic01"),
    ("forms centre", Https + "www.hdfcbank.com/personal/resources/forms-centre"),
    ("netbanking login", Https + "netbanking.hdfcbank.com/netbanking/"),
    ("block card", Https + "www.hdfcbank.com/personal/faq/card-blocking")
  ]

  lemma PrefixStartsWith(p: string, rest: string)
    ensures StartsWith(p + rest, p)
  {
    assert (p + rest)[..|p|] == p;
  }

  /** Every table link is an https URL and every keyword is nonempty. */
  lemma KnownLinksAreHttps()
    ensures forall k :: 0 <= k < |KnownLinks| ==> StartsWith(KnownLinks[k].1, Https)
    ensures forall k :: 0 <= k < |KnownLinks| ==> KnownLinks[k].0 != ""
  {
    forall k | 0 <= k < |KnownLinks| ensures StartsWith(KnownLinks[k].1, Https) {
      PrefixStartsWith(Https, KnownLinks[k].1[|Https|..]);
      assert KnownLinks[k].1 == Https + KnownLinks[k].1[|Https|..];
    }
  }

  /** The first table row, from `from` on, whose keyword occurs in `lq`. */
  function FirstKeyword(lq: string, from: nat): (r: Option<nat>)
    requires from <= |KnownLinks|
    ensures r.Some? ==> from <= r.value < |KnownLinks| && Contains(lq, KnownLinks[r.value].0)
    ensures r.Some? ==> forall k :: from <= k < r.value ==> !Contains(lq, KnownLinks[k].0)
    ensures r.None? <==> forall k :: from <= k < |KnownLinks| ==> !Contains(lq, KnownLinks[k].0)
    decreases |KnownLinks| - from
  {
    if from == |KnownLinks| then None
    else if Contains(lq, KnownLinks[from].0) then Some(from)
    else FirstKeyword(lq, from + 1)
  }

  /** `fallback_from_known_links`: the first keyword, in table order, found
      in the lower-cased query, title-cased, with its link; else both None. */
  function FallbackFromKnownLinks(query: string): (r: Link)
    ensures r.url.Some? <==> exists k :: 0 <= k < |KnownLinks| && Contains(ToLower(query), KnownLinks[k].0)
    ensures r.url.Some? ==>
      (exists k :: 0 <= k < |KnownLinks| && Contains(ToLower(query), KnownLinks[k].0)
        && (forall j :: 0 <= j < k ==> !Contains(ToLower(query), KnownLinks[j].0))
        && r == Link(Some(TitleCase(KnownLinks[k].0)), Some(KnownLinks[k].1)))
    ensures r.url.None? ==> r.title.None?
  {
    match FirstKeyword(ToLower(query), 0)
    case Some(k) => Link(Some(TitleCase(KnownLinks[k].0)), Some(KnownLinks[k].1))
    case None => Link(None, None)
  }

  // ---------------------------------------------------------------- cascade

  /** A provider answer is taken when its url is nonempty and starts with "http". */
  predicate Accepted(l: Link) {
    l.url.Some? && l.url.value != "" && StartsWith(l.url.value, "http")
  }

  /** `get_best_url_for_query`: Cohere's answer if accepted, else Gemini's if
      accepted, else the static table. */
  function GetBestUrl(query: string, cohereReply: string, geminiReply: string): (r: Link)
    ensures Accepted(ParseTitleUrl(cohereReply)) ==> r == ParseTitleUrl(cohereReply)
    ensures !Accepted(ParseTitleUrl(cohereReply)) && Accepted(ParseTitleUrl(geminiReply)) ==>
      r == ParseTitleUrl(geminiReply)
    ensures !Accepted(ParseTitleUrl(cohereReply)) && !Accepted(ParseTitleUrl(geminiReply)) ==>
      r == FallbackFromKnownLinks(query)
  {
    var c := ParseTitleUrl(cohereReply);
    if Accepted(c) then c
    else
      var g := ParseTitleUrl(geminiReply);
      if Accepted(g) then g else FallbackFromKnownLinks(query)
  }

  const NoLinkMessage: string := "❌" + " No relevant official link found. Please refine your question."

  /** Both fields present and nonempty, and the url starts with "http". */
  predicate Linkable(l: Link) {
    l.title.Some? && l.title.value != "" && Accepted(l)
  }

  function LinkMessage(title: string, url: string): string {
    "Here is the link for **" + title + "**: [Click here](" + url + ")"
  }

  /** `format_url_response`. */
  function FormatUrlResponse(l: Link): (r: string)
    ensures Linkable(l) ==> r == LinkMessage(l.title.value, l.url.value)
    ensures !Linkable(l) ==> r == NoLinkMessage
  {
    if Linkable(l) then LinkMessage(l.title.value, l.url.value) else NoLinkMessage
  }

  /** `resolve_link_via_gemini`. */
  function ResolveLink(query: string, cohereReply: string, geminiReply: string): string {
    FormatUrlResponse(GetBestUrl(query, cohereReply, geminiReply))
  }

  // ---------------------------------------------------------------- properties

  /** Any static-table hit formats as a link message. */
  lemma StaticHitFormatsAsLink(query: string)
    requires FallbackFromKnownLinks(query).url.Some?
    ensures Linkable(FallbackFromKnownLinks(query))
  {
    var k := FirstKeyword(ToLower(query), 0).value;
    KnownLinkIsLinkable(k);
  }

  /** Every table row, title-cased, is a linkable answer. */
  lemma KnownLinkIsLinkable(k: nat)
    requires k < |KnownLinks|
    ensures Linkable(Link(Some(TitleCase(KnownLinks[k].0)), Some(KnownLinks[k].1)))
  {
    KnownLinksAreHttps();
    assert |TitleCase(KnownLinks[k].0)| == |KnownLinks[k].0|;
    assert StartsWith(KnownLinks[k].1, Https);
    assert KnownLinks[k].1[..4] == Https[..4];
  }

  /** When both providers fail but the query names a table keyword, the
      answer is that keyword's link. */
  lemma FallbackAnswersWithTableLink(query: string, cohereReply: string, geminiReply: string)
    requires !Accepted(ParseTitleUrl(cohereReply)) && !Accepted(ParseTitleUrl(geminiReply))
    requires exists k :: 0 <= k < |KnownLinks| && Contains(ToLower(query), KnownLinks[k].0)
    ensures ResolveLink(query, cohereReply, geminiReply) != NoLinkMessage
  {
    StaticHitFormatsAsLink(query);
    var l := FallbackFromKnownLinks(query);
    LinkMessageIsNotFailure(l.title.value, l.url.value);
  }

  lemma LinkMessageIsNotFailure(title: string, url: string)
    ensures LinkMessage(title, url) != NoLinkMessage
  {
    LinkMessageStartsWithH(title, url);
    assert NoLinkMessage[0] == '❌';
  }

  lemma LinkMessageStartsWithH(title: string, url: string)
    ensures |LinkMessage(title, url)| > 0 && LinkMessage(title, url)[0] == 'H'
  {
  }

  lemma NotHttpByFirstChar(s: string)
    requires |s| > 0 && s[0] != 'h'
    ensures !StartsWith(s, "http")
  {
    if |s| >= 4 { assert s[..4][0] == s[0]; }
  }

  /** A provider answer with a good url but no title still wins over the
      static table, and then formats as the failure message even when the
      table would have had a link. */
  lemma AcceptedWithoutTitleFails(query: string, cohereReply: string, geminiReply: string)
    requires Accepted(ParseTitleUrl(cohereReply))
    requires ParseTitleUrl(cohereReply).title.None? || ParseTitleUrl(cohereReply).title == Some("")
    ensures ResolveLink(query, cohereReply, geminiReply) == NoLinkMessage
  {
  }

  /** The resolver's answer never itself starts with "http". */
  lemma ResolvedNeverStartsWithHttp(query: string, cohereReply: string, geminiReply: string)
    ensures !StartsWith(ResolveLink(query, cohereReply, geminiReply), "http")
  {
    var l := GetBestUrl(query, cohereReply, geminiReply);
    if Linkable(l) {
      LinkMessageStartsWithH(l.title.value, l.url.value);
      NotHttpByFirstChar(LinkMessage(l.title.value, l.url.value));
    } else {
      assert |NoLinkMessage| > 0 && NoLinkMessage[0] == '❌';
      NotHttpByFirstChar(NoLinkMessage);
    }
  }
}

=== FILE: validator_agent.dfy ===
/** Quality gate on scraped content: URL shape, link list cleaning, minimum
    text length, a crude table check, and the reduction of a scrape result
    to its valid sections. */
module ValidatorAgent {
  import opened Wrappers
  import opened Text
  import opened Seqs

  const MinTextLength: nat := 300

  /** The `[\w./%-]` class of the URL pattern, with `\w` read as ASCII. */
  predicate IsUrlChar(c: char) {
    IsAsciiLetter(c) || IsDigit(c) || c == '_' || c == '.' || c == '/' || c == '%' || c == '-'
  }

  predicate AllUrlChars(s: string) {
    forall i :: 0 <= i < |s| ==> IsUrlChar(s[i])
  }

  /** `^https?://[\w./%-]+$` against the whole of `u`. */
  predicate MatchesUrlPattern(u: string) {
    (StartsWith(u, "http://") && |u| > 7 && AllUrlChars(u[7..]))
    || (StartsWith(u, "https://") && |u| > 8 && AllUrlChars(u[8..]))
  }

  /** `is_valid_url`: the stripped string matches the URL pattern. */
  function IsValidUrl(url: string): (b: bool)
    ensures b ==> StartsWith(Strip(url), "http")
    ensures b ==> |Strip(url)| > 7
  {
    var u := Strip(url);
    assert MatchesUrlPattern(u) ==> StartsWith(u, "http") && |u| > 7 by {
      if MatchesUrlPattern(u) { PatternIsHttp(u); }
    }
    MatchesUrlPattern(u)
  }

  /** Both schemes of the pattern begin with "http". */
  lemma PatternIsHttp(u: string)
    requires MatchesUrlPattern(u)
    ensures StartsWith(u, "http") && |u| > 7
  {
    var n := if StartsWith(u, "https://") then 8 else 7;
    assert u[..4] == u[..n][..4];
  }

  /** Query strings, ports and spaces are outside the pattern: a match holds
      no `?`, `=` or space, and no `:` but the one after the scheme. */
  lemma PatternExcludesQuery(u: string)
    requires MatchesUrlPattern(u)
    ensures '?' !in u && '=' !in u && ' ' !in u
    ensures forall i :: 0 <= i < |u| && u[i] == ':' ==> 4 <= i <= 5
  {
    var n := if StartsWith(u, "https://") then 8 else 7;
    var scheme := u[..n];
    assert scheme == "https://" || scheme == "http://";
    assert AllUrlChars(u[n..]);
    forall i | 0 <= i < |u|
      ensures u[i] != '?' && u[i] != '=' && u[i] != ' ' && (u[i] == ':' ==> 4 <= i <= 5)
    {
      if i < n { assert u[i] == scheme[i]; } else { assert u[i] == u[n..][i - n]; }
    }
  }

  /** Surrounding whitespace never changes the verdict. */
  lemma ValidUrlIgnoresPadding(url: string)
    ensures IsValidUrl(Strip(url)) == IsValidUrl(url)
  {
    StripIdempotent(url);
  }

  /** A URL pattern match is exactly a scheme followed by a nonempty run of
      URL characters. */
  lemma UrlPatternComposes(scheme: string, rest: string)
    requires scheme == "http://" || scheme == "https://"
    requires rest != [] && AllUrlChars(rest)
    ensures MatchesUrlPattern(scheme + rest)
  {
    var u := scheme + rest;
    assert u[..|scheme|] == scheme;
    assert u[|scheme|..] == rest;
  }

  /** An element of the `links` list: a (title, url) pair of strings, or
      an element the filter rejects without touching its title: another
      shape, another arity, a non-string url, or a falsy non-string title. */
  datatype RawLink = Pair(title: string, url: string) | Malformed

  /** The filter of `validate_links`: a 2-tuple with a truthy title and a
      valid url. A title of blanks is truthy. */
  predicate Keeps(l: RawLink) {
    l.Pair? && l.title != "" && IsValidUrl(l.url)
  }

  function CleanLink(l: RawLink): (string, string) {
    if l.Pair? then (Strip(l.title), Strip(l.url)) else ("", "")
  }

  /** `validate_links`: the kept links, in order, both halves stripped. */
  function ValidateLinks(links: seq<RawLink>): (r: seq<(string, string)>)
    ensures |r| <= |links|
    ensures r == [] <==> forall k :: 0 <= k < |links| ==> !Keeps(links[k])
  {
    FilterMap(links, Keeps, CleanLink)
  }

  /** Every surviving link is a stripped, well-formed URL with its stripped
      title, taken from some kept input pair. */
  lemma ValidatedLinkIsClean(links: seq<RawLink>, k: nat)
    requires k < |ValidateLinks(links)|
    ensures var r := ValidateLinks(links)[k];
      IsStripped(r.0) && IsStripped(r.1) && MatchesUrlPattern(r.1)
      && exists j :: 0 <= j < |links| && links[j].Pair? && r == (Strip(links[j].title), Strip(links[j].url))
  {
    FilterMapFrom(links, Keeps, CleanLink, k);
  }

  /** Validation distributes over concatenation of link lists. */
  lemma ValidateLinksAppend(a: seq<RawLink>, b: seq<RawLink>)
    ensures ValidateLinks(a + b) == ValidateLinks(a) + ValidateLinks(b)
  {
    FilterMapAppend(a, b, Keeps, CleanLink);
  }

  /** Exactly the kept links survive, so a list of good links loses nothing. */
  lemma ValidateLinksCount(links: seq<RawLink>)
    ensures |ValidateLinks(links)| == Count(links, Keeps)
    ensures (forall k :: 0 <= k < |links| ==> Keeps(links[k])) ==> |ValidateLinks(links)| == |links|
  {
    FilterMapCount(links, Keeps, CleanLink);
  }

  /** `validate_text`: at least 300 characters once stripped. */
  function ValidateText(text: string): (b: bool)
    ensures b ==> |text| >= MinTextLength
    ensures IsStripped(text) ==> (b <==> |text| >= MinTextLength)
    ensures AllSpace(text) ==> !b
  {
    assert AllSpace(text) ==> Strip(text) == "" by {
      if AllSpace(text) { StripOfAllSpace(text); }
    }
    assert IsStripped(text) ==> Strip(text) == text by {
      if IsStripped(text) { StripOfStripped(text); }
    }
    |Strip(text)| >= MinTextLength
  }

  /** The verdict on a text is decided by its content between the padding:
      whitespace around it never changes the verdict, and the content passes
      exactly when it holds at least 300 characters. */
  lemma ValidTextIgnoresPadding(pre: string, content: string, post: string)
    requires AllSpace(pre) && AllSpace(post) && IsStripped(content)
    ensures ValidateText(pre + content + post) == ValidateText(content)
    ensures ValidateText(pre + content + post) <==> |content| >= MinTextLength
  {
    var padded := pre + content + post;
    assert Strip(padded) == content by {
      StripOfPadded(pre, content, post);
      StripOfStripped(content);
    }
    assert ValidateText(padded) == (|content| >= MinTextLength);
  }

  /** `validate_table_text`: a `|` or a newline anywhere. */
  function ValidateTableText(tables: string): (b: bool)
    ensures b <==> exists i :: 0 <= i < |tables| && (tables[i] == '|' || tables[i] == '\n')
  {
    '|' in tables || '\n' in tables
  }

  /** A scrape result: each of its three sections may be absent. */
  datatype Scraped = Scraped(text: Option<string>, tables: Option<string>, links: Option<seq<RawLink>>)

  /** The validated dictionary: only the sections that passed. */
  datatype Validated = Validated(text: Option<string>, tables: Option<string>, links: Option<seq<(string, string)>>)
  {
    predicate IsEmpty() {
      text.None? && tables.None? && links.None?
    }
  }

  /** `validate_scraped_data`: text and tables are kept unchanged when they
      pass their check; links are kept, cleaned, when any survives. No key
      appears that the input lacks. */
  function ValidateScrapedData(s: Scraped): (r: Validated)
    ensures r.text.Some? ==> s.text.Some? && r.text == s.text && ValidateText(s.text.value)
    ensures r.tables.Some? ==> s.tables.Some? && r.tables == s.tables && ValidateTableText(s.tables.value)
    ensures r.links.Some? ==> s.links.Some? && r.links.value == ValidateLinks(s.links.value) && r.links.value != []
    ensures s.text.Some? && ValidateText(s.text.value) ==> r.text.Some?
    ensures s.tables.Some? && ValidateTableText(s.tables.value) ==> r.tables.Some?
    ensures s.links.Some? && ValidateLinks(s.links.value) != [] ==> r.links.Some?
  {
    var text := if s.text.Some? && ValidateText(s.text.value) then s.text else None;
    var tables := if s.tables.Some? && ValidateTableText(s.tables.value) then s.tables else None;
    var links :=
      if s.links.Some? then
        var ls := ValidateLinks(s.links.value);
        if ls != [] then Some(ls) else None
      else None;
    Validated(text, tables, links)
  }

  /** `is_valid_response`: the validated dictionary is not empty. */
  function IsValidResponse(s: Scraped): (b: bool)
    ensures b <==> !ValidateScrapedData(s).IsEmpty()
  {
    !ValidateScrapedData(s).IsEmpty()
  }

  /** A response is valid exactly when its text is long enough, or its
      tables look like a table, or one of its links is well formed. */
  lemma ValidResponseIffSomeSection(s: Scraped)
    ensures IsValidResponse(s) <==>
      (s.text.Some? && ValidateText(s.text.value))
      || (s.tables.Some? && ValidateTableText(s.tables.value))
      || (s.links.Some? && exists k :: 0 <= k < |s.links.value| && Keeps(s.links.value[k]))
  {
  }

  /** Validation is idempotent on the sections it keeps unchanged. */
  lemma RevalidationKeepsTextAndTables(s: Scraped)
    ensures var r := ValidateScrapedData(s);
      ValidateScrapedData(Scraped(r.text, r.tables, None)) == Validated(r.text, r.tables, None)
  {
  }

  /** The module's own sample without its links: the short text is
      dropped while the `Label | Value` table is kept, so the response is
      valid. */
  lemma SampleScrape(text: string, table: string)
    requires text == "Short text."
    requires table == "Label | Value\n---- | ----\nA | B"
    ensures var r := ValidateScrapedData(Scraped(Some(text), Some(table), None));
      r.text.None? && r.tables == Some(table)
    ensures IsValidResponse(Scraped(Some(text), Some(table), None))
  {
    assert |Strip(text)| <= |text| < MinTextLength;
    SampleTableHasColumns(table);
  }

  /** The sample table's first line carries a column separator. */
  lemma SampleTableHasColumns(table: string)
    requires table == "Label | Value\n---- | ----\nA | B"
    ensures ValidateTableText(table)
  {
    assert table[6] == '|';
  }

  /** A clean pair with a nonempty title survives validation unchanged. */
  lemma CleanPairSurvives(title: string, url: string)
    requires title != [] && IsStripped(title) && IsStripped(url) && MatchesUrlPattern(url)
    ensures ValidateLinks([Pair(title, url)]) == [(title, url)]
  {
    StripOfStripped(url);
    StripOfStripped(title);
    var l := Pair(title, url);
    assert Keeps(l);
    assert FilterMap([l], Keeps, CleanLink) == [CleanLink(l)] + FilterMap([l][1..], Keeps, CleanLink);
  }

  /** The sample's link `("RBI Circular", "https://rbi.org.in/link")` is
      such a pair. */
  lemma SampleLink(title: string, rest: string)
    requires title == "RBI Circular" && rest == "rbi.org.in/link"
    ensures ValidateLinks([Pair(title, "https://" + rest)]) == [(title, "https://" + rest)]
  {
    var url := "https://" + rest;
    assert IsStripped(url) && IsStripped(title) by {
      assert url[0] == 'h' && url[|url| - 1] == 'k';
    }
    assert AllUrlChars(rest);
    UrlPatternComposes("https://", rest);
    CleanPairSurvives(title, url);
  }
}

=== FILE: web_retriever.dfy ===
/** Live lookups on the RBI and HDFC Bank sites and their plain-text
    formatters. The HTTP request and the HTML parsing are not modelled: each
    fetcher receives the selected page elements, already reduced to their
    stripped text, or the text of the exception the request raised. */
module WebRetriever {
  import opened Wrappers
  import opened Text
  import opened Seqs
  import opened OrderedMap

  /** The outcome of a request plus parse. */
  datatype Fetch<T> = Fetched(page: T) | Failed(error: string)

  /** A selected `<a>`: its stripped text and its `href` attribute, if any. */
  datatype Anchor = Anchor(text: string, href: Option<string>)

  const RbiBase: string := "https://www.rbi.org.in"

  /** An f-string renders a missing `href` as "None". */
  function HrefText(href: Option<string>): string {
    if href.Some? then href.value else "None"
  }

  function CircularOf(a: Anchor): (string, string) {
    (a.text, RbiBase + HrefText(a.href))
  }

  const CircularsError: string := "⚠️" + " Failed to retrieve RBI circulars"

  /** `get_rbi_latest_circulars`: the first `limit` press-release anchors as
      (title, absolute url) pairs, or one warning pair carrying the error. */
  function GetRbiLatestCirculars(page: Fetch<seq<Anchor>>, limit: int): (r: seq<(string, string)>)
    ensures page.Failed? ==> r == [(CircularsError, page.error)]
    ensures page.Fetched? ==> |r| <= |page.page| && (limit >= 0 ==> |r| <= limit)
    ensures page.Fetched? && limit >= 0 ==> |r| == if limit < |page.page| then limit else |page.page|
    ensures page.Fetched? && limit < 0 ==> |r| == if |page.page| + limit > 0 then |page.page| + limit else 0
    ensures page.Fetched? ==> forall i :: 0 <= i < |r| ==>
      r[i].0 == page.page[i].text && StartsWith(r[i].1, RbiBase)
      && r[i].1[|RbiBase|..] == HrefText(page.page[i].href)
  {
    match page
    case Failed(e) => [(CircularsError, e)]
    case Fetched(anchors) =>
      var r := Map(SliceTo(anchors, limit), CircularOf);
      forall i | 0 <= i < |r|
        ensures r[i].0 == anchors[i].text && StartsWith(r[i].1, RbiBase) && r[i].1[|RbiBase|..] == HrefText(anchors[i].href)
      {
        var u := RbiBase + HrefText(anchors[i].href);
        assert r[i].1 == u;
        assert u[..|RbiBase|] == RbiBase && u[|RbiBase|..] == HrefText(anchors[i].href);
      }
      r
  }

  /** Each circular is its anchor: the title is the anchor's text, and the
      anchor's `href` reads back from the url after the site's base, so the
      pair determines the anchor whenever the anchor had an `href`. */
  lemma CircularReadsBackAnchor(page: seq<Anchor>, limit: int, i: nat)
    requires i < |GetRbiLatestCirculars(Fetched(page), limit)|
    requires page[i].href.Some?
    ensures var c := GetRbiLatestCirculars(Fetched(page), limit)[i];
      Anchor(c.0, Some(c.1[|RbiBase|..])) == page[i]
  {
  }

  const NoCardsMessage: string := "⚠️" + " Could not find card names. Structure might have changed."

  function CardsError(e: string): string {
    "⚠️" + " Failed to retrieve HDFC credit cards: " + e
  }

  /** `get_hdfc_credit_cards`: the first `limit` card names; a placeholder
      when there are none; one error entry when the request failed. */
  function GetHdfcCreditCards(page: Fetch<seq<string>>, limit: int): (r: seq<string>)
    ensures r != []
    ensures limit >= 1 ==> |r| <= limit
    ensures page.Fetched? && SliceTo(page.page, limit) != [] ==> r == SliceTo(page.page, limit)
    ensures page.Fetched? && SliceTo(page.page, limit) == [] ==> r == [NoCardsMessage]
    ensures page.Failed? ==> r == [CardsError(page.error)]
  {
    match page
    case Failed(e) => [CardsError(e)]
    case Fetched(names) =>
      var cards := SliceTo(names, limit);
      if cards == [] then [NoCardsMessage] else cards
  }

  /** One table row's effect on the rates dictionary: a row with at least two
      cells sets `rates[cell0] = cell1`. */
  function RateRow(rates: seq<(string, string)>, cells: seq<string>): seq<(string, string)> {
    if |cells| >= 2 then Assign(rates, cells[0], cells[1]) else rates
  }

  /** The rows folded in document order. */
  function CollectRates(rows: seq<seq<string>>): (r: seq<(string, string)>)
    ensures DistinctKeys(r)
    decreases |rows|
  {
    if rows == [] then [] else RateRow(CollectRates(rows[..|rows| - 1]), rows[|rows| - 1])
  }

  /** Reference reading: the second cell of the LAST row of two or more cells
      whose first cell is `k`. */
  function LastRateFor(rows: seq<seq<string>>, k: string): Option<string>
    decreases |rows|
  {
    if rows == [] then None
    else
      var row := rows[|rows| - 1];
      if |row| >= 2 && row[0] == k then Some(row[1]) else LastRateFor(rows[..|rows| - 1], k)
  }

  /** Each label maps to the value of the last row that carries it; a label
      no row carries is absent. */
  lemma {:induction false} CollectRatesKeepsLast(rows: seq<seq<string>>, k: string)
    ensures Lookup(CollectRates(rows), k) == LastRateFor(rows, k)
    decreases |rows|
  {
    if rows != [] {
      var init, row := rows[..|rows| - 1], rows[|rows| - 1];
      CollectRatesKeepsLast(init, k);
      if |row| >= 2 {
        if row[0] == k {
          AssignThenLookup(CollectRates(init), k, row[1]);
        } else {
          AssignKeepsOtherKeys(CollectRates(init), row[0], row[1], k);
        }
      }
    }
  }

  const NoRatesKey: string := "⚠️"
  const NoRatesMessage: string := "No rates found. RBI homepage structure may have changed."
  const RatesErrorKey: string := "⚠️" + " Error"

  /** `get_rbi_interest_rates`: the collected rates; a single placeholder
      entry when there are none; a single error entry when the request
      failed. Never empty. */
  function GetRbiInterestRates(page: Fetch<seq<seq<string>>>): (r: seq<(string, string)>)
    ensures r != [] && DistinctKeys(r)
    ensures page.Failed? ==> r == [(RatesErrorKey, page.error)]
    ensures page.Fetched? && CollectRates(page.page) != [] ==> r == CollectRates(page.page)
    ensures page.Fetched? && CollectRates(page.page) == [] ==> r == [(NoRatesKey, NoRatesMessage)]
  {
    match page
    case Failed(e) => [(RatesErrorKey, e)]
    case Fetched(rows) =>
      var rates := CollectRates(rows);
      if rates == [] then [(NoRatesKey, NoRatesMessage)] else rates
  }

  // ---------------------------------------------------------------- formatters

  /** `f"- {a}: {b}"`. */
  function PairLine(p: (string, string)): string {
    "- " + p.0 + ": " + p.1
  }

  /** One "- a: b" line per pair, in order, joined by newlines. */
  function PairList(pairs: seq<(string, string)>): string {
    Join("\n", Map(pairs, PairLine))
  }

  /** `format_circulars`. */
  function FormatCirculars(circulars: seq<(string, string)>): string {
    PairList(circulars)
  }

  /** `format_credit_cards`. */
  function FormatCreditCards(cards: seq<string>): string {
    BulletList(cards)
  }

  /** `format_interest_rates`: one line per entry in dictionary order. */
  function FormatInterestRates(rates: seq<(string, string)>): string {
    PairList(rates)
  }

  /** Splitting a pair list at newlines gives back one "- a: b" line per
      pair, in order, when no pair holds a newline; no pairs give "". */
  lemma PairListLines(pairs: seq<(string, string)>)
    requires forall k :: 0 <= k < |pairs| ==> '\n' !in pairs[k].0 && '\n' !in pairs[k].1
    ensures pairs == [] ==> PairList(pairs) == ""
    ensures pairs != [] ==> Split(PairList(pairs), '\n') == Map(pairs, PairLine)
  {
    var lines := Map(pairs, PairLine);
    if pairs != [] {
      forall k | 0 <= k < |lines| ensures '\n' !in lines[k] {
        PairLineHasNoNewline(pairs[k]);
      }
      SplitJoin(lines, '\n');
    }
  }

  lemma PairLineHasNoNewline(p: (string, string))
    requires '\n' !in p.0 && '\n' !in p.1
    ensures '\n' !in PairLine(p)
  {
    var a, b := "- ", ": ";
    assert '\n' !in a && '\n' !in b;
    assert PairLine(p) == a + p.0 + b + p.1;
  }

  /** Card names free of line breaks format as one "- name" line per card,
      in order. */
  lemma CardsFormatOneLineEach(cards: seq<string>)
    requires cards != [] && forall k :: 0 <= k < |cards| ==> '\n' !in cards[k]
    ensures var lines := Split(FormatCreditCards(cards), '\n');
      |lines| == |cards| && forall i :: 0 <= i < |cards| ==> lines[i] == "- " + cards[i]
  {
    BulletListLines(cards);
  }

  /** A fetched circular list formats as one line per circular. */
  lemma CircularsFormatOneLineEach(page: seq<Anchor>, limit: int)
    requires forall k :: 0 <= k < |page| ==> '\n' !in page[k].text && (page[k].href.Some? ==> '\n' !in page[k].href.value)
    requires GetRbiLatestCirculars(Fetched(page), limit) != []
    ensures |Split(FormatCirculars(GetRbiLatestCirculars(Fetched(page), limit)), '\n')| ==
      |GetRbiLatestCirculars(Fetched(page), limit)|
  {
    var cs := GetRbiLatestCirculars(Fetched(page), limit);
    forall k | 0 <= k < |cs| ensures '\n' !in cs[k].0 && '\n' !in cs[k].1 {
      assert cs[k] == CircularOf(page[k]);
      assert '\n' !in RbiBase;
    }
    PairListLines(cs);
  }
}

=== FILE: wrappers.dfy ===
/** The Option datatype used for Python values that may be `None`. */
module Wrappers {

  datatype Option<+T> = None | Some(value: T) {

    /** The wrapped value, or `default` when there is none. */
    function GetOr(default: T): T {
      match this
      case Some(v) => v
      case None => default
    }
  }
}
